=== FILE: README.md ===
# Retail OLAP engine: a Dafny model

This project models the query and reshaping core of a small retail sales
warehouse. The warehouse is a star schema: a FactSales table plus shop, date
and product dimensions. Its analysis component answers roll-up and
drill-down questions over three four-level hierarchies:

- geography: country > region > city > shop;
- time: year > quarter > month > day;
- product: category > family > group > article.

The model covers these parts:

- **Granularity registry and validation** (`Hierarchy`).
  - Maps each level name to the dimension column it selects.
  - Rejects an unknown level. The geography level is checked first, then time, then product.
  - Models the year filter, which Python applies only when the year is truthy.
- **Grouping sets** (`Grouping`).
  - The GROUPING() bit triple of a grouping set.
  - The eight sets of `GROUP BY CUBE` and the five explicit sets of the cross-table query.
  - The two CASE decision tables that label a row with its aggregation level.
- **Query evaluation** (`OlapQuery`).
  - Both queries as data: fields, grouping sets, year filter.
  - Their SUM(quantity)/COUNT(*) semantics over a sequence of joined facts. SUM over no rows is NULL; the empty grouping set always forms one row.
  - The ORDER BY key: GROUPING() bits first, then each dimension's text, with a rolled-up value read as 'ZZZZ'.
- **Cross-table reshaper** (`CrossTable`), which models `generate_cross_table`:
  - keeps only the Detail rows;
  - pivots them with geography x time as rows and product as columns, filling missing cells with zero;
  - recomputes the TOTAL column and the TOTAL row;
  - truncates the display to 8 product columns plus a '...' marker;
  - emits each region's time rows followed by a regional subtotal, then the grand total row (the subtotal row as the code builds it, and alongside it the corrected one);
  - covers the early exits: no data, and no Detail rows;
  - covers the two failures that send the code to its fallback. One is a Detail value named TOTAL, which clashes with the margin name. The other is a product named '...' among the first 8 of more than 8 products, where the '...' column cannot be inserted;
  - covers a displayed product named 'geo_region' or 'time_period' (`Relabelled`). Its values overwrite that index label of every line, its column leaves the table, and no region gets a subtotal line;
  - composes the reshaping with the query it runs first (`CrossTableReport`).

  The `Table` outcome is the cross table the code prints. Whenever there is data, the function itself returns the raw query rows (`data`), with or without a printed table; with no data it returns None.
- **Drill navigator** (`Navigator`). The state machine of `interactive_drill_navigation`:
  - one level index per hierarchy;
  - options 1-3 drill down, 4-6 roll up, 7 shows detail, 8 leaves;
  - any other input changes nothing.
- **ETL pieces** (`DateDimension`, `SalesLoad`, `Calendar`, `Text`):
  - the date dimension rows generated for a year range;
  - the integer date key YYYYMMDD and the ISO date text;
  - the D.M.Y sales date parse;
  - the shop and article lookups, where a later duplicate name overwrites an earlier one;
  - per-row processing, where an unknown shop or article is skipped silently and any other fault is reported and skipped;
  - batching into inserts of 1000 rows, with `processed_count` as the number of facts inserted.

Supporting modules:

- `Wrappers`: Option and Result.
- `Sums`: sums, filters and per-key tallies, with the partition lemmas.
- `Ordering`: code-point string order, sorted-distinct insertion and sorting by a key.

Every operation has a partner property:

- validation and its if-and-only-if;
- the labels and the sets they are injective on;
- detail sums against grand totals;
- pivot cells against the Detail rows they come from;
- drill down against roll up;
- reachability of every navigator position;
- the date key's decode and its order;
- parse against format;
- lookup against a last-occurrence reference;
- batching against a flatten plus uniqueness reference.

## Model

| member | source | states |
|---|---|---|
| Hierarchy.Levels | olap_queries.py:27-46 | Each hierarchy has exactly four level names. |
| Hierarchy.FieldOf | olap_queries.py:99-101 | Looking up a level succeeds exactly for the four names of that dimension. The i-th name gives the i-th field, and the field belongs to the dimension asked for. |
| Hierarchy.Validate | olap_queries.py:91-96 | Parameters are accepted iff all three levels are known. Otherwise the error names the first bad one, checking geography, then time, then product. An accepted request carries one field of each dimension. |
| Hierarchy.AllCombinationsAccepted | olap_queries.py:91-96 | Every one of the 4x4x4 level combinations validates. |
| Hierarchy.YearFilter | olap_queries.py:133-135 | The WHERE clause is added iff a year is given and is non-zero (Python truthiness), and it filters on exactly that year. |
| Grouping.BitsRoundTrip | olap_queries.py:108-110 | The GROUPING() triple of a grouping set is a 0/1 triple, and set and triple determine each other. |
| Grouping.CubeSetsArePowerSet | olap_queries.py:138 | CUBE over three fields yields eight distinct grouping sets, and every subset of the three dimensions is among them. |
| Grouping.CrossSetsMembership | olap_queries.py:470-476 | The cross-table query groups by five distinct sets: exactly those that keep geography, plus the empty set. |
| Grouping.CubeLabelTotalInjective | olap_queries.py:115-125 | The cube CASE gives every grouping set a label other than 'Unknown Level', different sets get different labels, and 'Unknown Level' appears exactly for non-0/1 triples. |
| Grouping.CrossLabelsOfRequestedSets | olap_queries.py:450-457 | A cross-table row is labelled something other than 'Other' iff its set is one of the five requested. The five sets get Detail, Row Subtotal, Column Subtotal, Geographic Total and Grand Total. |
| OlapQuery.BuildQuery | olap_queries.py:91-143 | A query is built iff validation passes; a failure carries the validation error. The year filter is present iff the year is truthy. The cube form uses all eight sets, the cross-table form the five sets. |
| OlapQuery.Where | olap_queries.py:133-135 | The filtered facts are facts of the filtered year, and every fact of that year is kept; with no filter, every fact is kept. Each fact of the filtered year occurs as many times as in the input, and no other fact occurs. |
| OlapQuery.Groups | olap_queries.py:138 | The groups of a grouping set are distinct keys. Every fact falls in one, and each non-empty set's group comes from a fact. The empty set always has its single all-NULL group. |
| OlapQuery.RowsOfSets | olap_queries.py:470-476 | The result holds exactly the rows of the requested grouping sets. |
| OlapQuery.Run | olap_queries.py:139-142 | The returned rows are a permutation of the evaluated rows, sorted by the ORDER BY key. |
| OlapQuery.KeyLtIsStrictTotalOrder | olap_queries.py:139-142 | The ORDER BY key comparison is irreflexive, transitive and total, so the order is deterministic. |
| OlapQuery.RowsLabelled | olap_queries.py:115-125 | Every evaluated row comes from a requested grouping set, carries that set's GROUPING() triple and the label the CASE assigns to it, and is never 'Unknown Level' in the cube form. |
| OlapQuery.RunLabelled | olap_queries.py:450-457 | After ordering, every row still carries its CASE label. With the five cross-table sets, no row is labelled 'Other'. |
| OlapQuery.Analysis | olap_queries.py:91-145 | The cube analysis succeeds iff the levels are valid. Its rows are all labelled by the cube CASE (never 'Unknown Level') and come out in ORDER BY order. They are exactly the grouped rows of the cube query over the facts, as a multiset. |
| OlapQuery.CrossTableData | olap_queries.py:426-483 | The cross-table query succeeds iff the levels are valid. Its rows are labelled by the cross-table CASE (never 'Other') and come out in ORDER BY order. They are exactly the grouped rows of the five-set query over the facts, as a multiset. |
| OlapQuery.DetailFirstGrandTotalLast | olap_queries.py:139-142 | In ordered output, no row precedes a detail row unless it is itself a detail row, and nothing but grand-total rows follows a grand-total row. |
| OlapQuery.RowsOfKeysSums | olap_queries.py:111-113 | The SUM and COUNT over a list of groups equal the per-group tallies of the facts. |
| OlapQuery.GroupingSetTotals | olap_queries.py:111-113 | Within any one grouping set the row quantities add up to the total quantity of the facts, and the row counts add up to the number of facts. |
| OlapQuery.DetailSumIsGrandTotal | olap_queries.py:111-123 | There is exactly one grand-total row. Its COUNT is the sum of the detail rows' counts. Its SUM is the sum of the detail rows' quantities when a fact passes the filter, and NULL otherwise. |
| OlapQuery.EveryGroupingSetPresent | olap_queries.py:138 | When at least one fact passes the filter, every requested grouping set contributes a row. |
| Ordering.StrLtIsStrictTotalOrder | olap_queries.py:140-142 | The string order used for dimension text is a strict total order. |
| Ordering.SortBy | olap_queries.py:139-142 | Sorting by a key under a strict total order gives a sorted permutation of the input. |
| CrossTable.RowKeys | olap_queries.py:195-197 | The pivot's row index holds the (geo, time) pairs of the Detail rows, each once, in sorted order. |
| CrossTable.Columns | olap_queries.py:195-197 | The pivot's columns are the products of the Detail rows, each once, in sorted order. |
| CrossTable.BuildPivot | olap_queries.py:195-220 | The pivot is rectangular. Each row TOTAL is the sum of its cells, each column total the sum of its column, and the grand total both the sum of the row TOTALs and of the column totals. |
| CrossTable.PivotCellMeaning | olap_queries.py:195-203 | A cell is 0 when no Detail row has its (geo, time, product), and that row's measure when exactly one does. |
| CrossTable.RowTotalIsDetailSum | olap_queries.py:206-209 | A pivot row's TOTAL equals the measure summed over the Detail rows with that geography and time. |
| CrossTable.ColumnTotalIsDetailSum | olap_queries.py:212-220 | A column's TOTAL-row value equals the measure summed over the Detail rows of that product. |
| CrossTable.GrandTotalIsDetailSum | olap_queries.py:212-220 | The grand total equals the measure summed over all Detail rows. |
| CrossTable.TotalOfTotals | olap_queries.py:206-220 | Summing the row TOTALs gives the same value as summing the column totals. |
| CrossTable.Shown | olap_queries.py:223-232 | A row shows all its product cells when there are at most 8. Otherwise it shows the first 8 followed by one '...' marker. |
| CrossTable.Header | olap_queries.py:223-232 | The shown header lists every product column in order and then TOTAL when there are at most 8 products. Otherwise it lists the first 8 product columns, then '...', then TOTAL. |
| CrossTable.Regions | olap_queries.py:238 | The regions are listed once each, and every pivot row's region is among them. |
| CrossTable.RegionsInRowOrder | olap_queries.py:238 | Every listed region has a pivot row, and the regions come in the order of their first rows, as `unique()` lists them. |
| CrossTable.RegionSumIsDetailSum | olap_queries.py:277-286 | Each per-column sum of a region is the measure summed over that region's Detail rows of the column's product. |
| CrossTable.TimeLines | olap_queries.py:254-271 | A region emits one display line per pivot row, in index order. Its labels are the region and "<level> <period>, <year>" whenever no displayed product is named like an index label (see Relabel). |
| CrossTable.Relabel | olap_queries.py:266-271 | A displayed product column named 'geo_region' or 'time_period' overwrites that label of a line with the column's value, and leaves the line's cells. The TOTAL is unchanged, and without such a column the line is unchanged. |
| CrossTable.RelabelledHeader | olap_queries.py:322-323 | The printed header never holds a column named like an index label, still ends with TOTAL, and is the ordinary header when no product is so named. |
| CrossTable.RelabelledLayout | olap_queries.py:238-323 | When a displayed product is named like an index label, the table has one line per pivot row and then the grand-total line. There is no subtotal line: every other line is the relabelled line of a pivot row, and every line is as wide as the header. |
| CrossTable.CrossTableReport | olap_queries.py:164-184 | The cross table runs its own query first: an unknown level fails with validation's error before any reshaping, and the outcome is NoData exactly when the query yields no row. The reshaping uses the query's time level and year. |
| CrossTable.GenerateCrossTable | olap_queries.py:182-316 | No data iff the input is empty. No-detail iff no row is Detail. Fallback iff a Detail value clashes with the margin name TOTAL, or with more than 8 products one of the first 8 is named '...'. Otherwise a relabelled table iff a displayed product is named 'geo_region' or 'time_period', with the header left without that column, and the ordinary table iff not. The ordinary table has the truncated header and ends with the grand-total line. Its regional subtotals are the rows the code builds (SubtotalAsWritten). |
| CrossTable.CrossTableLayout | olap_queries.py:238-289 | When no displayed product is named like an index label, a generated table has one line per pivot row, one subtotal line per region and the grand-total line. Region after region, in Regions order, each region's time lines are followed by its subtotal line. |
| CrossTable.BlocksOfEitherRule | olap_queries.py:277-289 | The region blocks are equally long with either subtotal row, and identical when there are at most 8 product columns. |
| CrossTable.GenerateCrossTableCorrected | olap_queries.py:277-289 | The table with corrected subtotals has the same outcome, header and line count as the table the code builds, and is the same table when there are at most 8 product columns. |
| CrossTable.GrandLineTotals | olap_queries.py:295-316 | When there are Detail rows and the pivot does not fail, a table is printed, relabelled or not. Its last line has, as TOTAL, the measure summed over every Detail row. In the ordinary table its cells are the (truncated) column totals; in a relabelled one it is the relabelled grand-total line. |
| CrossTable.SubtotalIsRegionSum | olap_queries.py:277-289 | The corrected regional subtotal's TOTAL equals the sum of the region's per-column sums, including columns hidden by truncation. |
| CrossTable.SubtotalsAddUpToGrandTotal | olap_queries.py:277-289 | The regional subtotals' TOTALs add up to the grand total. |
| CrossTable.RegionsPartitionRows | olap_queries.py:238-250 | The regional blocks' sizes add up to the number of pivot rows, so together the blocks show every row exactly once. |
| CrossTable.AsWrittenSubtotalShortfall | olap_queries.py:277-289 | The subtotal as written agrees with the corrected one on the shown columns, and entirely when there are at most 8 products. Beyond that its TOTAL falls short by exactly the hidden columns' sums. |
| CrossTable.AsWrittenTableShortfall | olap_queries.py:238-289 | In a generated table with more than 8 products, each region's subtotal line sits at the same place with either rule. The TOTAL the code prints there falls short of the corrected TOTAL by the region's sums over the hidden columns. |
| CrossTable.AsWrittenSubtotalCounterexample | olap_queries.py:277-289 | With nine products and sales only in the ninth, the subtotal as written has TOTAL 0 where the region sold 5. |
| Navigator.Start | olap_queries.py:515-517 | The session starts at region, quarter and product group. |
| Navigator.CommandOf | olap_queries.py:597-628 | Input "8" and only "8" leaves, and "7" and only "7" shows detail. |
| Navigator.Next | olap_queries.py:599-628 | A round ends the session iff the input is "8", and otherwise leaves a valid position. |
| Navigator.PositionValidates | olap_queries.py:527-534 | Every valid position names levels that validation accepts, and they resolve to the fields listed for those positions. |
| Navigator.MoveChangesOneIndex | olap_queries.py:599-616 | A drill down moves one hierarchy one level finer and a roll up one level coarser, saturating at the ends. Inputs "7" and unknown inputs change nothing, and the other hierarchies never change. |
| Navigator.RollUpUndoesDrillDown | olap_queries.py:599-616 | Rolling up right after drilling down (when not at the finest level) returns to the same position, and conversely. |
| Navigator.DepthChangesSlowly | olap_queries.py:599-616 | Each input changes the total level depth by at most one. |
| Navigator.RepeatedDrills | olap_queries.py:599-607 | n drill-downs on a hierarchy move it n levels finer, capped at the finest level, and leave the others alone. |
| Navigator.RepeatedRollUps | olap_queries.py:608-616 | n roll-ups move a hierarchy n levels coarser, floored at the coarsest level, and leave the others alone. |
| Navigator.RunAppend | olap_queries.py:519-628 | Until the user leaves, running two input sequences one after the other is the same as running their concatenation. |
| Navigator.MovesToArrive | olap_queries.py:599-616 | The generated drill or roll-up inputs bring a hierarchy to any target level and change nothing else. |
| Navigator.EveryPositionReachable | olap_queries.py:599-616 | Every one of the 64 positions is reachable from the start. |
| Navigator.LeaveEndsSession | olap_queries.py:625-626 | After "8", no further input has any effect. |
| Calendar.DaysInMonth | etl_process.py:72-73 | Every month has between 28 and 31 days. |
| Calendar.DateKeyDecodes | etl_process.py:74 | The date key's digit groups give back year, month and day. |
| Calendar.DateKeyOrder | etl_process.py:74 | Date keys are ordered like the dates and are equal only for equal dates. |
| Calendar.KeyTextValue | etl_process.py:74 | int(strftime("%Y%m%d")) of a valid date is the date key. |
| Calendar.IsoTextRoundTrip | etl_process.py:81 | The "%Y-%m-%d" text splits at its dashes into three fields that read back as year, month and day. |
| DateDimension.QuarterOf | etl_process.py:75 | The quarter is between 1 and 4 and contains the month. |
| DateDimension.RecordConsistent | etl_process.py:72-88 | A generated record is self-consistent. The key decodes to its date and equals int of its key text. Its ISO text parses back to the date. The quarter contains the month, the quarter name reads back as Q and the quarter, and the month name matches the month. |
| DateDimension.DaysFromFacts | etl_process.py:71-91 | Scanning days 1..31 of a month yields exactly its valid dates, in order. Invalid days are skipped. |
| DateDimension.MonthsFromFacts | etl_process.py:70-91 | Scanning months 1..12 yields exactly the valid dates of the year, in order. |
| DateDimension.YearsFromFacts | etl_process.py:69-91 | Scanning the year range yields exactly the valid dates in it, in chronological order. |
| DateDimension.PopulateDimDate | etl_process.py:64-91 | Every valid date of the year range has its record in the result, and the keys strictly ascend, so none repeats. |
| DateDimension.DimDateConsistent | etl_process.py:64-91 | Every record of the generated dimension is self-consistent. |
| DateDimension.YearSize | etl_process.py:69-91 | A year contributes 366 records in a leap year and 365 otherwise. |
| SalesLoad.LookupDomain | etl_process.py:184-193 | A name is in the lookup iff some fetched row has that name. |
| SalesLoad.LookupLastOccurrence | etl_process.py:184-193 | A row whose name does not recur later decides that name's key. |
| SalesLoad.LookupIsLastWins | etl_process.py:184-193 | The lookup agrees with a reference that takes each name's last key. |
| SalesLoad.ParseSalesDate | etl_process.py:205-208 | A parsed sales date is a valid date. The text had at least three dot-separated pieces, and int() reads the third as the year, the second as the month and the first as the day. |
| SalesLoad.ParseSalesDatePieces | etl_process.py:205-208 | D.M.Y text whose pieces int() reads as a valid date parses to that date. |
| SalesLoad.SalesDateRoundTrip | etl_process.py:205-208 | Formatting a date as day.month.year, with any zero padding of day and month, parses back to the same date. |
| SalesLoad.ExtraDateFieldsIgnored | etl_process.py:207-208 | Pieces after the third do not change the parsed date. |
| SalesLoad.NormaliseRevenue | etl_process.py:220 | The normalised revenue has the same length and no comma. Every comma becomes a dot, and every other character is kept in place. |
| SalesLoad.ProcessRow | etl_process.py:204-241 | A row becomes a fact iff its date parses, the shop and article are known, float() accepts the revenue and int() the quantity. A bad date is an error. A row with a valid date is skipped without an error iff its shop or article is missing or unknown. The fact carries the date key, both looked-up keys, the quantity and the normalised revenue. |
| SalesLoad.RowRoundTrip | etl_process.py:204-229 | A CSV row written from a fact's parts loads back as exactly that fact. |
| SalesLoad.Outcomes | etl_process.py:203-241 | Rows are processed independently, one outcome per row, in file order. |
| SalesLoad.AcceptedFactsFromRows | etl_process.py:203-241 | Accepted facts plus error rows never outnumber the rows, and every accepted fact comes from a row that produced it. |
| SalesLoad.Batches | etl_process.py:223-246 | Batching keeps the facts in order, and every batch but the last is full with 1000 facts. |
| SalesLoad.BatchingUnique | etl_process.py:223-246 | Only one batch sequence is well formed for a given fact sequence. |
| SalesLoad.AddFact | etl_process.py:223-234 | Appending a fact flushes exactly when the current batch reaches 1000, and keeps the collection invariant. |
| SalesLoad.InsertInBatches | etl_process.py:196-246 | The inserted batches concatenate to the accepted facts in order and are well formed. processed_count equals the number of inserted facts. The error count equals the number of reported rows. |
| SalesLoad.LoadSales | etl_process.py:175-248 | Loading inserts exactly the accepted facts, in order, in the unique well-formed batching. processed_count is their number. |
| Text.ParseIntRoundTrip | etl_process.py:74 | int() reads back any zero-padded decimal text of a natural number. |
| Text.SplitJoin | etl_process.py:207 | Joining the pieces of a split with the separator gives back the text. |

## Left out

- Database I/O: the connection, SQL execution and commits. The queries are modelled by their meaning over a sequence of joined facts, not as SQL text. A failing query and its printed warning are not modelled.
- The status, summary and insight messages that are printed ("No data available", the table summary, the GROUPING SETS insights, the fallback's raw-data sample), `input()` and `main.py`. The navigator takes the sequence of stripped inputs as a parameter. Option 7 only prints, so it is modelled as keeping the position.
- Floating point. SUM(revenue) and AVG(revenue/quantity) are not modelled, and the cross-table metric is total quantity or transaction count. The loader keeps revenue as the normalised text. Python's float() is the parameter `isFloat`.
- The weekday column of the date dimension (`datetime.weekday()`). Its calendar arithmetic is not modelled.
- `get_summary_statistics`, `populate_dim_shop`, `populate_dim_product` and the SQL schema script. They are outside the analysed core.
- Collation: OlapQuery.SortKey, OlapQuery.KeyLt and OlapQuery.Run compare dimension text by Unicode code point, which is the order of the C collation. Under another database collation, such as en_US, rows within one grouping level can come out in a different order: "apple" sorts before "Banana" and "Newark" before "New York". The pivot's row and column order (CrossTable.RowKeys, CrossTable.Columns) comes from pandas' own code-point sort and is not affected.
- Calendar.PaddedYear: "%Y" is modelled as a year zero-padded to four digits. The platform C library may print years below 1000 unpadded. The integer date key is the same either way.
- Text.ParseInt: int() on text accepts surrounding whitespace (the characters `str.isspace()` accepts), one sign, ASCII digits and single underscores between digits. Non-ASCII digits are not modelled.
- The CSV file's encoding and `errors='ignore'`. Rows arrive as already-decoded fields, and a missing field is None.
- Progress printing every 10000 rows.
- Per-region exception handling in `generate_cross_table`: a numeric time label (a product named 'time_period') makes the subtotal's filter raise a TypeError, and the region is skipped. The `Relabelled` outcome models its effect, a region without a subtotal line; the printed warning is not modelled. The 'total' filter never excludes a row of an ordinary table: a label reads "<level> <period>, <year>", and a level name, a decimal period and a decimal year or None never contain 'total'.
- SalesLoad.InsertInBatches: the number of failed rows is reported as a count. The loader prints one message per failed row and counts nothing.
- OlapQuery.DetailSumIsGrandTotal: over an empty fact set the grouping-set query still returns the grand-total row, with a NULL sum and a count of 0; the model follows the code.

## Findings

| source | as written | input that shows it | evidently intended | confidence | as-written member | corrected member |
|---|---|---|---|---|---|---|
| olap_queries.py:277-289 | With more than 8 product columns, the regional subtotal sums only the displayed columns. The '...' column holds text and counts as 0, so the subtotal's TOTAL leaves out the hidden columns. | Nine products "a".."i". Region North has one period, in which only "i" sold 5. The row TOTAL and the grand total are 5, but North's subtotal TOTAL is 0. | Display truncation does not change any TOTAL. The regional subtotal's TOTAL is the sum of the region's row TOTALs, so the subtotals add up to the grand total. | not executed | CrossTable.AsWrittenSubtotalCounterexample | CrossTable.GenerateCrossTableCorrected |

=== FILE: calendar.dfy ===
/**
 * Proleptic Gregorian dates as Python's datetime accepts them (years 1 to
 * 9999), the warehouse's integer date key YYYYMMDD, and the two text forms
 * the loader writes with strftime: "%Y%m%d" and "%Y-%m-%d".
 */
module Calendar {
  import opened Wrappers
  import opened Text

  const MinYear: int := 1
  const MaxYear: int := 9999

  predicate IsLeap(y: int)
  {
    y % 4 == 0 && (y % 100 != 0 || y % 400 == 0)
  }

  function DaysInMonth(y: int, m: int): (n: nat)
    requires 1 <= m <= 12
    ensures 28 <= n <= 31
  {
    if m == 2 then (if IsLeap(y) then 29 else 28)
    else if m == 4 || m == 6 || m == 9 || m == 11 then 30
    else 31
  }

  /** The dates the datetime constructor accepts; any other triple raises ValueError. */
  predicate ValidDate(y: int, m: int, d: int)
  {
    MinYear <= y <= MaxYear && 1 <= m <= 12 && 1 <= d <= DaysInMonth(y, m)
  }

  /** The integer date key: the decimal digits YYYYMMDD read as a number. */
  function DateKey(y: int, m: int, d: int): int
  {
    y * 10000 + m * 100 + d
  }

  /** The key decodes back to its date: year, month and day are its digit groups. */
  lemma DateKeyDecodes(y: int, m: int, d: int)
    requires ValidDate(y, m, d)
    ensures DateKey(y, m, d) / 10000 == y
    ensures DateKey(y, m, d) / 100 % 100 == m
    ensures DateKey(y, m, d) % 100 == d
  {
    var k := DateKey(y, m, d);
    var x := m * 100 + d;
    assert 0 <= x < 10000;
    assert k / 10000 == y;
    assert k == (y * 100 + m) * 100 + d;
    assert k / 100 == y * 100 + m;
    assert (y * 100 + m) % 100 == m;
  }

  /** Chronological order on valid dates. */
  predicate DateBefore(y1: int, m1: int, d1: int, y2: int, m2: int, d2: int)
  {
    y1 < y2 || (y1 == y2 && (m1 < m2 || (m1 == m2 && d1 < d2)))
  }

  /** Key order is chronological order, so distinct dates have distinct keys. */
  lemma DateKeyOrder(y1: int, m1: int, d1: int, y2: int, m2: int, d2: int)
    requires ValidDate(y1, m1, d1) && ValidDate(y2, m2, d2)
    ensures DateKey(y1, m1, d1) < DateKey(y2, m2, d2) <==> DateBefore(y1, m1, d1, y2, m2, d2)
    ensures DateKey(y1, m1, d1) == DateKey(y2, m2, d2) <==> (y1, m1, d1) == (y2, m2, d2)
  {
    if y1 < y2 {
      assert y1 * 10000 + 10000 <= y2 * 10000;
    } else if y2 < y1 {
      assert y2 * 10000 + 10000 <= y1 * 10000;
    }
  }

  /** strftime's "%Y": the year, zero-padded to four digits. */
  function PaddedYear(y: nat): string
  {
    ZeroPad(NatText(y), 4)
  }

  /** strftime's "%m" and "%d": zero-padded to two digits. */
  function TwoDigits(n: nat): string
  {
    ZeroPad(NatText(n), 2)
  }

  lemma TwoDigitsShape(n: nat)
    requires n < 100
    ensures |TwoDigits(n)| == 2 && AllDigits(TwoDigits(n)) && DigitsValue(TwoDigits(n)) == n
  {
    NatTextShort(n);
    LeadingZerosValue(NatText(n), 2);
    NatTextValue(n);
  }

  lemma PaddedYearShape(y: nat)
    ensures |PaddedYear(y)| >= 4 && AllDigits(PaddedYear(y)) && DigitsValue(PaddedYear(y)) == y
  {
    LeadingZerosValue(NatText(y), 4);
    NatTextValue(y);
  }

  /** strftime("%Y%m%d") of a valid date. */
  function KeyText(y: int, m: int, d: int): string
    requires ValidDate(y, m, d)
  {
    PaddedYear(y) + TwoDigits(m) + TwoDigits(d)
  }

  lemma KeyDigits(y: int, m: int, d: int)
    requires ValidDate(y, m, d)
    ensures |KeyText(y, m, d)| > 0 && AllDigits(KeyText(y, m, d))
    ensures DigitsValue(KeyText(y, m, d)) == DateKey(y, m, d)
  {
    var ys, ms, ds := PaddedYear(y), TwoDigits(m), TwoDigits(d);
    PaddedYearShape(y);
    TwoDigitsShape(m);
    TwoDigitsShape(d);
    assert Pow10(2) == 100;
    DigitsValueAppend(ys, ms);
    assert DigitsValue(ys + ms) == y * 100 + m;
    DigitsValueAppend(ys + ms, ds);
    assert DigitsValue(ys + ms + ds) == (y * 100 + m) * 100 + d;
  }

  /** int(strftime("%Y%m%d")) is the date key. */
  lemma KeyTextValue(y: int, m: int, d: int)
    requires ValidDate(y, m, d)
    ensures ParseInt(KeyText(y, m, d)) == Some(DateKey(y, m, d))
  {
    KeyDigits(y, m, d);
    ParseDigits(KeyText(y, m, d));
  }

  /** strftime("%Y-%m-%d") of a valid date. */
  function IsoText(y: int, m: int, d: int): string
    requires ValidDate(y, m, d)
  {
    PaddedYear(y) + "-" + TwoDigits(m) + "-" + TwoDigits(d)
  }

  lemma IsoTextSplit(y: int, m: int, d: int)
    requires ValidDate(y, m, d)
    ensures Split(IsoText(y, m, d), '-') == [PaddedYear(y), TwoDigits(m), TwoDigits(d)]
  {
    var ys, ms, ds := PaddedYear(y), TwoDigits(m), TwoDigits(d);
    PaddedYearShape(y);
    TwoDigitsShape(m);
    TwoDigitsShape(d);
    DigitsExclude(ys, '-');
    DigitsExclude(ms, '-');
    DigitsExclude(ds, '-');
    SplitThree(ys, ms, ds, '-');
  }

  /** The ISO text splits at its two dashes into fields that read back as the year, month and day. */
  lemma IsoTextRoundTrip(y: int, m: int, d: int)
    requires ValidDate(y, m, d)
    ensures var parts := Split(IsoText(y, m, d), '-');
            && |parts| == 3
            && ParseInt(parts[0]) == Some(y)
            && ParseInt(parts[1]) == Some(m)
            && ParseInt(parts[2]) == Some(d)
  {
    IsoTextSplit(y, m, d);
    FieldsParse(y, m, d);
  }

  /** Each zero-padded field reads back as its number. */
  lemma FieldsParse(y: nat, m: nat, d: nat)
    ensures ParseInt(PaddedYear(y)) == Some(y)
    ensures ParseInt(TwoDigits(m)) == Some(m)
    ensures ParseInt(TwoDigits(d)) == Some(d)
  {
    ParseIntRoundTrip(y, 4);
    ParseIntRoundTrip(m, 2);
    ParseIntRoundTrip(d, 2);
  }
}

=== FILE: crosstab.dfy ===
/**
 * The cross-table reshaper of `generate_cross_table`: keep the Detail rows of
 * the cross-table query, pivot them into a (geo, time) x product matrix with
 * zero fill, recompute every row TOTAL and the TOTAL row from the cells, and
 * emit each region's time rows followed by a regional subtotal, then a grand
 * total, showing at most 8 product columns followed by a '...' marker.
 */
module CrossTable {
  import opened Wrappers
  import opened Sums
  import opened Ordering
  import opened Text
  import opened Hierarchy
  import opened OlapQuery

  /** The measure shown in the cells (the float revenue measure is not modelled). */
  datatype Metric = TotalQuantity | TransactionCount

  function MetricFn(m: Metric): Row -> int
  {
    match m
    case TotalQuantity => RowQuantity
    case TransactionCount => RowCount
  }

  function LevelOf(r: Row): string
  {
    r.level
  }

  /** The rows labelled Detail, in result order. */
  function DetailRows(data: seq<Row>): seq<Row>
  {
    Filter(data, LevelOf, "Detail")
  }

  /** The two-level row index of the pivot. */
  datatype RowKey = RowKey(geo: string, time: string)

  function RowKeyOf(r: Row): RowKey
  {
    RowKey(r.geo, r.time)
  }

  function ProductOf(r: Row): string
  {
    r.product
  }

  /** Row index order: by geography, then by time period, both as text. */
  predicate RowKeyLt(a: RowKey, b: RowKey)
  {
    if a.geo != b.geo then StrLt(a.geo, b.geo) else StrLt(a.time, b.time)
  }

  lemma RowKeyLtIsStrictTotalOrder()
    ensures StrictTotalOrder(RowKeyLt)
  {
    StrLtIsStrictTotalOrder();
    forall a: RowKey, b: RowKey, c: RowKey | RowKeyLt(a, b) && RowKeyLt(b, c) ensures RowKeyLt(a, c) {
      if a.geo == c.geo && a.geo != b.geo {
        StrLtTransitive(a.geo, b.geo, a.geo);
        StrLtIrreflexive(a.geo);
      }
    }
  }

  /** One pivot row: its index, one cell per product column, and the TOTAL column. */
  datatype PivotRow = PivotRow(key: RowKey, cells: seq<int>, total: int)

  /** The pivot: sorted product columns, sorted rows, the TOTAL row's cells and its TOTAL cell. */
  datatype Pivot = Pivot(cols: seq<string>, rows: seq<PivotRow>, totals: seq<int>, grandTotal: int)

  function Cells(rows: seq<PivotRow>): (m: seq<seq<int>>)
    ensures |m| == |rows| && forall i :: 0 <= i < |rows| ==> m[i] == rows[i].cells
  {
    seq(|rows|, i requires 0 <= i < |rows| => rows[i].cells)
  }

  function RowTotal(r: PivotRow): int
  {
    r.total
  }

  function RowGeo(r: PivotRow): string
  {
    r.key.geo
  }

  /** Every row has one cell per column and the TOTAL row has one cell per column. */
  predicate WellFormed(p: Pivot)
  {
    && (forall i :: 0 <= i < |p.rows| ==> |p.rows[i].cells| == |p.cols|)
    && |p.totals| == |p.cols|
  }

  /** The pivot's row index: the distinct (geo, time) pairs of the detail rows, sorted. */
  function RowKeys(detail: seq<Row>): (ks: seq<RowKey>)
    ensures StrictlySorted(ks, RowKeyLt) && Distinct(ks)
    ensures forall k :: k in ks <==> exists r :: r in detail && RowKeyOf(r) == k
  {
    RowKeyLtIsStrictTotalOrder();
    var all := seq(|detail|, i requires 0 <= i < |detail| => RowKeyOf(detail[i]));
    var ks := SortedDistinct(all, RowKeyLt);
    assert forall k :: k in ks <==> exists r :: r in detail && RowKeyOf(r) == k by {
      forall k ensures k in ks <==> exists r :: r in detail && RowKeyOf(r) == k {
        if k in ks {
          var i :| 0 <= i < |all| && all[i] == k;
          assert detail[i] in detail;
        }
        if r :| r in detail && RowKeyOf(r) == k {
          var i :| 0 <= i < |detail| && detail[i] == r;
          assert all[i] == k;
        }
      }
    }
    StrictlySortedDistinct(ks, RowKeyLt);
    ks
  }

  /** The pivot's columns: the distinct product values of the detail rows, sorted. */
  function Columns(detail: seq<Row>): (cs: seq<string>)
    ensures StrictlySorted(cs, StrLt) && Distinct(cs)
    ensures forall c :: c in cs <==> exists r :: r in detail && ProductOf(r) == c
  {
    StrLtIsStrictTotalOrder();
    var all := seq(|detail|, i requires 0 <= i < |detail| => ProductOf(detail[i]));
    var cs := SortedDistinct(all, StrLt);
    assert forall c :: c in cs <==> exists r :: r in detail && ProductOf(r) == c by {
      forall c ensures c in cs <==> exists r :: r in detail && ProductOf(r) == c {
        if c in cs {
          var i :| 0 <= i < |all| && all[i] == c;
          assert detail[i] in detail;
        }
        if r :| r in detail && ProductOf(r) == c {
          var i :| 0 <= i < |detail| && detail[i] == r;
          assert all[i] == c;
        }
      }
    }
    StrictlySortedDistinct(cs, StrLt);
    cs
  }

  lemma StrictlySortedDistinct<T(!new)>(s: seq<T>, lt: (T, T) -> bool)
    requires StrictTotalOrder(lt) && StrictlySorted(s, lt)
    ensures Distinct(s)
  {
  }

  /** One pivot row: the metric summed per product over the detail rows of this (geo, time), and the recomputed TOTAL. */
  function PivotRowFor(detail: seq<Row>, metric: Metric, cols: seq<string>, k: RowKey): PivotRow
  {
    var cells := Tally(Filter(detail, RowKeyOf, k), ProductOf, MetricFn(metric), cols);
    PivotRow(k, cells, Sum(cells))
  }

  function PivotRows(detail: seq<Row>, metric: Metric, cols: seq<string>, ks: seq<RowKey>): (rows: seq<PivotRow>)
    ensures |rows| == |ks|
    ensures forall i :: 0 <= i < |ks| ==> rows[i] == PivotRowFor(detail, metric, cols, ks[i])
  {
    if |ks| == 0 then [] else [PivotRowFor(detail, metric, cols, ks[0])] + PivotRows(detail, metric, cols, ks[1..])
  }

  /**
   * The pivot with recomputed totals: each row's TOTAL is the sum of its
   * cells, each column of the TOTAL row is the sum of that column over the
   * other rows, and the TOTAL row's TOTAL cell (the sum of the row TOTALs)
   * equally is the sum of the TOTAL row's cells.
   */
  function BuildPivot(detail: seq<Row>, metric: Metric): (p: Pivot)
    ensures WellFormed(p)
    ensures p.cols == Columns(detail) && |p.rows| == |RowKeys(detail)|
    ensures forall i :: 0 <= i < |p.rows| ==> p.rows[i].key == RowKeys(detail)[i]
    ensures forall i :: 0 <= i < |p.rows| ==> p.rows[i].total == Sum(p.rows[i].cells)
    ensures forall j :: 0 <= j < |p.cols| ==> p.totals[j] == ColSum(Cells(p.rows), j)
    ensures p.grandTotal == SumOf(p.rows, RowTotal)
    ensures p.grandTotal == Sum(p.totals)
  {
    var cols := Columns(detail);
    var rows := PivotRows(detail, metric, cols, RowKeys(detail));
    var totals := ColSums(Cells(rows), |cols|);
    var grand := SumOf(rows, RowTotal);
    TotalOfTotals(rows, |cols|);
    Pivot(cols, rows, totals, grand)
  }

  /** When every row's TOTAL is the sum of its cells, the row TOTALs add up to the sum of the column sums. */
  lemma TotalOfTotals(rows: seq<PivotRow>, w: nat)
    requires forall i :: 0 <= i < |rows| ==> |rows[i].cells| == w && rows[i].total == Sum(rows[i].cells)
    ensures SumOf(rows, RowTotal) == Sum(ColSums(Cells(rows), w))
  {
    RowTotalsAreRowSums(rows);
    SumSwap(Cells(rows), w);
  }

  lemma {:induction false} RowTotalsAreRowSums(rows: seq<PivotRow>)
    requires forall i :: 0 <= i < |rows| ==> rows[i].total == Sum(rows[i].cells)
    ensures SumOf(rows, RowTotal) == Sum(RowSums(Cells(rows)))
  {
    if |rows| > 0 {
      RowTotalsAreRowSums(rows[1..]);
      assert RowSums(Cells(rows))[1..] == RowSums(Cells(rows[1..]));
    }
  }

  /** Filtering by row index, then by product, is filtering by both at once. */
  function CellKeyOf(r: Row): (RowKey, string)
  {
    (RowKeyOf(r), ProductOf(r))
  }

  lemma {:induction false} FilterTwice(xs: seq<Row>, k: RowKey, c: string)
    ensures Filter(Filter(xs, RowKeyOf, k), ProductOf, c) == Filter(xs, CellKeyOf, (k, c))
  {
    if |xs| > 0 {
      FilterTwice(xs[1..], k, c);
      if RowKeyOf(xs[0]) == k {
        assert ([xs[0]] + Filter(xs[1..], RowKeyOf, k))[1..] == Filter(xs[1..], RowKeyOf, k);
      }
    }
  }

  lemma {:induction false} SumOfNone<T, K>(xs: seq<T>, key: T -> K, k: K, val: T -> int)
    requires forall i :: 0 <= i < |xs| ==> key(xs[i]) != k
    ensures SumOf(Filter(xs, key, k), val) == 0
  {
    if |xs| > 0 {
      SumOfNone(xs[1..], key, k, val);
    }
  }

  lemma {:induction false} SumOfSingle<T, K>(xs: seq<T>, key: T -> K, k: K, val: T -> int, x: nat)
    requires x < |xs| && key(xs[x]) == k
    requires forall i :: 0 <= i < |xs| && i != x ==> key(xs[i]) != k
    ensures SumOf(Filter(xs, key, k), val) == val(xs[x])
  {
    if x == 0 {
      SumOfNone(xs[1..], key, k, val);
    } else {
      SumOfSingle(xs[1..], key, k, val, x - 1);
    }
  }

  /**
   * Zero fill and cell contents: a (geo, time) x product cell with no Detail
   * row is 0, and when Detail rows are unique per (geo, time, product) -- as
   * GROUP BY makes them -- a cell with a Detail row holds that row's measure.
   */
  lemma PivotCellMeaning(detail: seq<Row>, metric: Metric, i: nat, j: nat)
    requires i < |RowKeys(detail)| && j < |Columns(detail)|
    ensures var p := BuildPivot(detail, metric);
            var k, c := p.rows[i].key, p.cols[j];
            && ((forall x :: 0 <= x < |detail| ==> CellKeyOf(detail[x]) != (k, c)) ==> p.rows[i].cells[j] == 0)
            && (forall x :: 0 <= x < |detail| && CellKeyOf(detail[x]) == (k, c)
                  && (forall y :: 0 <= y < |detail| && y != x ==> CellKeyOf(detail[y]) != (k, c))
                  ==> p.rows[i].cells[j] == MetricFn(metric)(detail[x]))
  {
    var p := BuildPivot(detail, metric);
    var k, c := p.rows[i].key, p.cols[j];
    FilterTwice(detail, k, c);
    if forall x :: 0 <= x < |detail| ==> CellKeyOf(detail[x]) != (k, c) {
      SumOfNone(detail, CellKeyOf, (k, c), MetricFn(metric));
    }
    forall x | 0 <= x < |detail| && CellKeyOf(detail[x]) == (k, c)
        && (forall y :: 0 <= y < |detail| && y != x ==> CellKeyOf(detail[y]) != (k, c))
      ensures p.rows[i].cells[j] == MetricFn(metric)(detail[x])
    {
      SumOfSingle(detail, CellKeyOf, (k, c), MetricFn(metric), x);
    }
  }

  /** Each row's TOTAL is the sum of the measure over that (geo, time)'s Detail rows, whatever their products. */
  lemma RowTotalIsDetailSum(detail: seq<Row>, metric: Metric, i: nat)
    requires i < |RowKeys(detail)|
    ensures BuildPivot(detail, metric).rows[i].total
            == SumOf(Filter(detail, RowKeyOf, RowKeys(detail)[i]), MetricFn(metric))
  {
    var k := RowKeys(detail)[i];
    var cols := Columns(detail);
    var xs := Filter(detail, RowKeyOf, k);
    forall r | r in xs ensures ProductOf(r) in cols {
      assert r in detail;
    }
    PartitionSum(xs, ProductOf, MetricFn(metric), cols);
  }

  lemma {:induction false} ColumnOfRows(detail: seq<Row>, metric: Metric, cols: seq<string>, ks: seq<RowKey>, j: nat)
    requires j < |cols|
    ensures ColSum(Cells(PivotRows(detail, metric, cols, ks)), j)
            == Sum(Tally(Filter(detail, ProductOf, cols[j]), RowKeyOf, MetricFn(metric), ks))
  {
    if |ks| > 0 {
      var rows := PivotRows(detail, metric, cols, ks);
      assert Cells(rows)[1..] == Cells(PivotRows(detail, metric, cols, ks[1..]));
      FilterCommute(detail, RowKeyOf, ks[0], ProductOf, cols[j]);
      ColumnOfRows(detail, metric, cols, ks[1..], j);
    }
  }

  /** Each cell of the TOTAL row is the sum of the measure over that product's Detail rows, whatever their (geo, time). */
  lemma ColumnTotalIsDetailSum(detail: seq<Row>, metric: Metric, j: nat)
    requires j < |Columns(detail)|
    ensures BuildPivot(detail, metric).totals[j]
            == SumOf(Filter(detail, ProductOf, Columns(detail)[j]), MetricFn(metric))
  {
    var cols := Columns(detail);
    var ks := RowKeys(detail);
    ColumnOfRows(detail, metric, cols, ks, j);
    var xs := Filter(detail, ProductOf, cols[j]);
    forall r | r in xs ensures RowKeyOf(r) in ks {
      assert r in detail;
    }
    PartitionSum(xs, RowKeyOf, MetricFn(metric), ks);
  }

  lemma {:induction false} RowsTotal(detail: seq<Row>, metric: Metric, cols: seq<string>, ks: seq<RowKey>)
    requires forall r :: r in detail ==> ProductOf(r) in cols
    requires Distinct(cols)
    ensures SumOf(PivotRows(detail, metric, cols, ks), RowTotal) == Sum(Tally(detail, RowKeyOf, MetricFn(metric), ks))
  {
    if |ks| > 0 {
      var xs := Filter(detail, RowKeyOf, ks[0]);
      forall r | r in xs ensures ProductOf(r) in cols {
        assert r in detail;
      }
      PartitionSum(xs, ProductOf, MetricFn(metric), cols);
      assert PivotRows(detail, metric, cols, ks)[1..] == PivotRows(detail, metric, cols, ks[1..]);
      RowsTotal(detail, metric, cols, ks[1..]);
    }
  }

  /** The grand-total cell equals the sum of the measure over all Detail rows: nothing is lost or counted twice. */
  lemma GrandTotalIsDetailSum(detail: seq<Row>, metric: Metric)
    ensures BuildPivot(detail, metric).grandTotal == SumOf(detail, MetricFn(metric))
  {
    var cols := Columns(detail);
    var ks := RowKeys(detail);
    RowsTotal(detail, metric, cols, ks);
    PartitionSum(detail, RowKeyOf, MetricFn(metric), ks);
  }

  /** The display cap on product columns. */
  const MaxColumns: nat := 8

  datatype Cell = Num(n: int) | Ellipsis

  /** The product cells a display row shows: all of them, or the first 8 and a '...' marker. */
  function Shown(vals: seq<int>): (r: seq<Cell>)
    ensures |vals| <= MaxColumns ==> |r| == |vals| && forall j :: 0 <= j < |vals| ==> r[j] == Num(vals[j])
    ensures |vals| > MaxColumns ==>
              && |r| == MaxColumns + 1
              && (forall j :: 0 <= j < MaxColumns ==> r[j] == Num(vals[j]))
              && r[MaxColumns] == Ellipsis
  {
    if |vals| > MaxColumns then seq(MaxColumns, j requires 0 <= j < MaxColumns => Num(vals[j])) + [Ellipsis]
    else seq(|vals|, j requires 0 <= j < |vals| => Num(vals[j]))
  }

  /** The column labels shown: the product columns (at most 8, then '...') and TOTAL. */
  function Header(cols: seq<string>): (h: seq<string>)
    ensures |h| == (if |cols| > MaxColumns then MaxColumns + 2 else |cols| + 1)
    ensures h[|h| - 1] == "TOTAL"
    ensures |cols| > MaxColumns ==> h[..MaxColumns] == cols[..MaxColumns] && h[MaxColumns] == "..."
    ensures |cols| <= MaxColumns ==> h[..|cols|] == cols
  {
    ShownNames(cols) + ["TOTAL"]
  }

  /** The labels of the displayed product columns: all of them, or the first 8 and the inserted '...' column. */
  function ShownNames(cols: seq<string>): (names: seq<string>)
    ensures |names| == (if |cols| > MaxColumns then MaxColumns + 1 else |cols|)
    ensures |cols| > MaxColumns ==> names[..MaxColumns] == cols[..MaxColumns] && names[MaxColumns] == "..."
    ensures |cols| <= MaxColumns ==> names == cols
  {
    if |cols| > MaxColumns then cols[..MaxColumns] + ["..."] else cols
  }

  /** One displayed row: its two index labels, its shown cells and its TOTAL. */
  datatype Line = Line(geoLabel: string, timeLabel: string, cells: seq<Cell>, total: int)

  /** The region of each pivot row, row by row. */
  function RowGeos(p: Pivot): (all: seq<string>)
    ensures |all| == |p.rows|
    ensures forall i :: 0 <= i < |all| ==> all[i] == p.rows[i].key.geo
  {
    seq(|p.rows|, i requires 0 <= i < |p.rows| => p.rows[i].key.geo)
  }

  /** The regions in index order, each once. */
  function Regions(p: Pivot): (gs: seq<string>)
    ensures Distinct(gs)
    ensures forall r :: r in p.rows ==> r.key.geo in gs
  {
    var all := RowGeos(p);
    var gs := Dedup(all);
    assert forall r :: r in p.rows ==> r.key.geo in gs by {
      forall r | r in p.rows ensures r.key.geo in gs {
        var i :| 0 <= i < |p.rows| && p.rows[i] == r;
        assert all[i] == r.key.geo;
      }
    }
    gs
  }

  /**
   * Regions lists the regions as `unique()` does: every listed region has a
   * pivot row, and they come in the order of their first rows.
   */
  lemma RegionsInRowOrder(p: Pivot)
    ensures forall i :: 0 <= i < |Regions(p)| ==> exists b :: 0 <= b < |p.rows| && p.rows[b].key.geo == Regions(p)[i]
    ensures forall i, j, b :: 0 <= i < j < |Regions(p)| && 0 <= b < |p.rows| && p.rows[b].key.geo == Regions(p)[j] ==>
              exists a :: 0 <= a < b && p.rows[a].key.geo == Regions(p)[i]
  {
    var all := RowGeos(p);
    var gs := Regions(p);
    assert gs == Dedup(all);
    forall i | 0 <= i < |gs| ensures exists b :: 0 <= b < |p.rows| && p.rows[b].key.geo == gs[i] {
      assert gs[i] in all;
      var b :| 0 <= b < |all| && all[b] == gs[i];
      assert p.rows[b].key.geo == gs[i];
    }
    forall i, j, b | 0 <= i < j < |gs| && 0 <= b < |p.rows| && p.rows[b].key.geo == gs[j]
      ensures exists a :: 0 <= a < b && p.rows[a].key.geo == gs[i]
    {
      assert all[b] == gs[j];
      DedupOrder(all);
      var a :| 0 <= a < b && all[a] == gs[i];
      assert p.rows[a].key.geo == gs[i];
    }
  }

  function GeoOf(r: Row): string
  {
    r.geo
  }

  function KeyGeo(k: RowKey): string
  {
    k.geo
  }

  /** The pivot rows of one region are the pivot rows built for that region's index keys. */
  lemma {:induction false} RegionPivotRows(detail: seq<Row>, metric: Metric, cols: seq<string>, ks: seq<RowKey>, g: string)
    ensures Filter(PivotRows(detail, metric, cols, ks), RowGeo, g) == PivotRows(detail, metric, cols, Filter(ks, KeyGeo, g))
  {
    if |ks| > 0 {
      assert PivotRows(detail, metric, cols, ks)[1..] == PivotRows(detail, metric, cols, ks[1..]);
      RegionPivotRows(detail, metric, cols, ks[1..], g);
    }
  }

  /**
   * Each cell of a regional subtotal is the measure summed over that region's
   * Detail rows of the column's product, whatever their time period.
   */
  lemma RegionSumIsDetailSum(detail: seq<Row>, metric: Metric, g: string, j: nat)
    requires j < |Columns(detail)|
    ensures RegionSums(BuildPivot(detail, metric), g)[j]
            == SumOf(Filter(Filter(detail, GeoOf, g), ProductOf, Columns(detail)[j]), MetricFn(metric))
  {
    var p := BuildPivot(detail, metric);
    var cols, ks := Columns(detail), RowKeys(detail);
    var ks' := Filter(ks, KeyGeo, g);
    var val := MetricFn(metric);
    var c := cols[j];
    assert p.rows == PivotRows(detail, metric, cols, ks);
    RegionPivotRows(detail, metric, cols, ks, g);
    assert RegionRows(p, g) == PivotRows(detail, metric, cols, ks');
    ColumnOfRows(detail, metric, cols, ks', j);
    var zs := Filter(detail, ProductOf, c);
    var ys := Filter(Filter(detail, GeoOf, g), ProductOf, c);
    FilterCommute(detail, GeoOf, g, ProductOf, c);
    RegionTally(zs, g, ks', val);
    FilterDistinct(ks, KeyGeo, g);
    RegionKeysCover(detail, g, c);
    PartitionSum(ys, RowKeyOf, val, ks');
  }

  /** Keys all of one region tally the same over rows whether or not the rows are first narrowed to that region. */
  lemma RegionTally(zs: seq<Row>, g: string, ks: seq<RowKey>, val: Row -> int)
    requires forall i :: 0 <= i < |ks| ==> KeyGeo(ks[i]) == g
    ensures Tally(Filter(zs, GeoOf, g), RowKeyOf, val, ks) == Tally(zs, RowKeyOf, val, ks)
  {
    var ys := Filter(zs, GeoOf, g);
    forall i | 0 <= i < |ks| ensures Tally(ys, RowKeyOf, val, ks)[i] == Tally(zs, RowKeyOf, val, ks)[i] {
      FilterImplied(zs, GeoOf, g, RowKeyOf, ks[i]);
    }
  }

  /** A region's Detail rows of one product all have their index key among the region's keys. */
  lemma RegionKeysCover(detail: seq<Row>, g: string, c: string)
    ensures forall y :: y in Filter(Filter(detail, GeoOf, g), ProductOf, c) ==> RowKeyOf(y) in Filter(RowKeys(detail), KeyGeo, g)
  {
    var ks := RowKeys(detail);
    forall y | y in Filter(Filter(detail, GeoOf, g), ProductOf, c) ensures RowKeyOf(y) in Filter(ks, KeyGeo, g) {
      assert y in Filter(detail, GeoOf, g);
      assert y in detail && GeoOf(y) == g;
      assert RowKeyOf(y) in ks;
      assert KeyGeo(RowKeyOf(y)) == g;
    }
  }

  /** The pivot rows of one region, in index order. */
  function RegionRows(p: Pivot, g: string): seq<PivotRow>
  {
    Filter(p.rows, RowGeo, g)
  }

  /** Per product column, the sum over the region's rows. */
  function RegionSums(p: Pivot, g: string): (s: seq<int>)
    requires WellFormed(p)
    ensures |s| == |p.cols|
  {
    var rows := RegionRows(p, g);
    assert forall i :: 0 <= i < |rows| ==> |Cells(rows)[i]| == |p.cols| by {
      forall i | 0 <= i < |rows| ensures |Cells(rows)[i]| == |p.cols| {
        assert rows[i] in p.rows;
      }
    }
    ColSums(Cells(rows), |p.cols|)
  }

  /**
   * The regional subtotal row as the cross-table code builds it: every displayed
   * column except TOTAL is summed over the region's time rows, the '...'
   * column holds no numbers and sums to 0, and TOTAL is the sum of those
   * column sums -- so with more than 8 product columns the hidden columns
   * are left out of the TOTAL.
   */
  function SubtotalAsWritten(p: Pivot, g: string): Line
    requires WellFormed(p)
  {
    var sums := RegionSums(p, g);
    var shown := if |p.cols| > MaxColumns then MaxColumns else |p.cols|;
    Line(g, "total",
         seq(shown, j requires 0 <= j < shown => Num(sums[j])) + (if |p.cols| > MaxColumns then [Num(0)] else []),
         Sum(sums[..shown]))
  }

  /** The regional subtotal row: shown column sums, and as TOTAL the sum of the region's row TOTALs. */
  function Subtotal(p: Pivot, g: string): Line
    requires WellFormed(p)
  {
    Line(g, "total", Shown(RegionSums(p, g)), SumOf(RegionRows(p, g), RowTotal))
  }

  /** Python's f"{year}": "None" when no year was given. */
  function YearText(year: Option<int>): string
  {
    match year
    case None => "None"
    case Some(y) => IntText(y)
  }

  /** The display row of one (geo, time) pivot row: its time label reads "<level> <period>, <year>". */
  function TimeLine(r: PivotRow, timeLevel: string, year: Option<int>): Line
  {
    Line(r.key.geo, timeLevel + " " + r.key.time + ", " + YearText(year), Shown(r.cells), r.total)
  }

  function TimeLines(rows: seq<PivotRow>, timeLevel: string, year: Option<int>): (ls: seq<Line>)
    ensures |ls| == |rows|
    ensures forall i :: 0 <= i < |rows| ==> ls[i] == TimeLine(rows[i], timeLevel, year)
  {
    seq(|rows|, i requires 0 <= i < |rows| => TimeLine(rows[i], timeLevel, year))
  }

  /** Which regional subtotal row a table carries: the one the cross-table code builds, or the corrected one. */
  datatype SubtotalRule = AsWritten | Corrected

  function SubtotalLine(p: Pivot, g: string, rule: SubtotalRule): Line
    requires WellFormed(p)
  {
    match rule
    case AsWritten => SubtotalAsWritten(p, g)
    case Corrected => Subtotal(p, g)
  }

  /** One region's block: its time rows, then its subtotal line. */
  function Block(p: Pivot, g: string, rule: SubtotalRule, timeLevel: string, year: Option<int>): (b: seq<Line>)
    requires WellFormed(p)
    ensures |b| == |RegionRows(p, g)| + 1
  {
    TimeLines(RegionRows(p, g), timeLevel, year) + [SubtotalLine(p, g, rule)]
  }

  /** A block is the region's time rows followed by its subtotal line. */
  lemma BlockParts(p: Pivot, g: string, rule: SubtotalRule, timeLevel: string, year: Option<int>)
    requires WellFormed(p)
    ensures var b, n := Block(p, g, rule, timeLevel, year), |RegionRows(p, g)|;
            b[..n] == TimeLines(RegionRows(p, g), timeLevel, year) && b[n] == SubtotalLine(p, g, rule)
  {
    var ts := TimeLines(RegionRows(p, g), timeLevel, year);
    assert (ts + [SubtotalLine(p, g, rule)])[..|ts|] == ts;
  }

  /** The blocks of the regions `gs`, in order. */
  function BlockList(p: Pivot, gs: seq<string>, rule: SubtotalRule, timeLevel: string, year: Option<int>): (bl: seq<seq<Line>>)
    requires WellFormed(p)
    ensures |bl| == |gs|
    ensures forall i :: 0 <= i < |gs| ==> bl[i] == Block(p, gs[i], rule, timeLevel, year)
  {
    seq(|gs|, i requires 0 <= i < |gs| => Block(p, gs[i], rule, timeLevel, year))
  }

  /** Each region's block, region after region. */
  function Blocks(p: Pivot, gs: seq<string>, rule: SubtotalRule, timeLevel: string, year: Option<int>): seq<Line>
    requires WellFormed(p)
  {
    Concat(BlockList(p, gs, rule, timeLevel, year))
  }

  /** The number of pivot rows of each of the regions `gs`, in order. */
  function BlockSizes(p: Pivot, gs: seq<string>): (s: seq<int>)
    ensures |s| == |gs|
    ensures forall i :: 0 <= i < |gs| ==> s[i] == |RegionRows(p, gs[i])|
  {
    seq(|gs|, i requires 0 <= i < |gs| => |RegionRows(p, gs[i])|)
  }

  /** The number of lines before region i's block: the time rows and subtotal line of every region before it. */
  function BlockStart(p: Pivot, gs: seq<string>, i: nat): nat
    requires i <= |gs|
  {
    if i == 0 then 0 else |RegionRows(p, gs[0])| + 1 + BlockStart(p, gs[1..], i - 1)
  }

  /** Block i starts BlockStart lines in, under either subtotal rule. */
  lemma {:induction false} BlockOffsets(p: Pivot, gs: seq<string>, rule: SubtotalRule, timeLevel: string, year: Option<int>, i: nat)
    requires WellFormed(p)
    requires i <= |gs|
    ensures Offset(BlockList(p, gs, rule, timeLevel, year), i) == BlockStart(p, gs, i)
  {
    if i > 0 {
      var bl, bl' := BlockList(p, gs, rule, timeLevel, year), BlockList(p, gs[1..], rule, timeLevel, year);
      BlockOffsets(p, gs[1..], rule, timeLevel, year, i - 1);
      forall k | 0 <= k < |bl'| ensures bl[1..][k] == bl'[k] {
        assert gs[1..][k] == gs[k + 1];
      }
      assert bl[1..] == bl';
      assert |bl[0]| == |RegionRows(p, gs[0])| + 1;
      assert Offset(bl, i) == |bl[0]| + Offset(bl', i - 1);
    }
  }

  /** All the blocks together take one line per pivot row of the listed regions plus one subtotal line per region. */
  lemma {:induction false} BlockStartAtEnd(p: Pivot, gs: seq<string>)
    ensures BlockStart(p, gs, |gs|) == Sum(BlockSizes(p, gs)) + |gs|
  {
    if |gs| > 0 {
      BlockStartAtEnd(p, gs[1..]);
      assert BlockSizes(p, gs)[1..] == BlockSizes(p, gs[1..]);
    }
  }

  /** The region blocks take one line per pivot row of the listed regions plus one subtotal line per region. */
  lemma BlocksLength(p: Pivot, gs: seq<string>, rule: SubtotalRule, timeLevel: string, year: Option<int>)
    requires WellFormed(p)
    ensures |Blocks(p, gs, rule, timeLevel, year)| == Sum(BlockSizes(p, gs)) + |gs|
  {
    ConcatLength(BlockList(p, gs, rule, timeLevel, year));
    BlockOffsets(p, gs, rule, timeLevel, year, |gs|);
    BlockStartAtEnd(p, gs);
  }

  /** Region i's block sits in the region blocks from BlockStart on. */
  lemma BlockLayout(p: Pivot, gs: seq<string>, rule: SubtotalRule, timeLevel: string, year: Option<int>, i: nat)
    requires WellFormed(p)
    requires i < |gs|
    ensures var ls, s, b := Blocks(p, gs, rule, timeLevel, year), BlockStart(p, gs, i), Block(p, gs[i], rule, timeLevel, year);
            s + |b| <= |ls| && ls[s..s + |b|] == b
  {
    ConcatPiece(BlockList(p, gs, rule, timeLevel, year), i);
    BlockOffsets(p, gs, rule, timeLevel, year, i);
  }

  /** Blocks built with either subtotal rule agree when the two subtotal rows agree for every region. */
  lemma BlocksAgree(p: Pivot, gs: seq<string>, timeLevel: string, year: Option<int>)
    requires WellFormed(p)
    requires forall i :: 0 <= i < |gs| ==> SubtotalAsWritten(p, gs[i]) == Subtotal(p, gs[i])
    ensures Blocks(p, gs, AsWritten, timeLevel, year) == Blocks(p, gs, Corrected, timeLevel, year)
  {
    assert BlockList(p, gs, AsWritten, timeLevel, year) == BlockList(p, gs, Corrected, timeLevel, year);
  }

  function GrandLine(p: Pivot): Line
  {
    Line("total", "", Shown(p.totals), p.grandTotal)
  }

  /** Whether the margin label TOTAL collides with a row or column value, which makes the pivot step fail. */
  predicate MarginConflict(detail: seq<Row>)
  {
    exists i :: 0 <= i < |detail| && (detail[i].geo == "TOTAL" || detail[i].time == "TOTAL" || detail[i].product == "TOTAL")
  }

  /**
   * Whether inserting the '...' column fails: with more than 8 products a
   * column named '...' is inserted after the first 8, which raises when one of
   * those 8 products already bears that name.
   */
  predicate EllipsisClash(cols: seq<string>)
  {
    |cols| > MaxColumns && "..." in cols[..MaxColumns]
  }

  /** Whether building the pivot or its display raises, which sends the code to its fallback. */
  predicate PivotFails(detail: seq<Row>)
  {
    MarginConflict(detail) || EllipsisClash(Columns(detail))
  }

  /** The two keys a display row's dictionary gives its index labels. */
  predicate IsLabelName(s: string)
  {
    s == "geo_region" || s == "time_period"
  }

  /** Whether a displayed product column bears the name of one of the index label keys. */
  predicate LabelClash(cols: seq<string>)
  {
    "geo_region" in ShownNames(cols) || "time_period" in ShownNames(cols)
  }

  /** How a displayed value prints: an integer in decimal, or the '...' marker. */
  function CellText(c: Cell): string
  {
    match c
    case Num(n) => IntText(n)
    case Ellipsis => "..."
  }

  /**
   * The entry a display row's dictionary ends up holding under the key
   * `name`: the row's own cells are merged after the label entries, so the
   * cell of a displayed column named `name` wins over the label `given`.
   */
  function LabelValue(names: seq<string>, cells: seq<Cell>, name: string, given: string): (v: string)
    ensures name !in names ==> v == given
    ensures forall j :: 0 <= j < |names| && j < |cells| && names[j] == name && name !in names[..j] ==> v == CellText(cells[j])
  {
    if |names| == 0 || |cells| == 0 then given
    else if names[0] == name then CellText(cells[0])
    else
      var v := LabelValue(names[1..], cells[1..], name, given);
      assert forall j :: 0 < j < |names| && name !in names[..j] ==> name !in names[1..][..j - 1] by {
        forall j | 0 < j < |names| && name !in names[..j] ensures name !in names[1..][..j - 1] {
          assert names[1..][..j - 1] == names[1..j];
        }
      }
      v
  }

  /** The entries of `xs` whose column name in `names` is not an index label key, in order. */
  function Keep<T>(xs: seq<T>, names: seq<string>): (r: seq<T>)
    ensures |r| <= |xs|
    ensures |xs| == |names| ==> |r| == KeptCount(names)
    ensures forall y :: y in r ==> exists j :: 0 <= j < |xs| && j < |names| && xs[j] == y && !IsLabelName(names[j])
    ensures |xs| == |names| && (forall j :: 0 <= j < |names| ==> !IsLabelName(names[j])) ==> r == xs
  {
    if |xs| == 0 || |names| == 0 then []
    else
      var rest := Keep(xs[1..], names[1..]);
      assert forall y :: y in rest ==> exists j :: 0 <= j < |xs| && j < |names| && xs[j] == y && !IsLabelName(names[j]) by {
        forall y | y in rest ensures exists j :: 0 <= j < |xs| && j < |names| && xs[j] == y && !IsLabelName(names[j]) {
          var j :| 0 <= j < |xs[1..]| && j < |names[1..]| && xs[1..][j] == y && !IsLabelName(names[1..][j]);
          assert xs[j + 1] == y && !IsLabelName(names[j + 1]);
        }
      }
      if IsLabelName(names[0]) then rest else [xs[0]] + rest
  }

  /** How many of `names` are not index label keys. */
  function KeptCount(names: seq<string>): nat
  {
    if |names| == 0 then 0 else (if IsLabelName(names[0]) then 0 else 1) + KeptCount(names[1..])
  }

  /**
   * A display line as it prints once its dictionary is built: a displayed
   * product column named 'geo_region' or 'time_period' overwrites that index
   * label with its own value and so leaves the columns.
   */
  function Relabel(cols: seq<string>, l: Line): (r: Line)
    ensures r.total == l.total
    ensures |l.cells| == |ShownNames(cols)| && !LabelClash(cols) ==> r == l
    ensures "geo_region" !in ShownNames(cols) ==> r.geoLabel == l.geoLabel
    ensures "time_period" !in ShownNames(cols) ==> r.timeLabel == l.timeLabel
    ensures var names := ShownNames(cols);
            forall j :: 0 <= j < |names| && j < |l.cells| && names[j] == "geo_region" && "geo_region" !in names[..j] ==>
              r.geoLabel == CellText(l.cells[j])
    ensures var names := ShownNames(cols);
            forall j :: 0 <= j < |names| && j < |l.cells| && names[j] == "time_period" && "time_period" !in names[..j] ==>
              r.timeLabel == CellText(l.cells[j])
    ensures |l.cells| == |ShownNames(cols)| ==> |r.cells| == KeptCount(ShownNames(cols))
  {
    var names := ShownNames(cols);
    Line(LabelValue(names, l.cells, "geo_region", l.geoLabel), LabelValue(names, l.cells, "time_period", l.timeLabel),
         Keep(l.cells, names), l.total)
  }

  function RelabelLines(cols: seq<string>, ls: seq<Line>): (rs: seq<Line>)
    ensures |rs| == |ls|
    ensures forall k :: 0 <= k < |ls| ==> rs[k] == Relabel(cols, ls[k])
  {
    seq(|ls|, k requires 0 <= k < |ls| => Relabel(cols, ls[k]))
  }

  /** The displayed header once the product columns named like an index label key have left it. */
  function RelabelledHeader(cols: seq<string>): (h: seq<string>)
    ensures |h| == KeptCount(ShownNames(cols)) + 1 && h[|h| - 1] == "TOTAL"
    ensures forall j :: 0 <= j < |h| ==> !IsLabelName(h[j])
    ensures !LabelClash(cols) ==> h == Header(cols)
  {
    var names := ShownNames(cols);
    var kept := Keep(names, names);
    assert forall j :: 0 <= j < |kept| ==> !IsLabelName(kept[j]) by {
      forall j | 0 <= j < |kept| ensures !IsLabelName(kept[j]) {
        assert kept[j] in kept;
      }
    }
    kept + ["TOTAL"]
  }

  /** The time rows of the regions `gs`, region after region, with no subtotal line between them. */
  function RegionTimeLines(p: Pivot, gs: seq<string>, timeLevel: string, year: Option<int>): seq<Line>
  {
    Concat(TimeLineList(p, gs, timeLevel, year))
  }

  function TimeLineList(p: Pivot, gs: seq<string>, timeLevel: string, year: Option<int>): (tl: seq<seq<Line>>)
    ensures |tl| == |gs|
    ensures forall i :: 0 <= i < |gs| ==> tl[i] == TimeLines(RegionRows(p, gs[i]), timeLevel, year)
  {
    seq(|gs|, i requires 0 <= i < |gs| => TimeLines(RegionRows(p, gs[i]), timeLevel, year))
  }

  /**
   * What `generate_cross_table` does with the query rows. Whatever the
   * outcome, it returns the raw rows (`data`) unless there were none; a
   * `Table` or `Relabelled` is the cross table it prints before doing so.
   */
  datatype Outcome =
    | NoData            // the query returned no rows; None is returned
    | NoDetail          // no row is labelled Detail; nothing is printed as a table
    | Fallback          // the pivot or display step raised; a raw-data sample is printed instead
    | Table(header: seq<string>, lines: seq<Line>)   // the printed cross table
    | Relabelled(header: seq<string>, lines: seq<Line>)
      // the printed cross table when a displayed product is named 'geo_region' or
      // 'time_period': its values replace those index labels, and no region gets a
      // subtotal line, because the subtotal's filter then matches no row of the
      // region or raises on a numeric time label and the region is skipped

  /** The outcome of the cross-table step with the given regional subtotal rule. */
  function CrossTableWith(data: seq<Row>, metric: Metric, timeLevel: string, year: Option<int>, rule: SubtotalRule): Outcome
  {
    if |data| == 0 then NoData
    else
      var detail := DetailRows(data);
      if |detail| == 0 then NoDetail
      else if PivotFails(detail) then Fallback
      else
        var p := BuildPivot(detail, metric);
        if LabelClash(p.cols) then
          Relabelled(RelabelledHeader(p.cols), RelabelLines(p.cols, RegionTimeLines(p, Regions(p), timeLevel, year) + [GrandLine(p)]))
        else
          Table(Header(p.cols), Blocks(p, Regions(p), rule, timeLevel, year) + [GrandLine(p)])
  }

  /**
   * `generate_cross_table` over the rows of the cross-table query, with the
   * regional subtotal rows as the code builds them.
   */
  function GenerateCrossTable(data: seq<Row>, metric: Metric, timeLevel: string, year: Option<int>): (o: Outcome)
    ensures o.NoData? <==> |data| == 0
    ensures o.NoDetail? <==> |data| > 0 && |DetailRows(data)| == 0
    ensures o.Fallback? <==> |DetailRows(data)| > 0 && PivotFails(DetailRows(data))
    ensures o.Relabelled? <==> |DetailRows(data)| > 0 && !PivotFails(DetailRows(data)) && LabelClash(Columns(DetailRows(data)))
    ensures o.Table? <==> |DetailRows(data)| > 0 && !PivotFails(DetailRows(data)) && !LabelClash(Columns(DetailRows(data)))
    ensures o.Table? ==> o.header == Header(Columns(DetailRows(data)))
    ensures o.Table? ==> |o.lines| > 0 && o.lines[|o.lines| - 1] == GrandLine(BuildPivot(DetailRows(data), metric))
    ensures o.Relabelled? ==> o.header == RelabelledHeader(Columns(DetailRows(data)))
  {
    CrossTableWith(data, metric, timeLevel, year, AsWritten)
  }

  /**
   * The cross table with corrected regional subtotals. It has the same outcome,
   * header and line count as the table the code builds, and is the same table
   * whenever there are at most 8 product columns.
   */
  function GenerateCrossTableCorrected(data: seq<Row>, metric: Metric, timeLevel: string, year: Option<int>): (o: Outcome)
    ensures var w := GenerateCrossTable(data, metric, timeLevel, year);
            && (!o.Table? ==> o == w)
            && (o.Table? <==> w.Table?)
            && (o.Table? ==> o.header == w.header && |o.lines| == |w.lines|)
            && (o.Table? && |Columns(DetailRows(data))| <= MaxColumns ==> o == w)
  {
    var detail := DetailRows(data);
    if |data| > 0 && |detail| > 0 && !PivotFails(detail) then
      var p := BuildPivot(detail, metric);
      BlocksOfEitherRule(p, Regions(p), timeLevel, year);
      CrossTableWith(data, metric, timeLevel, year, Corrected)
    else
      CrossTableWith(data, metric, timeLevel, year, Corrected)
  }

  /**
   * `generate_cross_table` together with the query it runs first: it fetches
   * the cross-table rows for its own levels and year, so an unknown level
   * raises before any reshaping, and the time labels of the table carry the
   * same time level and year as the query's filter.
   */
  function CrossTableReport(facts: seq<Fact>, geo: string, time: string, product: string, year: Option<int>, metric: Metric): (r: Result<Outcome, InvalidLevel>)
    ensures r.Success? <==> geo in Levels(Geo) && time in Levels(Time) && product in Levels(Product)
    ensures r.Failure? ==> r.error == Validate(geo, time, product).error
    ensures r.Success? ==> (r.value.NoData? <==> |Evaluate(BuildQuery(CrossTab, geo, time, product, year).value, facts)| == 0)
    ensures r.Success? ==> r.value == GenerateCrossTable(CrossTableData(facts, geo, time, product, year).value, metric, time, year)
  {
    match CrossTableData(facts, geo, time, product, year)
    case Failure(e) => Failure(e)
    case Success(rows) =>
      assert |rows| == |multiset(rows)|;
      Success(GenerateCrossTable(rows, metric, time, year))
  }

  /**
   * The region blocks have the same length under either subtotal rule, and
   * are the same lines when there are at most 8 product columns.
   */
  lemma BlocksOfEitherRule(p: Pivot, gs: seq<string>, timeLevel: string, year: Option<int>)
    requires WellFormed(p)
    requires forall i :: 0 <= i < |p.rows| ==> p.rows[i].total == Sum(p.rows[i].cells)
    ensures |Blocks(p, gs, AsWritten, timeLevel, year)| == |Blocks(p, gs, Corrected, timeLevel, year)|
    ensures |p.cols| <= MaxColumns ==> Blocks(p, gs, AsWritten, timeLevel, year) == Blocks(p, gs, Corrected, timeLevel, year)
  {
    BlocksLength(p, gs, AsWritten, timeLevel, year);
    BlocksLength(p, gs, Corrected, timeLevel, year);
    if |p.cols| <= MaxColumns {
      forall i | 0 <= i < |gs| ensures SubtotalAsWritten(p, gs[i]) == Subtotal(p, gs[i]) {
        AsWrittenSubtotalShortfall(p, gs[i]);
      }
      BlocksAgree(p, gs, timeLevel, year);
    }
  }

  /**
   * The layout of a generated table: one line per pivot row, one subtotal
   * line per region and the grand-total line, with each region's time rows
   * followed by its subtotal line, region after region in the order Regions
   * lists them.
   */
  lemma CrossTableLayout(data: seq<Row>, metric: Metric, timeLevel: string, year: Option<int>, rule: SubtotalRule)
    requires |DetailRows(data)| > 0 && !PivotFails(DetailRows(data)) && !LabelClash(Columns(DetailRows(data)))
    ensures var o, p := CrossTableWith(data, metric, timeLevel, year, rule), BuildPivot(DetailRows(data), metric);
            && o.Table?
            && |o.lines| == |p.rows| + |Regions(p)| + 1
            && forall i :: 0 <= i < |Regions(p)| ==> RegionBlockIn(o.lines, p, Regions(p), i, rule, timeLevel, year)
  {
    var p := BuildPivot(DetailRows(data), metric);
    var gs := Regions(p);
    var bs := Blocks(p, gs, rule, timeLevel, year);
    var lines := CrossTableWith(data, metric, timeLevel, year, rule).lines;
    assert lines == bs + [GrandLine(p)];
    RegionBlocksLength(p, rule, timeLevel, year);
    forall i | 0 <= i < |gs| ensures RegionBlockIn(lines, p, gs, i, rule, timeLevel, year) {
      RegionBlockAt(p, gs, rule, timeLevel, year, i);
      RegionBlockInPrefix(bs, [GrandLine(p)], p, gs, i, rule, timeLevel, year);
    }
  }

  /**
   * The layout of a table whose labels a product column overwrites: one line
   * per pivot row and the grand-total line, and no subtotal line, since every
   * line before the last is the relabelled line of a pivot row; every line
   * has one cell per header column before TOTAL.
   */
  lemma RelabelledLayout(data: seq<Row>, metric: Metric, timeLevel: string, year: Option<int>)
    requires |DetailRows(data)| > 0 && !PivotFails(DetailRows(data)) && LabelClash(Columns(DetailRows(data)))
    ensures var o, p := GenerateCrossTable(data, metric, timeLevel, year), BuildPivot(DetailRows(data), metric);
            && o.Relabelled?
            && |o.lines| == |p.rows| + 1
            && o.lines[|p.rows|] == Relabel(p.cols, GrandLine(p))
            && (forall k :: 0 <= k < |p.rows| ==> RelabelledRowLine(p, o.lines[k], timeLevel, year))
            && (forall k :: 0 <= k < |o.lines| ==> |o.lines[k].cells| + 1 == |o.header|)
  {
    var p := BuildPivot(DetailRows(data), metric);
    var ts := RegionTimeLines(p, Regions(p), timeLevel, year);
    var o := GenerateCrossTable(data, metric, timeLevel, year);
    assert o.lines == RelabelLines(p.cols, ts + [GrandLine(p)]);
    RegionTimeLinesLength(p, timeLevel, year);
    RelabelledLines(p, ts + [GrandLine(p)], o.lines, timeLevel, year);
  }

  /** Whether `l` is the display line of one of the pivot's rows. */
  predicate RowLine(p: Pivot, l: Line, timeLevel: string, year: Option<int>)
  {
    exists r :: r in p.rows && l == TimeLine(r, timeLevel, year)
  }

  /** Whether `l` is the relabelled display line of one of the pivot's rows. */
  predicate RelabelledRowLine(p: Pivot, l: Line, timeLevel: string, year: Option<int>)
  {
    exists r :: r in p.rows && l == Relabel(p.cols, TimeLine(r, timeLevel, year))
  }

  /** The relabelled lines of pivot rows and the grand line: one per line, each as wide as the relabelled header. */
  lemma RelabelledLines(p: Pivot, ls: seq<Line>, rs: seq<Line>, timeLevel: string, year: Option<int>)
    requires WellFormed(p)
    requires |ls| == |p.rows| + 1 && ls[|p.rows|] == GrandLine(p)
    requires forall k :: 0 <= k < |p.rows| ==> RowLine(p, ls[k], timeLevel, year)
    requires rs == RelabelLines(p.cols, ls)
    ensures |rs| == |p.rows| + 1 && rs[|p.rows|] == Relabel(p.cols, GrandLine(p))
    ensures forall k :: 0 <= k < |p.rows| ==> RelabelledRowLine(p, rs[k], timeLevel, year)
    ensures forall k :: 0 <= k < |rs| ==> |rs[k].cells| + 1 == |RelabelledHeader(p.cols)|
  {
    forall k | 0 <= k < |rs| ensures |rs[k].cells| + 1 == |RelabelledHeader(p.cols)| {
      RelabelledWidth(p, ls, k, timeLevel, year);
    }
    forall k | 0 <= k < |p.rows| ensures RelabelledRowLine(p, rs[k], timeLevel, year) {
      var r :| r in p.rows && ls[k] == TimeLine(r, timeLevel, year);
      assert rs[k] == Relabel(p.cols, TimeLine(r, timeLevel, year));
    }
  }

  lemma RelabelledWidth(p: Pivot, ls: seq<Line>, k: nat, timeLevel: string, year: Option<int>)
    requires WellFormed(p)
    requires |ls| == |p.rows| + 1 && ls[|p.rows|] == GrandLine(p)
    requires forall k :: 0 <= k < |p.rows| ==> RowLine(p, ls[k], timeLevel, year)
    requires k < |ls|
    ensures |Relabel(p.cols, ls[k]).cells| + 1 == |RelabelledHeader(p.cols)|
  {
    if k < |p.rows| {
      var r :| r in p.rows && ls[k] == TimeLine(r, timeLevel, year);
      assert |r.cells| == |p.cols|;
    }
    assert |ls[k].cells| == |ShownNames(p.cols)|;
  }

  /** The regions' time rows, without subtotal lines, are one line per pivot row, each the line of a pivot row. */
  lemma RegionTimeLinesLength(p: Pivot, timeLevel: string, year: Option<int>)
    ensures var ts := RegionTimeLines(p, Regions(p), timeLevel, year);
            && |ts| == |p.rows|
            && forall k :: 0 <= k < |ts| ==> RowLine(p, ts[k], timeLevel, year)
  {
    var gs := Regions(p);
    var bl := TimeLineList(p, gs, timeLevel, year);
    ConcatLength(bl);
    OffsetSum(bl, RegionSizes(p));
    RegionsPartitionRows(p);
    TimeLinesOfRows(p, gs, timeLevel, year);
  }

  /** Every line of the regions' time rows is the line of a pivot row. */
  lemma TimeLinesOfRows(p: Pivot, gs: seq<string>, timeLevel: string, year: Option<int>)
    ensures var ts := RegionTimeLines(p, gs, timeLevel, year);
            forall k :: 0 <= k < |ts| ==> RowLine(p, ts[k], timeLevel, year)
  {
    var bl := TimeLineList(p, gs, timeLevel, year);
    var ts := Concat(bl);
    assert RegionTimeLines(p, gs, timeLevel, year) == ts;
    forall k | 0 <= k < |ts| ensures RowLine(p, ts[k], timeLevel, year) {
      var i, j := ConcatMember(bl, k);
      var rows := RegionRows(p, gs[i]);
      assert rows[j] in p.rows && ts[k] == TimeLine(rows[j], timeLevel, year);
    }
  }

  /**
   * Region i's time rows start BlockStart lines into `lines`, and its subtotal
   * line follows them.
   */
  predicate RegionBlockIn(lines: seq<Line>, p: Pivot, gs: seq<string>, i: nat, rule: SubtotalRule, timeLevel: string, year: Option<int>)
    requires WellFormed(p) && i < |gs|
  {
    var s, rows := BlockStart(p, gs, i), RegionRows(p, gs[i]);
    && s + |rows| < |lines|
    && lines[s..s + |rows|] == TimeLines(rows, timeLevel, year)
    && lines[s + |rows|] == SubtotalLine(p, gs[i], rule)
  }

  lemma RegionBlockInPrefix(a: seq<Line>, b: seq<Line>, p: Pivot, gs: seq<string>, i: nat, rule: SubtotalRule, timeLevel: string, year: Option<int>)
    requires WellFormed(p) && i < |gs|
    requires RegionBlockIn(a, p, gs, i, rule, timeLevel, year)
    ensures RegionBlockIn(a + b, p, gs, i, rule, timeLevel, year)
  {
    var s, rows := BlockStart(p, gs, i), RegionRows(p, gs[i]);
    SliceOfPrefix(a, b, s, s + |rows|);
  }

  /** The region blocks of a pivot, listed in Regions order, hold every pivot row and one subtotal line per region. */
  lemma RegionBlocksLength(p: Pivot, rule: SubtotalRule, timeLevel: string, year: Option<int>)
    requires WellFormed(p)
    ensures |Blocks(p, Regions(p), rule, timeLevel, year)| == |p.rows| + |Regions(p)|
  {
    BlocksLength(p, Regions(p), rule, timeLevel, year);
    RegionsPartitionRows(p);
    assert RegionSizes(p) == BlockSizes(p, Regions(p));
  }

  /** Region i's time rows start BlockStart lines into the blocks, and its subtotal line follows them. */
  lemma RegionBlockAt(p: Pivot, gs: seq<string>, rule: SubtotalRule, timeLevel: string, year: Option<int>, i: nat)
    requires WellFormed(p)
    requires i < |gs|
    ensures RegionBlockIn(Blocks(p, gs, rule, timeLevel, year), p, gs, i, rule, timeLevel, year)
  {
    var bs, s, rows := Blocks(p, gs, rule, timeLevel, year), BlockStart(p, gs, i), RegionRows(p, gs[i]);
    var b := Block(p, gs[i], rule, timeLevel, year);
    BlockLayout(p, gs, rule, timeLevel, year, i);
    BlockParts(p, gs[i], rule, timeLevel, year);
    SliceParts(bs, s, b, |rows|);
  }

  /**
   * The last line of a generated table is the grand total: its cells are the
   * column sums and its TOTAL is the measure summed over every Detail row,
   * whether or not a product column overwrites its labels.
   */
  lemma GrandLineTotals(data: seq<Row>, metric: Metric, timeLevel: string, year: Option<int>)
    requires |DetailRows(data)| > 0 && !PivotFails(DetailRows(data))
    ensures var o := GenerateCrossTable(data, metric, timeLevel, year);
            var detail := DetailRows(data);
            var p := BuildPivot(detail, metric);
            && (o.Table? || o.Relabelled?)
            && |o.lines| > 0
            && o.lines[|o.lines| - 1].total == SumOf(detail, MetricFn(metric))
            && (o.Table? ==> o.lines[|o.lines| - 1].cells == Shown(p.totals))
            && (o.Relabelled? ==> o.lines[|o.lines| - 1] == Relabel(p.cols, GrandLine(p)))
  {
    GrandTotalIsDetailSum(DetailRows(data), metric);
    if LabelClash(Columns(DetailRows(data))) {
      RelabelledLayout(data, metric, timeLevel, year);
    }
  }

  /** A regional subtotal's TOTAL, the sum of the region's row TOTALs, is also the sum of all its per-column sums. */
  lemma SubtotalIsRegionSum(p: Pivot, g: string)
    requires WellFormed(p)
    requires forall i :: 0 <= i < |p.rows| ==> p.rows[i].total == Sum(p.rows[i].cells)
    ensures Subtotal(p, g).total == Sum(RegionSums(p, g))
  {
    var rows := RegionRows(p, g);
    forall i | 0 <= i < |rows| ensures |rows[i].cells| == |p.cols| && rows[i].total == Sum(rows[i].cells) {
      assert rows[i] in p.rows;
    }
    TotalOfTotals(rows, |p.cols|);
  }

  /** The TOTALs of the regional subtotal lines, one per region in order. */
  function SubtotalTotals(p: Pivot): (s: seq<int>)
    requires WellFormed(p)
    ensures |s| == |Regions(p)|
  {
    var gs := Regions(p);
    seq(|gs|, i requires 0 <= i < |gs| => Subtotal(p, gs[i]).total)
  }

  /** The regional subtotals' TOTALs add up to the grand total: every pivot row belongs to exactly one region. */
  lemma SubtotalsAddUpToGrandTotal(p: Pivot)
    requires WellFormed(p)
    requires p.grandTotal == SumOf(p.rows, RowTotal)
    ensures Sum(SubtotalTotals(p)) == p.grandTotal
  {
    var gs := Regions(p);
    PartitionSum(p.rows, RowGeo, RowTotal, gs);
    assert Tally(p.rows, RowGeo, RowTotal, gs) == SubtotalTotals(p);
  }

  /** The number of pivot rows in each region block, one per region in order. */
  function RegionSizes(p: Pivot): (s: seq<int>)
    ensures |s| == |Regions(p)|
  {
    var gs := Regions(p);
    seq(|gs|, i requires 0 <= i < |gs| => |RegionRows(p, gs[i])|)
  }

  /** The region blocks together hold every pivot row exactly once. */
  lemma RegionsPartitionRows(p: Pivot)
    ensures Sum(RegionSizes(p)) == |p.rows|
  {
    var gs := Regions(p);
    var t := Tally(p.rows, RowGeo, One, gs);
    PartitionSum(p.rows, RowGeo, One, gs);
    SumOfOne(p.rows);
    forall i | 0 <= i < |gs| ensures t[i] == RegionSizes(p)[i] {
      SumOfOne(RegionRows(p, gs[i]));
    }
    assert t == RegionSizes(p);
  }

  lemma {:induction false} SumPrefixSuffix(s: seq<int>, k: nat)
    requires k <= |s|
    ensures Sum(s) == Sum(s[..k]) + Sum(s[k..])
  {
    assert s == s[..k] + s[k..];
    SumAppend(s[..k], s[k..]);
  }

  /**
   * The subtotal row as written agrees with the corrected one on every shown
   * product column, and on the TOTAL whenever there are at most 8 product
   * columns; beyond that its TOTAL falls short by exactly the hidden
   * columns' sums.
   */
  lemma AsWrittenSubtotalShortfall(p: Pivot, g: string)
    requires WellFormed(p)
    requires forall i :: 0 <= i < |p.rows| ==> p.rows[i].total == Sum(p.rows[i].cells)
    ensures forall j :: 0 <= j < |p.cols| && j < MaxColumns ==> SubtotalAsWritten(p, g).cells[j] == Subtotal(p, g).cells[j]
    ensures |p.cols| <= MaxColumns ==> SubtotalAsWritten(p, g) == Subtotal(p, g)
    ensures |p.cols| > MaxColumns ==>
              SubtotalAsWritten(p, g).total == Subtotal(p, g).total - Sum(RegionSums(p, g)[MaxColumns..])
  {
    SubtotalIsRegionSum(p, g);
    var sums := RegionSums(p, g);
    if |p.cols| > MaxColumns {
      SumPrefixSuffix(sums, MaxColumns);
    } else {
      assert sums[..|p.cols|] == sums;
    }
  }

  /**
   * The discrepancy in the generated table itself: region i's subtotal line
   * sits at the same place in the table the code builds and in the corrected
   * one, and with more than 8 products the TOTAL the code prints there falls
   * short of the corrected TOTAL by the region's sums over the hidden columns.
   */
  lemma AsWrittenTableShortfall(data: seq<Row>, metric: Metric, timeLevel: string, year: Option<int>, i: nat)
    requires |DetailRows(data)| > 0 && !PivotFails(DetailRows(data)) && !LabelClash(Columns(DetailRows(data)))
    requires i < |Regions(BuildPivot(DetailRows(data), metric))|
    requires |Columns(DetailRows(data))| > MaxColumns
    ensures var p := BuildPivot(DetailRows(data), metric);
            var g := Regions(p)[i];
            var k := BlockStart(p, Regions(p), i) + |RegionRows(p, g)|;
            var w, c := GenerateCrossTable(data, metric, timeLevel, year), GenerateCrossTableCorrected(data, metric, timeLevel, year);
            && w.Table? && c.Table? && k < |w.lines| && k < |c.lines|
            && w.lines[k] == SubtotalAsWritten(p, g)
            && c.lines[k] == Subtotal(p, g)
            && w.lines[k].total == c.lines[k].total - Sum(RegionSums(p, g)[MaxColumns..])
  {
    var p := BuildPivot(DetailRows(data), metric);
    GeneratedWithRules(data, metric, timeLevel, year);
    SubtotalLineOfTable(data, metric, timeLevel, year, AsWritten, i);
    SubtotalLineOfTable(data, metric, timeLevel, year, Corrected, i);
    ShortfallBetween(GenerateCrossTable(data, metric, timeLevel, year), GenerateCrossTableCorrected(data, metric, timeLevel, year), p, Regions(p), i);
  }

  /** The two generated tables are the cross-table step under the two subtotal rules. */
  lemma GeneratedWithRules(data: seq<Row>, metric: Metric, timeLevel: string, year: Option<int>)
    ensures GenerateCrossTable(data, metric, timeLevel, year) == CrossTableWith(data, metric, timeLevel, year, AsWritten)
    ensures GenerateCrossTableCorrected(data, metric, timeLevel, year) == CrossTableWith(data, metric, timeLevel, year, Corrected)
  {
  }

  /** Two tables holding region i's subtotal line under the two rules at the same place differ there by the hidden columns' sums. */
  lemma ShortfallBetween(w: Outcome, c: Outcome, p: Pivot, gs: seq<string>, i: nat)
    requires WellFormed(p) && i < |gs|
    requires forall r :: 0 <= r < |p.rows| ==> p.rows[r].total == Sum(p.rows[r].cells)
    requires |p.cols| > MaxColumns
    requires SubtotalLineAt(w, p, gs, i, AsWritten) && SubtotalLineAt(c, p, gs, i, Corrected)
    ensures var g, k := gs[i], BlockStart(p, gs, i) + |RegionRows(p, gs[i])|;
            && w.Table? && c.Table? && k < |w.lines| && k < |c.lines|
            && w.lines[k] == SubtotalAsWritten(p, g)
            && c.lines[k] == Subtotal(p, g)
            && w.lines[k].total == c.lines[k].total - Sum(RegionSums(p, g)[MaxColumns..])
  {
    AsWrittenSubtotalShortfall(p, gs[i]);
  }

  /** Where region i's subtotal line sits in a generated table. */
  lemma SubtotalLineOfTable(data: seq<Row>, metric: Metric, timeLevel: string, year: Option<int>, rule: SubtotalRule, i: nat)
    requires |DetailRows(data)| > 0 && !PivotFails(DetailRows(data)) && !LabelClash(Columns(DetailRows(data)))
    requires i < |Regions(BuildPivot(DetailRows(data), metric))|
    ensures var p := BuildPivot(DetailRows(data), metric);
            SubtotalLineAt(CrossTableWith(data, metric, timeLevel, year, rule), p, Regions(p), i, rule)
  {
    var p := BuildPivot(DetailRows(data), metric);
    var gs := Regions(p);
    var bs := Blocks(p, gs, rule, timeLevel, year);
    var o := CrossTableWith(data, metric, timeLevel, year, rule);
    assert o == Table(Header(p.cols), bs + [GrandLine(p)]);
    SubtotalInTable(p, gs, Header(p.cols), rule, timeLevel, year, i);
  }

  lemma SubtotalInTable(p: Pivot, gs: seq<string>, header: seq<string>, rule: SubtotalRule, timeLevel: string, year: Option<int>, i: nat)
    requires WellFormed(p) && i < |gs|
    ensures SubtotalLineAt(Table(header, Blocks(p, gs, rule, timeLevel, year) + [GrandLine(p)]), p, gs, i, rule)
  {
    var bs := Blocks(p, gs, rule, timeLevel, year);
    SubtotalInBlocks(p, gs, rule, timeLevel, year, i);
    var k := BlockStart(p, gs, i) + |RegionRows(p, gs[i])|;
    assert (bs + [GrandLine(p)])[k] == bs[k];
  }

  /** Region i's subtotal line is in a table right after the region's time lines. */
  predicate SubtotalLineAt(o: Outcome, p: Pivot, gs: seq<string>, i: nat, rule: SubtotalRule)
    requires WellFormed(p) && i < |gs|
  {
    var k := BlockStart(p, gs, i) + |RegionRows(p, gs[i])|;
    o.Table? && k < |o.lines| && o.lines[k] == SubtotalLine(p, gs[i], rule)
  }

  /** Region i's subtotal line in the region blocks, right after its time rows. */
  lemma SubtotalInBlocks(p: Pivot, gs: seq<string>, rule: SubtotalRule, timeLevel: string, year: Option<int>, i: nat)
    requires WellFormed(p) && i < |gs|
    ensures var bs, k := Blocks(p, gs, rule, timeLevel, year), BlockStart(p, gs, i) + |RegionRows(p, gs[i])|;
            k < |bs| && bs[k] == SubtotalLine(p, gs[i], rule)
  {
    var bs, s, rows := Blocks(p, gs, rule, timeLevel, year), BlockStart(p, gs, i), RegionRows(p, gs[i]);
    var b := Block(p, gs[i], rule, timeLevel, year);
    BlockLayout(p, gs, rule, timeLevel, year, i);
    BlockParts(p, gs[i], rule, timeLevel, year);
    SliceParts(bs, s, b, |rows|);
  }

  /**
   * The discrepancy on a concrete pivot: one region, one period, nine
   * products of which only the ninth was sold (5 units). The row TOTAL and the
   * grand total are 5, the corrected regional subtotal is 5, but the subtotal
   * as written shows TOTAL 0.
   */
  lemma AsWrittenSubtotalCounterexample()
    ensures var p := Pivot(["a", "b", "c", "d", "e", "f", "g", "h", "i"],
                           [PivotRow(RowKey("North", "1"), [0, 0, 0, 0, 0, 0, 0, 0, 5], 5)],
                           [0, 0, 0, 0, 0, 0, 0, 0, 5], 5);
            && WellFormed(p)
            && p.rows[0].total == Sum(p.rows[0].cells)
            && p.grandTotal == Sum(p.totals)
            && Subtotal(p, "North").total == 5
            && SubtotalAsWritten(p, "North").total == 0
  {
    var p := Pivot(["a", "b", "c", "d", "e", "f", "g", "h", "i"],
                   [PivotRow(RowKey("North", "1"), [0, 0, 0, 0, 0, 0, 0, 0, 5], 5)],
                   [0, 0, 0, 0, 0, 0, 0, 0, 5], 5);
    var rows := RegionRows(p, "North");
    assert rows == p.rows;
    var sums := RegionSums(p, "North");
    var m := Cells(rows);
    assert sums == ColSums(m, 9);
    forall j | 0 <= j < 9 ensures sums[j] == p.rows[0].cells[j] {
      assert m[1..] == [];
      assert sums[j] == ColSum(m, j) == m[0][j] + ColSum(m[1..], j);
    }
    assert sums == p.rows[0].cells;
    ZeroSum(sums[..MaxColumns]);
  }
}

=== FILE: datedim.dfy ===
/**
 * Generation of the date dimension: for every year of the requested range,
 * every month 1..12 and every day 1..31, the candidate date is kept when
 * the datetime constructor accepts it and skipped otherwise. Each kept date
 * becomes one record with its key YYYYMMDD, its ISO text, its calendar
 * parts, its quarter, its English month name and its quarter name.
 */
module DateDimension {
  import opened Wrappers
  import opened Text
  import opened Calendar

  /** One row of the date dimension (the weekday column is not modelled). */
  datatype DateRecord = DateRecord(
    key: int,
    fullDate: string,
    year: int,
    quarter: int,
    month: int,
    day: int,
    monthName: string,
    quarterName: string)

  /** The quarter of a month, by integer division of the zero-based month by 3. */
  function QuarterOf(m: int): (q: int)
    requires 1 <= m <= 12
    ensures 1 <= q <= 4
    ensures 3 * q - 2 <= m <= 3 * q
  {
    (m - 1) / 3 + 1
  }

  /** The English month names, indexed by month number. */
  function MonthName(m: int): (name: string)
    requires 1 <= m <= 12
  {
    ["January", "February", "March", "April", "May", "June",
     "July", "August", "September", "October", "November", "December"][m - 1]
  }

  /** The record of one valid date. */
  function RecordFor(y: int, m: int, d: int): DateRecord
    requires ValidDate(y, m, d)
  {
    var q := QuarterOf(m);
    DateRecord(DateKey(y, m, d), IsoText(y, m, d), y, q, m, d, MonthName(m), "Q" + [DigitChar(q)])
  }

  /** The key decodes to the record's date and is what int() makes of the date's "%Y%m%d" text. */
  predicate KeyConsistent(r: DateRecord)
  {
    && ValidDate(r.year, r.month, r.day)
    && r.key / 10000 == r.year && r.key / 100 % 100 == r.month && r.key % 100 == r.day
    && ParseInt(KeyText(r.year, r.month, r.day)) == Some(r.key)
  }

  /** The ISO text splits at its dashes into the record's year, month and day. */
  predicate TextConsistent(r: DateRecord)
  {
    var parts := Split(r.fullDate, '-');
    && |parts| == 3
    && ParseInt(parts[0]) == Some(r.year)
    && ParseInt(parts[1]) == Some(r.month)
    && ParseInt(parts[2]) == Some(r.day)
  }

  /** The quarter holds the month, the quarter name is "Q" and the quarter, and the month name is the month's. */
  predicate NamesConsistent(r: DateRecord)
  {
    && 1 <= r.month <= 12
    && 1 <= r.quarter <= 4 && 3 * r.quarter - 2 <= r.month <= 3 * r.quarter
    && |r.quarterName| == 2 && r.quarterName[0] == 'Q' && ParseInt(r.quarterName[1..]) == Some(r.quarter)
    && r.monthName == MonthName(r.month)
  }

  /** What a date record promises a reader. */
  predicate Consistent(r: DateRecord)
  {
    KeyConsistent(r) && TextConsistent(r) && NamesConsistent(r)
  }

  lemma RecordKeyConsistent(y: int, m: int, d: int)
    requires ValidDate(y, m, d)
    ensures KeyConsistent(RecordFor(y, m, d))
  {
    DateKeyDecodes(y, m, d);
    KeyTextValue(y, m, d);
  }

  lemma RecordTextConsistent(y: int, m: int, d: int)
    requires ValidDate(y, m, d)
    ensures TextConsistent(RecordFor(y, m, d))
  {
    IsoTextRoundTrip(y, m, d);
  }

  lemma RecordNamesConsistent(y: int, m: int, d: int)
    requires ValidDate(y, m, d)
    ensures NamesConsistent(RecordFor(y, m, d))
  {
    var q := QuarterOf(m);
    var r := RecordFor(y, m, d);
    assert r.month == m && r.quarter == q && r.monthName == MonthName(m);
    assert r.quarterName == "Q" + [DigitChar(q)];
    assert r.quarterName[1..] == [DigitChar(q)];
    ParseDigits([DigitChar(q)]);
  }

  /** Every generated record is consistent. */
  lemma RecordConsistent(y: int, m: int, d: int)
    requires ValidDate(y, m, d)
    ensures Consistent(RecordFor(y, m, d))
  {
    RecordKeyConsistent(y, m, d);
    RecordTextConsistent(y, m, d);
    RecordNamesConsistent(y, m, d);
  }

  /** A calendar date before it is checked. */
  datatype Date = Date(year: int, month: int, day: int)

  predicate IsValid(dt: Date)
  {
    ValidDate(dt.year, dt.month, dt.day)
  }

  predicate Before(a: Date, b: Date)
  {
    DateBefore(a.year, a.month, a.day, b.year, b.month, b.day)
  }

  /** Dates strictly increase along the sequence. */
  predicate Chronological(ds: seq<Date>)
  {
    forall i, j :: 0 <= i < j < |ds| ==> Before(ds[i], ds[j])
  }

  lemma ChronologicalAppend(a: seq<Date>, b: seq<Date>)
    requires Chronological(a) && Chronological(b)
    requires forall i, j :: 0 <= i < |a| && 0 <= j < |b| ==> Before(a[i], b[j])
    ensures Chronological(a + b)
  {
  }

  /** The valid dates of month `m` of year `y` from day `d` to day 31. */
  function DaysFrom(y: int, m: int, d: int): seq<Date>
    requires 1 <= m <= 12 && 1 <= d
    decreases 32 - d
  {
    if d > 31 then []
    else (if ValidDate(y, m, d) then [Date(y, m, d)] else []) + DaysFrom(y, m, d + 1)
  }

  /** The valid dates of year `y` from month `m` to December. */
  function MonthsFrom(y: int, m: int): seq<Date>
    requires 1 <= m <= 13
    decreases 13 - m
  {
    if m > 12 then [] else DaysFrom(y, m, 1) + MonthsFrom(y, m + 1)
  }

  /** The valid dates of the years `y` to `end`. */
  function YearsFrom(y: int, end: int): seq<Date>
    decreases end - y
  {
    if y > end then [] else MonthsFrom(y, 1) + YearsFrom(y + 1, end)
  }

  /** The days of a month from day `d` on: exactly the valid dates of that month from `d`, in order. */
  lemma {:induction false} DaysFromFacts(y: int, m: int, d: int)
    requires 1 <= m <= 12 && 1 <= d
    ensures var ds := DaysFrom(y, m, d);
            forall dt :: dt in ds ==> dt.year == y && dt.month == m && d <= dt.day && IsValid(dt)
    ensures forall e :: d <= e && ValidDate(y, m, e) ==> Date(y, m, e) in DaysFrom(y, m, d)
    ensures Chronological(DaysFrom(y, m, d))
    decreases 32 - d
  {
    if d <= 31 {
      DaysFromFacts(y, m, d + 1);
      var here := if ValidDate(y, m, d) then [Date(y, m, d)] else [];
      var rest := DaysFrom(y, m, d + 1);
      assert DaysFrom(y, m, d) == here + rest;
      assert forall i, j :: 0 <= i < |here| && 0 <= j < |rest| ==> Before(here[i], rest[j]) by {
        forall i, j | 0 <= i < |here| && 0 <= j < |rest| ensures Before(here[i], rest[j]) {
          assert rest[j] in rest;
        }
      }
      ChronologicalAppend(here, rest);
      forall e | d <= e && ValidDate(y, m, e) ensures Date(y, m, e) in here + rest {
        if e == d {
          assert Date(y, m, e) in here;
        } else {
          assert Date(y, m, e) in rest;
        }
      }
    }
  }

  /** The dates of a year from month `m` on: exactly the valid dates of those months, in order. */
  lemma {:induction false} MonthsFromFacts(y: int, m: int)
    requires 1 <= m <= 13
    ensures forall dt :: dt in MonthsFrom(y, m) ==> dt.year == y && m <= dt.month && IsValid(dt)
    ensures forall n, e :: m <= n && ValidDate(y, n, e) ==> Date(y, n, e) in MonthsFrom(y, m)
    ensures Chronological(MonthsFrom(y, m))
    decreases 13 - m
  {
    if m <= 12 {
      DaysFromFacts(y, m, 1);
      MonthsFromFacts(y, m + 1);
      var here := DaysFrom(y, m, 1);
      var rest := MonthsFrom(y, m + 1);
      assert MonthsFrom(y, m) == here + rest;
      assert forall i, j :: 0 <= i < |here| && 0 <= j < |rest| ==> Before(here[i], rest[j]) by {
        forall i, j | 0 <= i < |here| && 0 <= j < |rest| ensures Before(here[i], rest[j]) {
          assert here[i] in here && rest[j] in rest;
        }
      }
      ChronologicalAppend(here, rest);
      forall n, e | m <= n && ValidDate(y, n, e) ensures Date(y, n, e) in here + rest {
        if n == m {
          assert Date(y, n, e) in here;
        } else {
          assert Date(y, n, e) in rest;
        }
      }
    }
  }

  /** The dates of the years `y` to `end`: exactly the valid dates of those years, in order. */
  lemma {:induction false} YearsFromFacts(y: int, end: int)
    ensures forall dt :: dt in YearsFrom(y, end) ==> y <= dt.year <= end && IsValid(dt)
    ensures forall x, n, e :: y <= x <= end && ValidDate(x, n, e) ==> Date(x, n, e) in YearsFrom(y, end)
    ensures Chronological(YearsFrom(y, end))
    decreases end - y
  {
    if y <= end {
      MonthsFromFacts(y, 1);
      YearsFromFacts(y + 1, end);
      var here := MonthsFrom(y, 1);
      var rest := YearsFrom(y + 1, end);
      assert YearsFrom(y, end) == here + rest;
      assert forall i, j :: 0 <= i < |here| && 0 <= j < |rest| ==> Before(here[i], rest[j]) by {
        forall i, j | 0 <= i < |here| && 0 <= j < |rest| ensures Before(here[i], rest[j]) {
          assert here[i] in here && rest[j] in rest;
        }
      }
      ChronologicalAppend(here, rest);
      forall x, n, e | y <= x <= end && ValidDate(x, n, e) ensures Date(x, n, e) in here + rest {
        if x == y {
          assert Date(x, n, e) in here;
        } else {
          assert Date(x, n, e) in rest;
        }
      }
    }
  }

  function RecordOf(dt: Date): DateRecord
    requires IsValid(dt)
  {
    RecordFor(dt.year, dt.month, dt.day)
  }

  /** The records of checked dates, in the same order. */
  function RecordsOf(ds: seq<Date>): (rs: seq<DateRecord>)
    requires forall i :: 0 <= i < |ds| ==> IsValid(ds[i])
    ensures |rs| == |ds|
    ensures forall i :: 0 <= i < |ds| ==> rs[i] == RecordOf(ds[i])
  {
    seq(|ds|, i requires 0 <= i < |ds| => RecordOf(ds[i]))
  }

  lemma RecordsCover(ds: seq<Date>, x: int, n: int, e: int)
    requires forall i :: 0 <= i < |ds| ==> IsValid(ds[i])
    requires Date(x, n, e) in ds
    ensures ValidDate(x, n, e) && RecordFor(x, n, e) in RecordsOf(ds)
  {
    var i :| 0 <= i < |ds| && ds[i] == Date(x, n, e);
    assert RecordsOf(ds)[i] == RecordFor(x, n, e);
  }

  /** Keys strictly increase along the records. */
  predicate KeysAscending(rs: seq<DateRecord>)
  {
    forall i, j :: 0 <= i < j < |rs| ==> rs[i].key < rs[j].key
  }

  lemma RecordsAscending(ds: seq<Date>)
    requires forall i :: 0 <= i < |ds| ==> IsValid(ds[i])
    requires Chronological(ds)
    ensures forall i, j :: 0 <= i < j < |ds| ==> RecordsOf(ds)[i].key < RecordsOf(ds)[j].key
  {
    forall i, j | 0 <= i < j < |ds| ensures RecordsOf(ds)[i].key < RecordsOf(ds)[j].key {
      assert Before(ds[i], ds[j]);
      DateKeyOrder(ds[i].year, ds[i].month, ds[i].day, ds[j].year, ds[j].month, ds[j].day);
    }
  }

  lemma RecordsConsistent(ds: seq<Date>)
    requires forall i :: 0 <= i < |ds| ==> IsValid(ds[i])
    ensures forall i :: 0 <= i < |ds| ==> Consistent(RecordsOf(ds)[i])
  {
    forall i | 0 <= i < |ds| ensures Consistent(RecordsOf(ds)[i]) {
      RecordConsistent(ds[i].year, ds[i].month, ds[i].day);
    }
  }

  lemma YearsFromValid(startYear: int, endYear: int)
    ensures forall i :: 0 <= i < |YearsFrom(startYear, endYear)| ==>
              IsValid(YearsFrom(startYear, endYear)[i]) && startYear <= YearsFrom(startYear, endYear)[i].year <= endYear
  {
    var ds := YearsFrom(startYear, endYear);
    YearsFromFacts(startYear, endYear);
    forall i | 0 <= i < |ds| ensures IsValid(ds[i]) && startYear <= ds[i].year <= endYear {
      assert ds[i] in ds;
    }
  }

  lemma DimDateCovers(startYear: int, endYear: int)
    ensures forall i :: 0 <= i < |YearsFrom(startYear, endYear)| ==> IsValid(YearsFrom(startYear, endYear)[i])
    ensures forall x, n, e {:trigger RecordFor(x, n, e)} :: startYear <= x <= endYear && ValidDate(x, n, e) ==>
              RecordFor(x, n, e) in RecordsOf(YearsFrom(startYear, endYear))
  {
    var ds := YearsFrom(startYear, endYear);
    YearsFromValid(startYear, endYear);
    YearsFromFacts(startYear, endYear);
    forall x, n, e | startYear <= x <= endYear && ValidDate(x, n, e) ensures RecordFor(x, n, e) in RecordsOf(ds) {
      RecordsCover(ds, x, n, e);
    }
  }

  lemma DimDateAscending(startYear: int, endYear: int)
    ensures forall i :: 0 <= i < |YearsFrom(startYear, endYear)| ==> IsValid(YearsFrom(startYear, endYear)[i])
    ensures KeysAscending(RecordsOf(YearsFrom(startYear, endYear)))
  {
    YearsFromValid(startYear, endYear);
    YearsFromFacts(startYear, endYear);
    RecordsAscending(YearsFrom(startYear, endYear));
  }

  /**
   * `populate_dim_date(start_year, end_year)`: a record for exactly each
   * valid date of the years start..end, in strictly increasing key order.
   * Distinct keys mean the insert's ON CONFLICT clause never fires within
   * one run.
   */
  function PopulateDimDate(startYear: int, endYear: int): (rs: seq<DateRecord>)
    ensures forall x, n, e {:trigger RecordFor(x, n, e)} :: startYear <= x <= endYear && ValidDate(x, n, e) ==> RecordFor(x, n, e) in rs
    ensures KeysAscending(rs)
  {
    var ds := YearsFrom(startYear, endYear);
    DimDateCovers(startYear, endYear);
    DimDateAscending(startYear, endYear);
    RecordsOf(ds)
  }

  /** Every record of the date dimension is a date of the requested years, and consistent. */
  lemma DimDateConsistent(startYear: int, endYear: int)
    ensures var rs := PopulateDimDate(startYear, endYear);
            forall i :: 0 <= i < |rs| ==> startYear <= rs[i].year <= endYear && Consistent(rs[i])
  {
    var ds := YearsFrom(startYear, endYear);
    YearsFromValid(startYear, endYear);
    RecordsConsistent(ds);
  }

  /** The number of days of year `y` from month `m` to December. */
  function DaysLeft(y: int, m: int): nat
    requires 1 <= m <= 13
    decreases 13 - m
  {
    if m > 12 then 0 else DaysInMonth(y, m) + DaysLeft(y, m + 1)
  }

  lemma {:induction false} DaysFromCount(y: int, m: int, d: int)
    requires 1 <= m <= 12 && 1 <= d <= 32
    ensures |DaysFrom(y, m, d)| == if MinYear <= y <= MaxYear && d <= DaysInMonth(y, m) then DaysInMonth(y, m) - d + 1 else 0
    decreases 32 - d
  {
    if d <= 31 {
      DaysFromCount(y, m, d + 1);
    }
  }

  lemma {:induction false} MonthsFromCount(y: int, m: int)
    requires 1 <= m <= 13
    ensures |MonthsFrom(y, m)| == if MinYear <= y <= MaxYear then DaysLeft(y, m) else 0
    decreases 13 - m
  {
    if m <= 12 {
      DaysFromCount(y, m, 1);
      MonthsFromCount(y, m + 1);
    }
  }

  lemma DaysInYear(y: int)
    ensures DaysLeft(y, 1) == if IsLeap(y) then 366 else 365
  {
    assert DaysLeft(y, 13) == 0;
    assert DaysLeft(y, 12) == 31;
    assert DaysLeft(y, 11) == 61;
    assert DaysLeft(y, 10) == 92;
    assert DaysLeft(y, 9) == 122;
    assert DaysLeft(y, 8) == 153;
    assert DaysLeft(y, 7) == 184;
    assert DaysLeft(y, 6) == 214;
    assert DaysLeft(y, 5) == 245;
    assert DaysLeft(y, 4) == 275;
    assert DaysLeft(y, 3) == 306;
    assert DaysLeft(y, 2) == 306 + (if IsLeap(y) then 29 else 28);
  }

  /** A year in datetime's range contributes 366 records when it is a leap year and 365 otherwise; any other year contributes none. */
  lemma YearSize(y: int)
    ensures |MonthsFrom(y, 1)| == if MinYear <= y <= MaxYear then (if IsLeap(y) then 366 else 365) else 0
  {
    MonthsFromCount(y, 1);
    DaysInYear(y);
  }
}

=== FILE: grouping.dfy ===
/**
 * Grouping sets and the classification of result rows. A grouping set names
 * the dimensions an aggregation group keeps; every other dimension is rolled
 * up, and GROUPING() reports 1 for it. The cube form requests all eight
 * subsets of {geo, time, product} (GROUP BY CUBE); the cross-table form
 * requests five of them (GROUP BY GROUPING SETS), as defined for the
 * <group by clause> in section 7.9 of ISO/IEC 9075-2. Each result row is
 * labelled from its three GROUPING values by a fixed CASE table.
 */
module Grouping {
  import opened Hierarchy

  /** The dimensions one aggregation group keeps. */
  type GroupingSet = set<Dimension>

  /** The GROUPING() values of a row for the geo, time and product fields. */
  datatype Bits = Bits(geo: int, time: int, product: int)

  /** Bits that GROUPING() can actually produce: each is 0 or 1. */
  predicate IsGroupingBits(b: Bits)
  {
    b.geo in {0, 1} && b.time in {0, 1} && b.product in {0, 1}
  }

  /** The GROUPING() values of the rows of grouping set `s`: 0 for a kept dimension, 1 for a rolled-up one. */
  function BitsOf(s: GroupingSet): Bits
  {
    Bits(if Geo in s then 0 else 1, if Time in s then 0 else 1, if Product in s then 0 else 1)
  }

  /** The grouping set a triple of GROUPING() values describes. */
  function SetOf(b: Bits): GroupingSet
  {
    (if b.geo == 0 then {Geo} else {}) + (if b.time == 0 then {Time} else {}) + (if b.product == 0 then {Product} else {})
  }

  /** A row's GROUPING() values identify its grouping set, and every 0/1 triple comes from one. */
  lemma BitsRoundTrip(s: GroupingSet, b: Bits)
    ensures SetOf(BitsOf(s)) == s
    ensures IsGroupingBits(BitsOf(s))
    ensures IsGroupingBits(b) ==> BitsOf(SetOf(b)) == b
  {
    forall d | d in s ensures d in SetOf(BitsOf(s)) {
      match d
      case Geo =>
      case Time =>
      case Product =>
    }
  }

  /** The eight grouping sets GROUP BY CUBE(geo, time, product) expands to. */
  function CubeSets(): seq<GroupingSet>
  {
    [ {Geo, Time, Product}, {Geo, Time}, {Geo, Product}, {Time, Product},
      {Geo}, {Time}, {Product}, {} ]
  }

  /** The five grouping sets the cross-table query lists. */
  function CrossSets(): seq<GroupingSet>
  {
    [ {Geo, Time, Product}, {Geo, Time}, {Geo, Product}, {Geo}, {} ]
  }

  /** The cube lists every subset of the three dimensions exactly once. */
  lemma CubeSetsArePowerSet(s: GroupingSet)
    ensures s in CubeSets()
    ensures |CubeSets()| == 8
    ensures forall i, j :: 0 <= i < j < |CubeSets()| ==> CubeSets()[i] != CubeSets()[j]
  {
    SubsetCases(s);
    assert Geo in {Geo, Time, Product};
    assert Time !in {Geo, Product} && Geo !in {Time, Product} && Product !in {Geo, Time};
  }

  /** Every set of dimensions is one of the eight explicit subsets. */
  lemma SubsetCases(s: GroupingSet)
    ensures || s == {Geo, Time, Product} || s == {Geo, Time} || s == {Geo, Product} || s == {Time, Product}
            || s == {Geo} || s == {Time} || s == {Product} || s == {}
  {
    BitsRoundTrip(s, BitsOf(s));
    assert s == SetOf(BitsOf(s));
  }

  /**
   * The cross-table query lists five distinct grouping sets and leaves out
   * exactly {time, product}, {time} and {product}: the sets that roll up
   * geography while keeping something else.
   */
  lemma CrossSetsMembership(s: GroupingSet)
    ensures s in CrossSets() <==> (Geo in s || s == {})
    ensures |CrossSets()| == 5
    ensures forall i, j :: 0 <= i < j < |CrossSets()| ==> CrossSets()[i] != CrossSets()[j]
  {
    SubsetCases(s);
    assert Geo in {Geo, Time, Product};
    assert Time !in {Geo, Product} && Product !in {Geo, Time} && Product !in {Geo};
  }

  /** The CASE table labelling the rows of the cube query. */
  function CubeLabel(b: Bits): string
  {
    if b.geo == 0 && b.time == 0 && b.product == 0 then "Detail Level"
    else if b.geo == 0 && b.time == 0 && b.product == 1 then "By Geo + Time"
    else if b.geo == 0 && b.time == 1 && b.product == 0 then "By Geo + Product"
    else if b.geo == 1 && b.time == 0 && b.product == 0 then "By Time + Product"
    else if b.geo == 0 && b.time == 1 && b.product == 1 then "By Geography Only"
    else if b.geo == 1 && b.time == 0 && b.product == 1 then "By Time Only"
    else if b.geo == 1 && b.time == 1 && b.product == 0 then "By Product Only"
    else if b.geo == 1 && b.time == 1 && b.product == 1 then "Grand Total"
    else "Unknown Level"
  }

  /**
   * Cube labelling is total and injective on the eight grouping sets: no
   * grouping set falls to the fallback, and distinct grouping sets get
   * distinct labels. The fallback is reached exactly by values GROUPING()
   * never returns.
   */
  lemma CubeLabelTotalInjective(s: GroupingSet, s': GroupingSet, b: Bits)
    ensures CubeLabel(BitsOf(s)) != "Unknown Level"
    ensures s != s' ==> CubeLabel(BitsOf(s)) != CubeLabel(BitsOf(s'))
    ensures CubeLabel(b) == "Unknown Level" <==> !IsGroupingBits(b)
  {
    BitsRoundTrip(s, b);
    BitsRoundTrip(s', b);
  }

  /** The CASE table labelling the rows of the cross-table query. */
  function CrossLabel(b: Bits): string
  {
    if b.geo == 0 && b.time == 0 && b.product == 0 then "Detail"
    else if b.geo == 0 && b.time == 0 && b.product == 1 then "Row Subtotal"
    else if b.geo == 0 && b.time == 1 && b.product == 0 then "Column Subtotal"
    else if b.geo == 0 && b.time == 1 && b.product == 1 then "Geographic Total"
    else if b.geo == 1 && b.time == 1 && b.product == 1 then "Grand Total"
    else "Other"
  }

  /**
   * The five requested grouping sets map to Detail, Row Subtotal, Column
   * Subtotal, Geographic Total and Grand Total in that order, and a grouping
   * set gets the fallback label exactly when the query does not request it.
   */
  lemma CrossLabelsOfRequestedSets(s: GroupingSet)
    ensures CrossLabel(BitsOf(s)) != "Other" <==> s in CrossSets()
    ensures CrossLabel(BitsOf(CrossSets()[0])) == "Detail"
    ensures CrossLabel(BitsOf(CrossSets()[1])) == "Row Subtotal"
    ensures CrossLabel(BitsOf(CrossSets()[2])) == "Column Subtotal"
    ensures CrossLabel(BitsOf(CrossSets()[3])) == "Geographic Total"
    ensures CrossLabel(BitsOf(CrossSets()[4])) == "Grand Total"
  {
    CrossSetsMembership(s);
    SubsetCases(s);
  }
}

=== FILE: hierarchy.dfy ===
/**
 * The hierarchy registry: three fixed four-level hierarchies (geography,
 * time, product), each level name backed by one warehouse field, and the
 * validation every analysis request passes before a query is built.
 */
module Hierarchy {
  import opened Wrappers

  datatype Dimension = Geo | Time | Product

  /** The warehouse fields a level can be backed by. */
  datatype Field =
    | CountryName | RegionName | CityName | ShopName
    | Year | Quarter | Month | Day
    | ProductCategoryName | ProductFamilyName | ProductGroupName | ArticleName

  /** The level names of a hierarchy, coarsest first, as the drill navigator lists them. */
  function Levels(d: Dimension): (r: seq<string>)
    ensures |r| == 4
  {
    match d
    case Geo => ["country", "region", "city", "shop"]
    case Time => ["year", "quarter", "month", "day"]
    case Product => ["productCategory", "productFamily", "productGroup", "article"]
  }

  /** The field backing each level of `Levels(d)`, position by position. */
  function Fields(d: Dimension): (r: seq<Field>)
    ensures |r| == 4
  {
    match d
    case Geo => [CountryName, RegionName, CityName, ShopName]
    case Time => [Year, Quarter, Month, Day]
    case Product => [ProductCategoryName, ProductFamilyName, ProductGroupName, ArticleName]
  }

  /** The dimension a field belongs to. */
  function DimensionOf(f: Field): Dimension
  {
    match f
    case CountryName | RegionName | CityName | ShopName => Geo
    case Year | Quarter | Month | Day => Time
    case _ => Product
  }

  /** The registry of a hierarchy: level name to backing field. */
  function Registry(d: Dimension): map<string, Field>
  {
    match d
    case Geo => map["country" := CountryName, "region" := RegionName, "city" := CityName, "shop" := ShopName]
    case Time => map["year" := Year, "quarter" := Quarter, "month" := Month, "day" := Day]
    case Product =>
      map["productCategory" := ProductCategoryName, "productFamily" := ProductFamilyName,
          "productGroup" := ProductGroupName, "article" := ArticleName]
  }

  /** The registry lookup: the field behind `level`, or nothing when the hierarchy has no such key. */
  function FieldOf(d: Dimension, level: string): (r: Option<Field>)
    ensures r.Some? <==> level in Levels(d)
    ensures forall i :: 0 <= i < 4 && Levels(d)[i] == level ==> r == Some(Fields(d)[i])
    ensures r.Some? ==> DimensionOf(r.value) == d
  {
    if level in Registry(d) then Some(Registry(d)[level]) else None
  }

  /** The fields chosen for one request, one per dimension. */
  datatype Granularity = Granularity(geo: Field, time: Field, product: Field)

  /** The ValueError raised for a level name its hierarchy does not know. */
  datatype InvalidLevel = InvalidLevel(dimension: Dimension, level: string)

  /**
   * Request validation: geography is checked first, then time, then product,
   * and the first unknown level is reported; only when all three are known is
   * a granularity produced.
   */
  function Validate(geo: string, time: string, product: string): (r: Result<Granularity, InvalidLevel>)
    ensures r.Success? <==> geo in Levels(Geo) && time in Levels(Time) && product in Levels(Product)
    ensures geo !in Levels(Geo) ==> r == Failure(InvalidLevel(Geo, geo))
    ensures geo in Levels(Geo) && time !in Levels(Time) ==> r == Failure(InvalidLevel(Time, time))
    ensures geo in Levels(Geo) && time in Levels(Time) && product !in Levels(Product) ==>
              r == Failure(InvalidLevel(Product, product))
    ensures r.Success? ==>
              && DimensionOf(r.value.geo) == Geo
              && DimensionOf(r.value.time) == Time
              && DimensionOf(r.value.product) == Product
  {
    match (FieldOf(Geo, geo), FieldOf(Time, time), FieldOf(Product, product))
    case (None, _, _) => Failure(InvalidLevel(Geo, geo))
    case (Some(_), None, _) => Failure(InvalidLevel(Time, time))
    case (Some(_), Some(_), None) => Failure(InvalidLevel(Product, product))
    case (Some(g), Some(t), Some(p)) => Success(Granularity(g, t, p))
  }

  /** Every one of the 4 x 4 x 4 level combinations is accepted, with the fields listed for those levels. */
  lemma AllCombinationsAccepted(i: nat, j: nat, k: nat)
    requires i < 4 && j < 4 && k < 4
    ensures Validate(Levels(Geo)[i], Levels(Time)[j], Levels(Product)[k])
            == Success(Granularity(Fields(Geo)[i], Fields(Time)[j], Fields(Product)[k]))
  {
  }

  /**
   * The year filter: the query filters on the year only when the year is
   * truthy, so an absent year and the year 0 both mean "all years".
   */
  function YearFilter(year: Option<int>): (r: Option<int>)
    ensures r.Some? <==> year.Some? && year.value != 0
    ensures r.Some? ==> r == year
  {
    match year
    case Some(y) => if y != 0 then Some(y) else None
    case None => None
  }
}

=== FILE: navigator.dfy ===
/**
 * The interactive drill navigator: the current position is one level index
 * per hierarchy, each in [0, 3]; options 1-3 drill down (towards the finest
 * level) and 4-6 roll up (towards the coarsest) on geography, time and
 * product, each only when a level exists in that direction; 7 shows the
 * current detail rows, 8 leaves, and anything else changes nothing.
 */
module Navigator {
  import opened Wrappers
  import opened Hierarchy

  /** The index of the finest level of every hierarchy. */
  const Finest: nat := 3

  /** One level index per hierarchy, into `Levels(d)`. */
  datatype State = State(geo: nat, time: nat, product: nat)

  predicate Valid(s: State)
  {
    s.geo <= Finest && s.time <= Finest && s.product <= Finest
  }

  /** The starting position: region, quarter, product group. */
  function Start(): (s: State)
    ensures Valid(s)
    ensures Levels(Geo)[s.geo] == "region" && Levels(Time)[s.time] == "quarter"
    ensures Levels(Product)[s.product] == "productGroup"
  {
    State(1, 1, 2)
  }

  function Index(s: State, d: Dimension): nat
  {
    match d
    case Geo => s.geo
    case Time => s.time
    case Product => s.product
  }

  function WithIndex(s: State, d: Dimension, i: nat): (r: State)
    ensures Index(r, d) == i
    ensures forall e :: e != d ==> Index(r, e) == Index(s, e)
  {
    match d
    case Geo => s.(geo := i)
    case Time => s.(time := i)
    case Product => s.(product := i)
  }

  /** What a menu entry asks for. */
  datatype Command = DrillDown(d: Dimension) | RollUp(d: Dimension) | ShowDetail | Leave | Unknown

  /** The menu: the stripped input is compared with the option digits exactly. */
  function CommandOf(choice: string): (c: Command)
    ensures c == Leave <==> choice == "8"
    ensures c == ShowDetail <==> choice == "7"
  {
    if choice == "1" then DrillDown(Geo)
    else if choice == "2" then DrillDown(Time)
    else if choice == "3" then DrillDown(Product)
    else if choice == "4" then RollUp(Geo)
    else if choice == "5" then RollUp(Time)
    else if choice == "6" then RollUp(Product)
    else if choice == "7" then ShowDetail
    else if choice == "8" then Leave
    else Unknown
  }

  /**
   * One round of the loop: the next position, or None when the user leaves.
   * A drill-down or roll-up that has no level to go to, option 7 and any
   * unknown input keep the position.
   */
  function Next(s: State, choice: string): (r: Option<State>)
    requires Valid(s)
    ensures r.None? <==> choice == "8"
    ensures r.Some? ==> Valid(r.value)
  {
    match CommandOf(choice)
    case DrillDown(d) => Some(if Index(s, d) < Finest then WithIndex(s, d, Index(s, d) + 1) else s)
    case RollUp(d) => Some(if Index(s, d) > 0 then WithIndex(s, d, Index(s, d) - 1) else s)
    case ShowDetail => Some(s)
    case Leave => None
    case Unknown => Some(s)
  }

  /** The level names the position selects, handed to the analysis. */
  function LevelNames(s: State): (names: (string, string, string))
    requires Valid(s)
  {
    (Levels(Geo)[s.geo], Levels(Time)[s.time], Levels(Product)[s.product])
  }

  /**
   * Every valid position names levels the analysis accepts, and validation
   * resolves them to the fields listed for those positions.
   */
  lemma PositionValidates(s: State)
    requires Valid(s)
    ensures var (g, t, p) := LevelNames(s);
            Validate(g, t, p) == Success(Granularity(Fields(Geo)[s.geo], Fields(Time)[s.time], Fields(Product)[s.product]))
  {
    AllCombinationsAccepted(s.geo, s.time, s.product);
  }

  /**
   * A move changes at most one index, by exactly one: drill-down raises the
   * chosen index unless it is already the finest, roll-up lowers it unless
   * it is already the coarsest, and every other index is untouched.
   */
  lemma MoveChangesOneIndex(s: State, choice: string)
    requires Valid(s) && choice != "8"
    ensures var r := Next(s, choice).value;
            match CommandOf(choice)
            case DrillDown(d) =>
              && Index(r, d) == (if Index(s, d) == Finest then Index(s, d) else Index(s, d) + 1)
              && forall e :: e != d ==> Index(r, e) == Index(s, e)
            case RollUp(d) =>
              && Index(r, d) == (if Index(s, d) == 0 then 0 else Index(s, d) - 1)
              && forall e :: e != d ==> Index(r, e) == Index(s, e)
            case _ => r == s
  {
  }

  /** Rolling up undoes a drill-down, and drilling down undoes a roll-up, whenever the first move was available. */
  lemma RollUpUndoesDrillDown(s: State, d: Dimension)
    requires Valid(s)
    ensures Index(s, d) < Finest ==> Next(Next(s, DrillChoice(d)).value, RollChoice(d)) == Some(s)
    ensures Index(s, d) > 0 ==> Next(Next(s, RollChoice(d)).value, DrillChoice(d)) == Some(s)
  {
    var up := WithIndex(s, d, Index(s, d) + 1);
    if Index(s, d) < Finest {
      assert WithIndex(up, d, Index(s, d)) == s;
    }
    if Index(s, d) > 0 {
      assert WithIndex(WithIndex(s, d, Index(s, d) - 1), d, Index(s, d)) == s;
    }
  }

  /** The menu digit that drills down dimension `d`. */
  function DrillChoice(d: Dimension): (c: string)
    ensures CommandOf(c) == DrillDown(d)
  {
    match d
    case Geo => "1"
    case Time => "2"
    case Product => "3"
  }

  /** The menu digit that rolls up dimension `d`. */
  function RollChoice(d: Dimension): (c: string)
    ensures CommandOf(c) == RollUp(d)
  {
    match d
    case Geo => "4"
    case Time => "5"
    case Product => "6"
  }

  /** The whole session: the position in force when the inputs run out or the user leaves. */
  function Run(s: State, choices: seq<string>): (r: State)
    requires Valid(s)
    ensures Valid(r)
    decreases |choices|
  {
    if |choices| == 0 then s
    else
      match Next(s, choices[0])
      case None => s
      case Some(t) => Run(t, choices[1..])
  }

  function Repeat(c: string, n: nat): (r: seq<string>)
    ensures |r| == n && forall i :: 0 <= i < n ==> r[i] == c
  {
    seq(n, i => c)
  }

  /** The sum of the three indices: how far the position is from the coarsest one. */
  function Depth(s: State): nat
  {
    s.geo + s.time + s.product
  }

  /** Each input moves the position at most one level in total, so n inputs change the depth by at most n. */
  lemma {:induction false} DepthChangesSlowly(s: State, choices: seq<string>)
    requires Valid(s)
    ensures Depth(s) - |choices| <= Depth(Run(s, choices)) <= Depth(s) + |choices|
    decreases |choices|
  {
    if |choices| > 0 && choices[0] != "8" {
      MoveChangesOneIndex(s, choices[0]);
      DepthChangesSlowly(Next(s, choices[0]).value, choices[1..]);
    }
  }

  /**
   * Repeating a drill-down n times moves that index n levels finer,
   * stopping at the finest, and leaves the other indices alone.
   */
  lemma {:induction false} RepeatedDrills(s: State, d: Dimension, n: nat)
    requires Valid(s)
    ensures var r := Run(s, Repeat(DrillChoice(d), n));
            && Index(r, d) == (if Index(s, d) + n <= Finest then Index(s, d) + n else Finest)
            && forall e :: e != d ==> Index(r, e) == Index(s, e)
    decreases n
  {
    if n > 0 {
      MoveChangesOneIndex(s, DrillChoice(d));
      assert Repeat(DrillChoice(d), n)[1..] == Repeat(DrillChoice(d), n - 1);
      RepeatedDrills(Next(s, DrillChoice(d)).value, d, n - 1);
    }
  }

  /**
   * Repeating a roll-up n times moves that index n levels coarser,
   * stopping at the coarsest, and leaves the other indices alone.
   */
  lemma {:induction false} RepeatedRollUps(s: State, d: Dimension, n: nat)
    requires Valid(s)
    ensures var r := Run(s, Repeat(RollChoice(d), n));
            && Index(r, d) == (if n <= Index(s, d) then Index(s, d) - n else 0)
            && forall e :: e != d ==> Index(r, e) == Index(s, e)
    decreases n
  {
    if n > 0 {
      MoveChangesOneIndex(s, RollChoice(d));
      assert Repeat(RollChoice(d), n)[1..] == Repeat(RollChoice(d), n - 1);
      RepeatedRollUps(Next(s, RollChoice(d)).value, d, n - 1);
    }
  }

  lemma {:induction false} RunAppend(s: State, a: seq<string>, b: seq<string>)
    requires Valid(s)
    requires forall i :: 0 <= i < |a| ==> a[i] != "8"
    ensures Run(s, a + b) == Run(Run(s, a), b)
    decreases |a|
  {
    if |a| == 0 {
      assert a + b == b;
    } else {
      assert (a + b)[1..] == a[1..] + b;
      RunAppend(Next(s, a[0]).value, a[1..], b);
    }
  }

  /** The inputs that move dimension `d` from index `from` to index `to`. */
  function MovesTo(d: Dimension, from: nat, to: nat): (cs: seq<string>)
    ensures forall i :: 0 <= i < |cs| ==> cs[i] != "8"
  {
    if from <= to then Repeat(DrillChoice(d), to - from) else Repeat(RollChoice(d), from - to)
  }

  lemma MovesToArrive(s: State, d: Dimension, to: nat)
    requires Valid(s) && to <= Finest
    ensures Run(s, MovesTo(d, Index(s, d), to)) == WithIndex(s, d, to)
  {
    if Index(s, d) <= to {
      DrillsArrive(s, d, to);
    } else {
      RollUpsArrive(s, d, to);
    }
  }

  lemma DrillsArrive(s: State, d: Dimension, to: nat)
    requires Valid(s) && Index(s, d) <= to <= Finest
    ensures Run(s, Repeat(DrillChoice(d), to - Index(s, d))) == WithIndex(s, d, to)
  {
    RepeatedDrills(s, d, to - Index(s, d));
    SameIndices(Run(s, Repeat(DrillChoice(d), to - Index(s, d))), WithIndex(s, d, to));
  }

  lemma RollUpsArrive(s: State, d: Dimension, to: nat)
    requires Valid(s) && to < Index(s, d)
    ensures Run(s, Repeat(RollChoice(d), Index(s, d) - to)) == WithIndex(s, d, to)
  {
    RepeatedRollUps(s, d, Index(s, d) - to);
    SameIndices(Run(s, Repeat(RollChoice(d), Index(s, d) - to)), WithIndex(s, d, to));
  }

  /** A position is determined by its three indices. */
  lemma SameIndices(a: State, b: State)
    requires Index(a, Geo) == Index(b, Geo) && Index(a, Time) == Index(b, Time) && Index(a, Product) == Index(b, Product)
    ensures a == b
  {
  }

  /** A path from the starting position to `target`: geography first, then time, then product. */
  function PathTo(target: State): seq<string>
  {
    var s := Start();
    MovesTo(Geo, s.geo, target.geo) + MovesTo(Time, s.time, target.time) + MovesTo(Product, s.product, target.product)
  }

  /** Every one of the 64 valid positions is reachable from the start, and the session stays valid throughout. */
  lemma EveryPositionReachable(target: State)
    requires Valid(target)
    ensures Run(Start(), PathTo(target)) == target
  {
    var s0 := Start();
    var a := MovesTo(Geo, s0.geo, target.geo);
    var b := MovesTo(Time, s0.time, target.time);
    var c := MovesTo(Product, s0.product, target.product);
    assert PathTo(target) == a + (b + c);
    RunAppend(s0, a, b + c);
    MovesToArrive(s0, Geo, target.geo);
    var s1 := WithIndex(s0, Geo, target.geo);
    RunAppend(s1, b, c);
    MovesToArrive(s1, Time, target.time);
    var s2 := WithIndex(s1, Time, target.time);
    MovesToArrive(s2, Product, target.product);
    assert WithIndex(s2, Product, target.product) == target;
  }

  /** Leaving ends the session: whatever follows option 8 is never read. */
  lemma LeaveEndsSession(s: State, choices: seq<string>)
    requires Valid(s)
    ensures Run(s, ["8"] + choices) == s
  {
  }
}

=== FILE: ordering.dfy ===
/**
 * Orders and sorting. Text is compared by code point, lexicographically, which
 * is how Python orders `str` values (the pivot sorts its row and column labels
 * this way) and how a database compares text under the "C" collation. Two
 * sorting shapes are needed: the sorted list of distinct labels a pivot builds
 * its axes from, and an ORDER BY that sorts rows by a key and allows ties.
 */
module Ordering {

  /** `lt` is a strict total order: irreflexive, transitive, and any two distinct values are comparable. */
  ghost predicate StrictTotalOrder<T(!new)>(lt: (T, T) -> bool)
  {
    && (forall a :: !lt(a, a))
    && (forall a, b, c :: lt(a, b) && lt(b, c) ==> lt(a, c))
    && (forall a, b :: a != b ==> lt(a, b) || lt(b, a))
  }

  /** Every element is strictly below every later one; in particular no element repeats. */
  predicate StrictlySorted<T>(s: seq<T>, lt: (T, T) -> bool)
  {
    forall i, j :: 0 <= i < j < |s| ==> lt(s[i], s[j])
  }

  /** Adds `x` to a strictly sorted list unless it is already there, keeping the list strictly sorted. */
  function InsertUnique<T(==, !new)>(s: seq<T>, x: T, lt: (T, T) -> bool): (r: seq<T>)
    requires StrictTotalOrder(lt) && StrictlySorted(s, lt)
    ensures StrictlySorted(r, lt)
    ensures forall y :: y in r <==> y in s || y == x
  {
    if |s| == 0 then [x]
    else if x == s[0] then s
    else if lt(x, s[0]) then
      assert forall j :: 0 <= j < |s| ==> lt(x, s[j]);
      [x] + s
    else
      var tail := InsertUnique(s[1..], x, lt);
      assert forall y :: y in tail ==> lt(s[0], y) by {
        forall y | y in tail ensures lt(s[0], y) {
          if y != x {
            var k :| 1 <= k < |s| && s[k] == y;
          }
        }
      }
      [s[0]] + tail
  }

  /** The distinct values of `xs`, strictly sorted: the labels of one axis of a pivot table. */
  function SortedDistinct<T(==, !new)>(xs: seq<T>, lt: (T, T) -> bool): (r: seq<T>)
    requires StrictTotalOrder(lt)
    ensures StrictlySorted(r, lt)
    ensures forall y :: y in r <==> y in xs
  {
    if |xs| == 0 then []
    else
      var init := xs[..|xs| - 1];
      var r := InsertUnique(SortedDistinct(init, lt), xs[|xs| - 1], lt);
      assert forall y :: y in xs <==> y in init || y == xs[|xs| - 1] by {
        assert xs == init + [xs[|xs| - 1]];
      }
      r
  }

  /** Rows sorted by `key` in ascending order; rows with equal keys may appear in any order. */
  predicate SortedBy<T, K>(s: seq<T>, key: T -> K, lt: (K, K) -> bool)
  {
    forall i, j :: 0 <= i < j < |s| ==> !lt(key(s[j]), key(s[i]))
  }

  /** Places `x` before the first row whose key is strictly greater than its own. */
  function InsertBy<T(==), K(!new)>(s: seq<T>, x: T, key: T -> K, lt: (K, K) -> bool): (r: seq<T>)
    requires StrictTotalOrder(lt) && SortedBy(s, key, lt)
    ensures SortedBy(r, key, lt)
    ensures multiset(r) == multiset(s) + multiset{x}
  {
    if |s| == 0 then [x]
    else if lt(key(x), key(s[0])) then
      assert forall j :: 0 <= j < |s| ==> !lt(key(s[j]), key(x));
      [x] + s
    else
      var tail := InsertBy(s[1..], x, key, lt);
      assert s == [s[0]] + s[1..];
      assert forall y :: y in tail ==> !lt(key(y), key(s[0])) by {
        forall y | y in tail ensures !lt(key(y), key(s[0])) {
          assert y in multiset(tail);
          if y != x {
            assert y in multiset(s[1..]);
            var k :| 0 <= k < |s[1..]| && s[1..][k] == y;
            assert s[k + 1] == y;
          }
        }
      }
      [s[0]] + tail
  }

  /** Insertion sort by key: the ORDER BY of a query. */
  function SortBy<T(==), K(!new)>(xs: seq<T>, key: T -> K, lt: (K, K) -> bool): (r: seq<T>)
    requires StrictTotalOrder(lt)
    ensures SortedBy(r, key, lt)
    ensures multiset(r) == multiset(xs)
  {
    if |xs| == 0 then []
    else
      assert xs == [xs[0]] + xs[1..];
      InsertBy(SortBy(xs[1..], key, lt), xs[0], key, lt)
  }

  /** Code-point lexicographic order on text: a proper prefix comes first. */
  predicate StrLt(a: string, b: string)
  {
    if |b| == 0 then false
    else if |a| == 0 then true
    else if a[0] != b[0] then a[0] < b[0]
    else StrLt(a[1..], b[1..])
  }

  lemma {:induction false} StrLtIrreflexive(a: string)
    ensures !StrLt(a, a)
  {
    if |a| > 0 {
      StrLtIrreflexive(a[1..]);
    }
  }

  lemma {:induction false} StrLtTransitive(a: string, b: string, c: string)
    requires StrLt(a, b) && StrLt(b, c)
    ensures StrLt(a, c)
  {
    if |a| > 0 && a[0] == b[0] && b[0] == c[0] {
      StrLtTransitive(a[1..], b[1..], c[1..]);
    }
  }

  lemma {:induction false} StrLtTotal(a: string, b: string)
    requires a != b
    ensures StrLt(a, b) || StrLt(b, a)
  {
    if |a| > 0 && |b| > 0 && a[0] == b[0] {
      assert a == [a[0]] + a[1..] && b == [b[0]] + b[1..];
      StrLtTotal(a[1..], b[1..]);
    }
  }

  /** Text order is a strict total order, so it can label a pivot axis and key an ORDER BY. */
  lemma StrLtIsStrictTotalOrder()
    ensures StrictTotalOrder(StrLt)
  {
    forall a ensures !StrLt(a, a) {
      StrLtIrreflexive(a);
    }
    forall a, b, c | StrLt(a, b) && StrLt(b, c) ensures StrLt(a, c) {
      StrLtTransitive(a, b, c);
    }
    forall a, b | a != b ensures StrLt(a, b) || StrLt(b, a) {
      StrLtTotal(a, b);
    }
  }
}

=== FILE: query.dfy ===
/**
 * The aggregation queries behind `analysis` (the cube form) and
 * `get_cross_table_data` (the cross-table form), modelled as data: the chosen
 * fields, the list of grouping sets, the optional year filter and the fixed
 * ORDER BY key. Their evaluation over a sequence of fact rows gives the
 * integer SUM(quantity) and COUNT(*) semantics of GROUP BY with grouping sets,
 * so totals can be related to the detail groups they summarise.
 */
module OlapQuery {
  import opened Wrappers
  import opened Hierarchy
  import opened Grouping
  import opened Sums
  import opened Ordering
  import opened Text

  /** One sale joined with its shop, date and product dimension rows. */
  datatype Fact = Fact(
    countryName: string, regionName: string, cityName: string, shopName: string,
    year: nat, quarter: nat, month: nat, day: nat,
    categoryName: string, familyName: string, groupName: string, articleName: string,
    quantity: int)

  /** CAST(field AS TEXT) for one fact: names as they are, numbers in decimal. */
  function FieldText(f: Fact, field: Field): string
  {
    match field
    case CountryName => f.countryName
    case RegionName => f.regionName
    case CityName => f.cityName
    case ShopName => f.shopName
    case Year => NatText(f.year)
    case Quarter => NatText(f.quarter)
    case Month => NatText(f.month)
    case Day => NatText(f.day)
    case ProductCategoryName => f.categoryName
    case ProductFamilyName => f.familyName
    case ProductGroupName => f.groupName
    case ArticleName => f.articleName
  }

  datatype Shape = Cube | CrossTab

  /** A generated query: fields, grouping sets, year filter; the ORDER BY key is `SortKey` for both shapes. */
  datatype Query = Query(shape: Shape, fields: Granularity, sets: seq<GroupingSet>, yearFilter: Option<int>)

  function SetsFor(shape: Shape): seq<GroupingSet>
  {
    match shape
    case Cube => CubeSets()
    case CrossTab => CrossSets()
  }

  /**
   * Validation, then query construction. An unknown level is rejected before
   * any query exists; otherwise the cube form groups by every subset of the
   * three fields, the cross-table form by the five sets that keep geography
   * or keep nothing, and the year filter is present exactly when the year is
   * truthy.
   */
  function BuildQuery(shape: Shape, geo: string, time: string, product: string, year: Option<int>): (r: Result<Query, InvalidLevel>)
    ensures r.Success? <==> geo in Levels(Geo) && time in Levels(Time) && product in Levels(Product)
    ensures r.Failure? ==> r == Failure(Validate(geo, time, product).error)
    ensures r.Success? ==> r.value.shape == shape
    ensures r.Success? ==> (r.value.yearFilter.Some? <==> year.Some? && year.value != 0)
    ensures r.Success? ==> forall y :: r.value.yearFilter == Some(y) ==> year == Some(y)
    ensures r.Success? && shape == Cube ==> |r.value.sets| == 8 && forall s: GroupingSet :: s in r.value.sets
    ensures r.Success? && shape == CrossTab ==>
              |r.value.sets| == 5 && forall s: GroupingSet :: s in r.value.sets <==> Geo in s || s == {}
  {
    match Validate(geo, time, product)
    case Failure(e) => Failure(e)
    case Success(g) =>
      var q := Query(shape, g, SetsFor(shape), YearFilter(year));
      assert forall s: GroupingSet :: s in CubeSets() by {
        forall s: GroupingSet ensures s in CubeSets() {
          CubeSetsArePowerSet(s);
        }
      }
      assert forall s: GroupingSet :: s in CrossSets() <==> Geo in s || s == {} by {
        forall s: GroupingSet ensures s in CrossSets() <==> Geo in s || s == {} {
          CrossSetsMembership(s);
        }
      }
      Success(q)
  }

  function YearOf(f: Fact): int
  {
    f.year
  }

  function Quantity(f: Fact): int
  {
    f.quantity
  }

  /** The WHERE clause: only facts of the filtered year, or all facts when there is no filter. */
  function Where(filter: Option<int>, facts: seq<Fact>): (r: seq<Fact>)
    ensures forall i :: 0 <= i < |r| ==> r[i] in facts && (filter.Some? ==> r[i].year == filter.value)
    ensures forall i :: 0 <= i < |facts| && (filter.Some? ==> facts[i].year == filter.value) ==> facts[i] in r
    ensures forall f :: multiset(r)[f] == if filter.None? || f.year == filter.value then multiset(facts)[f] else 0
  {
    match filter
    case None => facts
    case Some(y) =>
      FilterMultiset(facts, YearOf, y);
      Filter(facts, YearOf, y)
  }

  /** The grouping key of a fact within grouping set `s`: the kept fields' text, NULL for rolled-up ones. */
  datatype GroupKey = GroupKey(geo: Option<string>, time: Option<string>, product: Option<string>)

  function KeyOf(q: Query, s: GroupingSet, f: Fact): GroupKey
  {
    GroupKey(
      if Geo in s then Some(FieldText(f, q.fields.geo)) else None,
      if Time in s then Some(FieldText(f, q.fields.time)) else None,
      if Product in s then Some(FieldText(f, q.fields.product)) else None)
  }

  function KeyFn(q: Query, s: GroupingSet): Fact -> GroupKey
  {
    f => KeyOf(q, s, f)
  }

  /**
   * The groups of grouping set `s`: the distinct keys of the facts. The empty
   * grouping set forms its one group even when there are no facts, as SQL
   * requires of a grand total.
   */
  function Groups(q: Query, s: GroupingSet, facts: seq<Fact>): (ks: seq<GroupKey>)
    ensures Distinct(ks)
    ensures forall f :: f in facts ==> KeyOf(q, s, f) in ks
    ensures s == {} ==> ks == [GroupKey(None, None, None)]
    ensures s != {} ==> forall i :: 0 <= i < |ks| ==> exists f :: f in facts && KeyOf(q, s, f) == ks[i]
  {
    if s == {} then [GroupKey(None, None, None)]
    else
      var keys := seq(|facts|, i requires 0 <= i < |facts| => KeyOf(q, s, facts[i]));
      var ks := Dedup(keys);
      assert forall f :: f in facts ==> KeyOf(q, s, f) in ks by {
        forall f | f in facts ensures KeyOf(q, s, f) in ks {
          var i :| 0 <= i < |facts| && facts[i] == f;
          assert keys[i] == KeyOf(q, s, f);
        }
      }
      assert forall i :: 0 <= i < |ks| ==> exists f :: f in facts && KeyOf(q, s, f) == ks[i] by {
        forall i | 0 <= i < |ks| ensures exists f :: f in facts && KeyOf(q, s, f) == ks[i] {
          var j :| 0 <= j < |keys| && keys[j] == ks[i];
          assert facts[j] in facts && KeyOf(q, s, facts[j]) == ks[i];
        }
      }
      ks
  }

  /** The text COALESCE(CAST(field AS TEXT), '[Total]') puts in a dimension column. */
  function Display(v: Option<string>): string
  {
    match v
    case Some(t) => t
    case None => "[Total]"
  }

  function LabelFor(shape: Shape, b: Bits): string
  {
    match shape
    case Cube => CubeLabel(b)
    case CrossTab => CrossLabel(b)
  }

  /** One result row: dimension columns, GROUPING() values, SUM(quantity) (NULL over no rows), COUNT(*) and the level label. */
  datatype Row = Row(geo: string, time: string, product: string, bits: Bits,
                     quantity: Option<int>, count: nat, level: string)

  function RowFor(q: Query, s: GroupingSet, facts: seq<Fact>, k: GroupKey): Row
  {
    var members := Filter(facts, KeyFn(q, s), k);
    Row(Display(k.geo), Display(k.time), Display(k.product), BitsOf(s),
        if |members| == 0 then None else Some(SumOf(members, Quantity)),
        |members|, LabelFor(q.shape, BitsOf(s)))
  }

  function RowsOfKeys(q: Query, s: GroupingSet, facts: seq<Fact>, ks: seq<GroupKey>): (rows: seq<Row>)
    ensures |rows| == |ks|
    ensures forall i :: 0 <= i < |ks| ==> rows[i] == RowFor(q, s, facts, ks[i])
  {
    if |ks| == 0 then [] else [RowFor(q, s, facts, ks[0])] + RowsOfKeys(q, s, facts, ks[1..])
  }

  /** The rows one grouping set contributes. */
  function RowsOfSet(q: Query, s: GroupingSet, facts: seq<Fact>): seq<Row>
  {
    RowsOfKeys(q, s, facts, Groups(q, s, facts))
  }

  function RowsOfSets(q: Query, sets: seq<GroupingSet>, facts: seq<Fact>): (rows: seq<Row>)
    ensures forall r :: r in rows ==> exists s :: s in sets && r in RowsOfSet(q, s, facts)
    ensures forall s :: s in sets ==> forall r :: r in RowsOfSet(q, s, facts) ==> r in rows
  {
    if |sets| == 0 then []
    else RowsOfSet(q, sets[0], facts) + RowsOfSets(q, sets[1..], facts)
  }

  /** The unordered result of a query over a sequence of facts. */
  function Evaluate(q: Query, facts: seq<Fact>): seq<Row>
  {
    RowsOfSets(q, q.sets, Where(q.yearFilter, facts))
  }

  /** The ORDER BY key: the GROUPING() values, then each dimension's text with a rolled-up value read as 'ZZZZ'. */
  datatype OrderKey = OrderKey(bits: Bits, geo: string, time: string, product: string)

  function SortKey(r: Row): OrderKey
  {
    OrderKey(r.bits,
      if r.bits.geo == 1 then "ZZZZ" else r.geo,
      if r.bits.time == 1 then "ZZZZ" else r.time,
      if r.bits.product == 1 then "ZZZZ" else r.product)
  }

  /** Ascending lexicographic comparison of ORDER BY keys. */
  predicate KeyLt(a: OrderKey, b: OrderKey)
  {
    if a.bits.geo != b.bits.geo then a.bits.geo < b.bits.geo
    else if a.bits.time != b.bits.time then a.bits.time < b.bits.time
    else if a.bits.product != b.bits.product then a.bits.product < b.bits.product
    else if a.geo != b.geo then StrLt(a.geo, b.geo)
    else if a.time != b.time then StrLt(a.time, b.time)
    else StrLt(a.product, b.product)
  }

  lemma KeyLtIsStrictTotalOrder()
    ensures StrictTotalOrder(KeyLt)
  {
    forall a: OrderKey ensures !KeyLt(a, a) {
      StrLtIrreflexive(a.product);
    }
    forall a: OrderKey, b: OrderKey, c: OrderKey | KeyLt(a, b) && KeyLt(b, c) ensures KeyLt(a, c) {
      KeyLtTransitive(a, b, c);
    }
    forall a: OrderKey, b: OrderKey | a != b ensures KeyLt(a, b) || KeyLt(b, a) {
      KeyLtTotal(a, b);
    }
  }

  lemma KeyLtTransitive(a: OrderKey, b: OrderKey, c: OrderKey)
    requires KeyLt(a, b) && KeyLt(b, c)
    ensures KeyLt(a, c)
  {
    if a.bits == b.bits && b.bits == c.bits {
      if a.geo != b.geo && b.geo != c.geo {
        StrLtTransitive(a.geo, b.geo, c.geo);
        if a.geo == c.geo {
          StrLtIrreflexive(a.geo);
        }
      } else if a.geo == b.geo && b.geo == c.geo {
        if a.time != b.time && b.time != c.time {
          StrLtTransitive(a.time, b.time, c.time);
          if a.time == c.time {
            StrLtIrreflexive(a.time);
          }
        } else if a.time == b.time && b.time == c.time {
          StrLtTransitive(a.product, b.product, c.product);
        }
      }
    }
  }

  lemma KeyLtTotal(a: OrderKey, b: OrderKey)
    requires a != b
    ensures KeyLt(a, b) || KeyLt(b, a)
  {
    if a.bits == b.bits {
      if a.geo != b.geo {
        StrLtTotal(a.geo, b.geo);
      } else if a.time != b.time {
        StrLtTotal(a.time, b.time);
      } else {
        StrLtTotal(a.product, b.product);
      }
    }
  }

  /** A query's result: its rows in ORDER BY order. */
  function Run(q: Query, facts: seq<Fact>): (rows: seq<Row>)
    ensures SortedBy(rows, SortKey, KeyLt)
    ensures multiset(rows) == multiset(Evaluate(q, facts))
  {
    KeyLtIsStrictTotalOrder();
    SortBy(Evaluate(q, facts), SortKey, KeyLt)
  }

  /** `analysis`: validate the levels, then run the cube query. */
  function Analysis(facts: seq<Fact>, geo: string, time: string, product: string, year: Option<int>): (r: Result<seq<Row>, InvalidLevel>)
    ensures r.Success? <==> geo in Levels(Geo) && time in Levels(Time) && product in Levels(Product)
    ensures r.Success? ==> forall row :: row in r.value ==> row.level != "Unknown Level" && row.level == CubeLabel(row.bits)
    ensures r.Success? ==> SortedBy(r.value, SortKey, KeyLt)
    ensures r.Success? ==> multiset(r.value) == multiset(Evaluate(BuildQuery(Cube, geo, time, product, year).value, facts))
  {
    match BuildQuery(Cube, geo, time, product, year)
    case Failure(e) => Failure(e)
    case Success(q) =>
      RunLabelled(q, facts);
      Success(Run(q, facts))
  }

  /** `get_cross_table_data`: validate the levels, then run the cross-table query. */
  function CrossTableData(facts: seq<Fact>, geo: string, time: string, product: string, year: Option<int>): (r: Result<seq<Row>, InvalidLevel>)
    ensures r.Success? <==> geo in Levels(Geo) && time in Levels(Time) && product in Levels(Product)
    ensures r.Success? ==> forall row :: row in r.value ==> row.level != "Other" && row.level == CrossLabel(row.bits)
    ensures r.Success? ==> SortedBy(r.value, SortKey, KeyLt)
    ensures r.Success? ==> multiset(r.value) == multiset(Evaluate(BuildQuery(CrossTab, geo, time, product, year).value, facts))
  {
    match BuildQuery(CrossTab, geo, time, product, year)
    case Failure(e) => Failure(e)
    case Success(q) =>
      RunLabelled(q, facts);
      Success(Run(q, facts))
  }

  /**
   * Every evaluated row carries the GROUPING() values of a requested grouping
   * set and the label the query's CASE table gives them; so a cube row is
   * never 'Unknown Level' and a cross-table row (whose grouping sets are the
   * five requested) is never 'Other'.
   */
  lemma RowsLabelled(q: Query, facts: seq<Fact>)
    ensures forall r :: r in Evaluate(q, facts) ==>
              (exists s :: s in q.sets && r.bits == BitsOf(s)) && r.level == LabelFor(q.shape, r.bits)
    ensures q.shape == Cube ==> forall r :: r in Evaluate(q, facts) ==> r.level != "Unknown Level"
    ensures q.shape == CrossTab && q.sets == CrossSets() ==> forall r :: r in Evaluate(q, facts) ==> r.level != "Other"
  {
    var fs := Where(q.yearFilter, facts);
    forall r | r in Evaluate(q, facts)
      ensures (exists s :: s in q.sets && r.bits == BitsOf(s)) && r.level == LabelFor(q.shape, r.bits)
      ensures q.shape == Cube ==> r.level != "Unknown Level"
      ensures q.shape == CrossTab && q.sets == CrossSets() ==> r.level != "Other"
    {
      var s :| s in q.sets && r in RowsOfSet(q, s, fs);
      var ks := Groups(q, s, fs);
      var i :| 0 <= i < |ks| && RowsOfKeys(q, s, fs, ks)[i] == r;
      assert r.bits == BitsOf(s);
      CubeLabelTotalInjective(s, s, r.bits);
      CrossLabelsOfRequestedSets(s);
    }
  }

  /** The ordered result holds the evaluated rows, so the labelling facts carry over to it. */
  lemma RunLabelled(q: Query, facts: seq<Fact>)
    ensures forall r :: r in Run(q, facts) ==> r.level == LabelFor(q.shape, r.bits)
    ensures q.shape == Cube ==> forall r :: r in Run(q, facts) ==> r.level != "Unknown Level"
    ensures q.shape == CrossTab && q.sets == CrossSets() ==> forall r :: r in Run(q, facts) ==> r.level != "Other"
  {
    var rows := Run(q, facts);
    RowsLabelled(q, facts);
    forall r | r in rows ensures r in Evaluate(q, facts) {
      assert r in multiset(rows);
    }
  }

  /**
   * In ORDER BY order the Detail rows (all GROUPING() values 0) come before
   * every other row, and the grand total (all 1) after every other row.
   */
  lemma DetailFirstGrandTotalLast(rows: seq<Row>)
    requires SortedBy(rows, SortKey, KeyLt)
    requires forall r :: r in rows ==> IsGroupingBits(r.bits)
    ensures forall i, j :: 0 <= i < j < |rows| && rows[j].bits == Bits(0, 0, 0) ==> rows[i].bits == Bits(0, 0, 0)
    ensures forall i, j :: 0 <= i < j < |rows| && rows[i].bits == Bits(1, 1, 1) ==> rows[j].bits == Bits(1, 1, 1)
  {
    forall i, j | 0 <= i < j < |rows|
      ensures rows[j].bits == Bits(0, 0, 0) ==> rows[i].bits == Bits(0, 0, 0)
      ensures rows[i].bits == Bits(1, 1, 1) ==> rows[j].bits == Bits(1, 1, 1)
    {
      assert !KeyLt(SortKey(rows[j]), SortKey(rows[i]));
      assert IsGroupingBits(rows[i].bits) && IsGroupingBits(rows[j].bits);
    }
  }

  /** SUM(quantity) of a row read as a number, NULL as 0. */
  function RowQuantity(r: Row): int
  {
    match r.quantity
    case Some(v) => v
    case None => 0
  }

  function RowCount(r: Row): int
  {
    r.count
  }

  lemma {:induction false} RowsOfKeysSums(q: Query, s: GroupingSet, facts: seq<Fact>, ks: seq<GroupKey>)
    ensures SumOf(RowsOfKeys(q, s, facts, ks), RowQuantity) == Sum(Tally(facts, KeyFn(q, s), Quantity, ks))
    ensures SumOf(RowsOfKeys(q, s, facts, ks), RowCount) == Sum(Tally(facts, KeyFn(q, s), One, ks))
  {
    if |ks| > 0 {
      var members := Filter(facts, KeyFn(q, s), ks[0]);
      SumOfOne(members);
      assert RowsOfKeys(q, s, facts, ks)[1..] == RowsOfKeys(q, s, facts, ks[1..]);
      assert Tally(facts, KeyFn(q, s), Quantity, ks)[1..] == Tally(facts, KeyFn(q, s), Quantity, ks[1..]);
      assert Tally(facts, KeyFn(q, s), One, ks)[1..] == Tally(facts, KeyFn(q, s), One, ks[1..]);
      RowsOfKeysSums(q, s, facts, ks[1..]);
    }
  }

  /**
   * The rows of any one grouping set together account for every fact exactly
   * once: their SUM(quantity) values add up to the total quantity and their
   * COUNT(*) values to the number of facts.
   */
  lemma {:induction false} GroupingSetTotals(q: Query, s: GroupingSet, facts: seq<Fact>)
    ensures SumOf(RowsOfSet(q, s, facts), RowQuantity) == SumOf(facts, Quantity)
    ensures SumOf(RowsOfSet(q, s, facts), RowCount) == |facts|
  {
    var ks := Groups(q, s, facts);
    RowsOfKeysSums(q, s, facts, ks);
    forall f | f in facts ensures KeyFn(q, s)(f) in ks {
    }
    PartitionSum(facts, KeyFn(q, s), Quantity, ks);
    PartitionSum(facts, KeyFn(q, s), One, ks);
    SumOfOne(facts);
  }

  /**
   * Summing the Detail rows' SUM(quantity) and COUNT(*) gives the grand-total
   * row's values, for any facts and any year filter; over no facts the grand
   * total's SUM is NULL and its COUNT is 0.
   */
  lemma DetailSumIsGrandTotal(q: Query, facts: seq<Fact>)
    ensures var fs := Where(q.yearFilter, facts);
            var grand := RowsOfSet(q, {}, fs);
            && |grand| == 1
            && grand[0].bits == Bits(1, 1, 1)
            && grand[0].count == SumOf(RowsOfSet(q, {Geo, Time, Product}, fs), RowCount)
            && (|fs| > 0 ==> grand[0].quantity == Some(SumOf(RowsOfSet(q, {Geo, Time, Product}, fs), RowQuantity)))
            && (|fs| == 0 ==> grand[0].quantity == None)
  {
    var fs := Where(q.yearFilter, facts);
    GroupingSetTotals(q, {Geo, Time, Product}, fs);
    var k := GroupKey(None, None, None);
    FilterAll(fs, KeyFn(q, {}), k);
  }

  lemma {:induction false} FilterAll<T, K>(xs: seq<T>, key: T -> K, k: K)
    requires forall x :: x in xs ==> key(x) == k
    ensures Filter(xs, key, k) == xs
  {
    if |xs| > 0 {
      FilterAll(xs[1..], key, k);
      assert xs == [xs[0]] + xs[1..];
    }
  }

  /**
   * Over a non-empty set of facts every requested grouping set produces at
   * least one row, so the rows show exactly the GROUPING() triples of the
   * requested sets: all eight for the cube, the five requested ones for the
   * cross table.
   */
  lemma EveryGroupingSetPresent(q: Query, facts: seq<Fact>, s: GroupingSet)
    requires |Where(q.yearFilter, facts)| > 0
    requires s in q.sets
    ensures exists r :: r in Evaluate(q, facts) && r.bits == BitsOf(s)
  {
    var fs := Where(q.yearFilter, facts);
    var ks := Groups(q, s, fs);
    assert KeyOf(q, s, fs[0]) in ks;
    var r := RowsOfKeys(q, s, fs, ks)[0];
    assert r in RowsOfSet(q, s, fs);
  }
}

=== FILE: salesload.dfy ===
/**
 * Loading the sales fact table: name-to-key lookups for shops and articles,
 * then one pass over the CSV rows. A row is kept when its D.M.Y date is a
 * real date, its shop and article are known, its revenue text (German
 * decimal comma turned into a point) is a number and its Sold value is an
 * integer; kept rows are inserted in batches of 1000, and the count of
 * inserted rows is reported at the end.
 */
module SalesLoad {
  import opened Wrappers
  import opened Text
  import opened Calendar
  import opened DateDimension

  /** One (key, name) row read back from a dimension table. */
  datatype KeyName = KeyName(key: int, name: string)

  /**
   * The lookup dictionary built by assigning key after key: when a name
   * occurs more than once, the last row's key wins.
   */
  function BuildLookup(rows: seq<KeyName>): map<string, int>
  {
    if |rows| == 0 then map[]
    else BuildLookup(rows[..|rows| - 1])[rows[|rows| - 1].name := rows[|rows| - 1].key]
  }

  /** The lookup knows exactly the names that occur in the rows. */
  lemma {:induction false} LookupDomain(rows: seq<KeyName>, name: string)
    ensures name in BuildLookup(rows) <==> exists i :: 0 <= i < |rows| && rows[i].name == name
  {
    if |rows| > 0 {
      var front := rows[..|rows| - 1];
      LookupDomain(front, name);
      if exists i :: 0 <= i < |front| && front[i].name == name {
        var i :| 0 <= i < |front| && front[i].name == name;
        assert rows[i].name == name;
      }
      if exists i :: 0 <= i < |rows| && rows[i].name == name {
        var i :| 0 <= i < |rows| && rows[i].name == name;
        if i < |front| {
          assert front[i].name == name;
        }
      }
    }
  }

  /** A row whose name does not occur again later determines that name's key. */
  lemma {:induction false} LookupLastOccurrence(rows: seq<KeyName>, i: int)
    requires 0 <= i < |rows|
    requires forall j :: i < j < |rows| ==> rows[j].name != rows[i].name
    ensures rows[i].name in BuildLookup(rows) && BuildLookup(rows)[rows[i].name] == rows[i].key
  {
    if i < |rows| - 1 {
      var front := rows[..|rows| - 1];
      assert rows[|rows| - 1].name != rows[i].name;
      forall j | i < j < |front| ensures front[j].name != front[i].name {
        assert front[j] == rows[j];
      }
      LookupLastOccurrence(front, i);
    }
  }

  /** An independent reading of "last wins": search from the end for the name. */
  function LastKey(rows: seq<KeyName>, name: string): Option<int>
  {
    if |rows| == 0 then None
    else if rows[|rows| - 1].name == name then Some(rows[|rows| - 1].key)
    else LastKey(rows[..|rows| - 1], name)
  }

  /** The lookup agrees with the search from the end, both on which names it knows and on their keys. */
  lemma {:induction false} LookupIsLastWins(rows: seq<KeyName>, name: string)
    ensures name in BuildLookup(rows) <==> LastKey(rows, name).Some?
    ensures name in BuildLookup(rows) ==> BuildLookup(rows)[name] == LastKey(rows, name).value
  {
    if |rows| > 0 {
      LookupIsLastWins(rows[..|rows| - 1], name);
    }
  }

  /**
   * The sales date: the text split at '.', the third piece read as the
   * year, the second as the month and the first as the day, all with
   * int(); fewer than three pieces, a piece int() rejects, or a triple the
   * datetime constructor rejects is an error. Pieces after the third are
   * ignored.
   */
  function ParseSalesDate(s: string): (r: Option<Date>)
    ensures r.Some? ==> IsValid(r.value)
    ensures r.Some? ==> |Split(s, '.')| >= 3
    ensures r.Some? ==> var p := Split(s, '.');
              && ParseInt(p[2]) == Some(r.value.year)
              && ParseInt(p[1]) == Some(r.value.month)
              && ParseInt(p[0]) == Some(r.value.day)
  {
    var parts := Split(s, '.');
    if |parts| < 3 then None
    else
      match (ParseInt(parts[2]), ParseInt(parts[1]), ParseInt(parts[0]))
      case (Some(y), Some(m), Some(d)) => if ValidDate(y, m, d) then Some(Date(y, m, d)) else None
      case _ => None
  }

  lemma ParseSalesDatePieces(ds: string, ms: string, ys: string, y: int, m: int, d: int)
    requires '.' !in ds && '.' !in ms && '.' !in ys
    requires ParseInt(ds) == Some(d) && ParseInt(ms) == Some(m) && ParseInt(ys) == Some(y)
    requires ValidDate(y, m, d)
    ensures ParseSalesDate(ds + "." + ms + "." + ys) == Some(Date(y, m, d))
  {
    SplitThree(ds, ms, ys, '.');
  }

  /** The day, month and year written with any zero padding and joined by '.' read back as that date. */
  lemma SalesDateRoundTrip(y: int, m: int, d: int, dayWidth: nat, monthWidth: nat)
    requires ValidDate(y, m, d)
    ensures ParseSalesDate(ZeroPad(NatText(d), dayWidth) + "." + ZeroPad(NatText(m), monthWidth) + "." + NatText(y))
            == Some(Date(y, m, d))
  {
    var ds, ms, ys := ZeroPad(NatText(d), dayWidth), ZeroPad(NatText(m), monthWidth), NatText(y);
    LeadingZerosValue(NatText(d), dayWidth);
    LeadingZerosValue(NatText(m), monthWidth);
    DigitsExclude(ds, '.');
    DigitsExclude(ms, '.');
    DigitsExclude(ys, '.');
    ParseIntRoundTrip(d, dayWidth);
    ParseIntRoundTrip(m, monthWidth);
    ParseIntRoundTrip(y, 0);
    assert ZeroPad(ys, 0) == ys;
    ParseSalesDatePieces(ds, ms, ys, y, m, d);
  }

  /** Whatever follows a third '.' does not change the date read. */
  lemma ExtraDateFieldsIgnored(s: string, extra: string)
    requires |Split(s, '.')| >= 3
    ensures ParseSalesDate(s + "." + extra) == ParseSalesDate(s)
  {
    SplitConcat(s, '.', extra);
  }

  /** A CSV row as the dictionary reader yields it: a field missing from a short row is None. */
  datatype CsvRow = CsvRow(
    date: Option<string>,
    shop: Option<string>,
    article: Option<string>,
    sold: Option<string>,
    revenue: Option<string>)

  /** One fact row as inserted; the revenue is kept as the normalised text float() accepted. */
  datatype Fact = Fact(dateKey: int, shopKey: int, productKey: int, quantity: int, revenue: string)

  /** Why a row raised and was reported and skipped. */
  datatype RowError = BadDate | BadRevenue | BadQuantity

  datatype RowOutcome =
    | Accepted(fact: Fact)
    | Unmatched          // shop or article unknown: skipped without a message
    | Failed(error: RowError)

  /** The revenue text with the German decimal comma replaced by a point. */
  function NormaliseRevenue(s: string): (t: string)
    ensures |t| == |s| && ',' !in t
    ensures forall i :: 0 <= i < |s| ==> t[i] == if s[i] == ',' then '.' else s[i]
  {
    ReplaceChar(s, ',', '.')
  }

  /**
   * One CSV row, in the order the loader examines it: the date, then the
   * shop and article lookups, then the revenue, then the quantity.
   * `isFloat` stands for what float() accepts.
   */
  function ProcessRow(row: CsvRow, shops: map<string, int>, products: map<string, int>, isFloat: string -> bool): (o: RowOutcome)
    ensures o.Accepted? <==>
              && row.date.Some? && ParseSalesDate(row.date.value).Some?
              && row.shop.Some? && row.shop.value in shops
              && row.article.Some? && row.article.value in products
              && row.revenue.Some? && isFloat(NormaliseRevenue(row.revenue.value))
              && row.sold.Some? && ParseInt(row.sold.value).Some?
    ensures o.Failed? && o.error == BadDate <==> row.date.None? || ParseSalesDate(row.date.value).None?
    ensures o.Unmatched? <==>
              && row.date.Some? && ParseSalesDate(row.date.value).Some?
              && (row.shop.None? || row.shop.value !in shops || row.article.None? || row.article.value !in products)
    ensures o.Accepted? ==>
              var dt := ParseSalesDate(row.date.value).value;
              && o.fact.dateKey == DateKey(dt.year, dt.month, dt.day)
              && o.fact.shopKey == shops[row.shop.value]
              && o.fact.productKey == products[row.article.value]
              && o.fact.quantity == ParseInt(row.sold.value).value
              && o.fact.revenue == NormaliseRevenue(row.revenue.value)
  {
    match row.date
    case None => Failed(BadDate)
    case Some(text) =>
      match ParseSalesDate(text)
      case None => Failed(BadDate)
      case Some(dt) =>
        if row.shop.None? || row.article.None? || row.shop.value !in shops || row.article.value !in products then Unmatched
        else if row.revenue.None? || !isFloat(NormaliseRevenue(row.revenue.value)) then Failed(BadRevenue)
        else if row.sold.None? then Failed(BadQuantity)
        else
          match ParseInt(row.sold.value)
          case None => Failed(BadQuantity)
          case Some(q) =>
            Accepted(Fact(DateKey(dt.year, dt.month, dt.day), shops[row.shop.value], products[row.article.value],
                          q, NormaliseRevenue(row.revenue.value)))
  }

  /**
   * A row written from a fact is loaded back as that fact: a valid date in
   * D.M.Y form, a known shop and article, a decimal quantity and a revenue
   * float() accepts.
   */
  lemma RowRoundTrip(y: int, m: int, d: int, shop: string, article: string, quantity: nat, revenue: string,
                     shops: map<string, int>, products: map<string, int>, isFloat: string -> bool)
    requires ValidDate(y, m, d)
    requires shop in shops && article in products
    requires ',' !in revenue && isFloat(revenue)
    ensures var row := CsvRow(Some(TwoDigits(d) + "." + TwoDigits(m) + "." + NatText(y)), Some(shop), Some(article),
                              Some(NatText(quantity)), Some(revenue));
            ProcessRow(row, shops, products, isFloat)
            == Accepted(Fact(DateKey(y, m, d), shops[shop], products[article], quantity, revenue))
  {
    var text := TwoDigits(d) + "." + TwoDigits(m) + "." + NatText(y);
    TwoDigitDateParses(y, m, d);
    ParseNatText(quantity);
    NormaliseWithoutComma(revenue);
    ProcessRowAccepts(CsvRow(Some(text), Some(shop), Some(article), Some(NatText(quantity)), Some(revenue)),
                      shops, products, isFloat, Date(y, m, d), quantity);
  }

  /** The D.M.Y text with two-digit day and month reads back as its date. */
  lemma TwoDigitDateParses(y: int, m: int, d: int)
    requires ValidDate(y, m, d)
    ensures ParseSalesDate(TwoDigits(d) + "." + TwoDigits(m) + "." + NatText(y)) == Some(Date(y, m, d))
  {
    SalesDateRoundTrip(y, m, d, 2, 2);
  }

  /** Revenue text without a comma is left as it is. */
  lemma NormaliseWithoutComma(s: string)
    requires ',' !in s
    ensures NormaliseRevenue(s) == s
  {
  }

  lemma ProcessRowAccepts(row: CsvRow, shops: map<string, int>, products: map<string, int>, isFloat: string -> bool,
                          dt: Date, q: int)
    requires row.date.Some? && ParseSalesDate(row.date.value) == Some(dt)
    requires row.shop.Some? && row.shop.value in shops && row.article.Some? && row.article.value in products
    requires row.revenue.Some? && NormaliseRevenue(row.revenue.value) == row.revenue.value && isFloat(row.revenue.value)
    requires row.sold.Some? && ParseInt(row.sold.value) == Some(q)
    ensures ProcessRow(row, shops, products, isFloat)
            == Accepted(Fact(DateKey(dt.year, dt.month, dt.day), shops[row.shop.value], products[row.article.value],
                             q, row.revenue.value))
  {
  }

  /** What the loader makes of each row, in file order. */
  function Outcomes(rows: seq<CsvRow>, shops: map<string, int>, products: map<string, int>, isFloat: string -> bool): (os: seq<RowOutcome>)
    ensures |os| == |rows|
    ensures forall i :: 0 <= i < |rows| ==> os[i] == ProcessRow(rows[i], shops, products, isFloat)
  {
    seq(|rows|, i requires 0 <= i < |rows| => ProcessRow(rows[i], shops, products, isFloat))
  }

  /** The fact an outcome contributes: one for an accepted row, none otherwise. */
  function FactsOf(o: RowOutcome): seq<Fact>
  {
    if o.Accepted? then [o.fact] else []
  }

  /** The facts of the accepted outcomes, in order. */
  function FactsOfAll(os: seq<RowOutcome>): seq<Fact>
  {
    if |os| == 0 then [] else FactsOfAll(os[..|os| - 1]) + FactsOf(os[|os| - 1])
  }

  /** The number of failed outcomes. */
  function Failures(os: seq<RowOutcome>): nat
  {
    if |os| == 0 then 0 else Failures(os[..|os| - 1]) + if os[|os| - 1].Failed? then 1 else 0
  }

  /** The facts of the accepted rows, in file order. */
  function AcceptedFacts(rows: seq<CsvRow>, shops: map<string, int>, products: map<string, int>, isFloat: string -> bool): seq<Fact>
  {
    FactsOfAll(Outcomes(rows, shops, products, isFloat))
  }

  /** The number of rows reported as errors. */
  function FailedCount(rows: seq<CsvRow>, shops: map<string, int>, products: map<string, int>, isFloat: string -> bool): nat
  {
    Failures(Outcomes(rows, shops, products, isFloat))
  }

  /** Facts and failures together never outnumber the outcomes, and every fact is an accepted outcome's. */
  lemma {:induction false} FactsFromOutcomes(os: seq<RowOutcome>)
    ensures |FactsOfAll(os)| + Failures(os) <= |os|
    ensures forall f :: f in FactsOfAll(os) ==> exists i :: 0 <= i < |os| && os[i] == Accepted(f)
  {
    if |os| > 0 {
      var front := os[..|os| - 1];
      FactsFromOutcomes(front);
      forall f | f in FactsOfAll(os) ensures exists i :: 0 <= i < |os| && os[i] == Accepted(f) {
        if f in FactsOfAll(front) {
          var i :| 0 <= i < |front| && front[i] == Accepted(f);
          assert os[i] == front[i];
        } else {
          assert os[|os| - 1] == Accepted(f);
        }
      }
    }
  }

  /** The number of facts never exceeds the number of rows, and every fact comes from an accepted row. */
  lemma AcceptedFactsFromRows(rows: seq<CsvRow>, shops: map<string, int>, products: map<string, int>, isFloat: string -> bool)
    ensures |AcceptedFacts(rows, shops, products, isFloat)| + FailedCount(rows, shops, products, isFloat) <= |rows|
    ensures forall f :: f in AcceptedFacts(rows, shops, products, isFloat) ==>
              exists i :: 0 <= i < |rows| && ProcessRow(rows[i], shops, products, isFloat) == Accepted(f)
  {
    var os := Outcomes(rows, shops, products, isFloat);
    FactsFromOutcomes(os);
    forall f | f in FactsOfAll(os) ensures exists i :: 0 <= i < |rows| && ProcessRow(rows[i], shops, products, isFloat) == Accepted(f) {
      var i :| 0 <= i < |os| && os[i] == Accepted(f);
      assert ProcessRow(rows[i], shops, products, isFloat) == Accepted(f);
    }
  }

  /** One more outcome extends the facts by its fact, if any, and the failures by one if it failed. */
  lemma OutcomeStep(os: seq<RowOutcome>, i: nat)
    requires i < |os|
    ensures FactsOfAll(os[..i + 1]) == FactsOfAll(os[..i]) + FactsOf(os[i])
    ensures Failures(os[..i + 1]) == Failures(os[..i]) + if os[i].Failed? then 1 else 0
  {
    assert os[..i + 1][..i] == os[..i];
  }

  const BatchSize: nat := 1000

  /** The rows of the batches, in order. */
  function Flatten<T>(bs: seq<seq<T>>): seq<T>
  {
    if |bs| == 0 then [] else bs[0] + Flatten(bs[1..])
  }

  lemma {:induction false} FlattenAppend<T>(bs: seq<seq<T>>, b: seq<T>)
    ensures Flatten(bs + [b]) == Flatten(bs) + b
  {
    if |bs| == 0 {
      assert Flatten([b]) == b + Flatten([b][1..]);
    } else {
      assert (bs + [b])[1..] == bs[1..] + [b];
      FlattenAppend(bs[1..], b);
    }
  }

  /** Every batch is non-empty and holds at most 1000 rows, and all but the last hold exactly 1000. */
  predicate WellBatched<T>(bs: seq<seq<T>>)
  {
    && (forall i :: 0 <= i < |bs| ==> 0 < |bs[i]| <= BatchSize)
    && (forall i :: 0 <= i < |bs| - 1 ==> |bs[i]| == BatchSize)
  }

  /** Cutting a sequence into consecutive batches of 1000 and a shorter remainder. */
  function Batches<T>(xs: seq<T>): (bs: seq<seq<T>>)
    ensures Flatten(bs) == xs && WellBatched(bs)
    decreases |xs|
  {
    if |xs| == 0 then []
    else if |xs| <= BatchSize then
      assert Flatten([xs]) == xs + Flatten([xs][1..]);
      [xs]
    else
      var rest := Batches(xs[BatchSize..]);
      assert ([xs[..BatchSize]] + rest)[1..] == rest;
      assert xs[..BatchSize] + xs[BatchSize..] == xs;
      [xs[..BatchSize]] + rest
  }

  /** Every batch holds exactly 1000 rows. */
  predicate AllFull<T>(bs: seq<seq<T>>)
  {
    forall k :: 0 <= k < |bs| ==> |bs[k]| == BatchSize
  }

  /**
   * The batching state after the rows `xs`: full batches already sent,
   * then an open batch of fewer than 1000 rows, together holding `xs` in
   * order; `sent` counts the rows sent.
   */
  ghost predicate Collected<T>(bs: seq<seq<T>>, current: seq<T>, sent: nat, xs: seq<T>)
  {
    Flatten(bs) + current == xs && AllFull(bs) && |current| < BatchSize && sent == |Flatten(bs)|
  }

  /** Adding one row to the open batch, and sending the batch on when it reaches 1000 rows, keeps the state. */
  lemma AddToBatch<T>(bs: seq<seq<T>>, current: seq<T>, sent: nat, xs: seq<T>, x: T)
    requires Collected(bs, current, sent, xs)
    ensures var c := current + [x];
            if |c| == BatchSize then Collected(bs + [c], [], sent + |c|, xs + [x])
            else Collected(bs, c, sent, xs + [x])
  {
    var c := current + [x];
    assert Flatten(bs) + c == xs + [x];
    if |c| == BatchSize {
      FlattenAppend(bs, c);
      assert Flatten(bs + [c]) + [] == xs + [x];
    }
  }

  /** Full batches followed by a short non-empty remainder, if there is one, are the cut into 1000s of their rows. */
  lemma CloseBatches<T>(bs: seq<seq<T>>, current: seq<T>, sent: nat, xs: seq<T>)
    requires Collected(bs, current, sent, xs)
    ensures var out := if |current| > 0 then bs + [current] else bs;
            Flatten(out) == xs && WellBatched(out) && sent + |current| == |xs|
  {
    var out := if |current| > 0 then bs + [current] else bs;
    if |current| > 0 {
      FlattenAppend(bs, current);
    } else {
      assert Flatten(bs) + current == Flatten(bs);
    }
  }

  /** Batching is determined by its content: a well-batched split of `xs` is the cut into 1000s. */
  lemma {:induction false} BatchingUnique<T>(bs: seq<seq<T>>, xs: seq<T>)
    requires WellBatched(bs) && Flatten(bs) == xs
    ensures bs == Batches(xs)
    decreases |bs|
  {
    if |bs| == 1 {
      assert bs[1..] == [];
      assert Flatten(bs[1..]) == [];
      assert Flatten(bs) == bs[0] + Flatten(bs[1..]);
      assert bs[0] == xs;
      assert bs == [xs];
    } else if |bs| > 1 {
      var rest := bs[1..];
      assert WellBatched(rest) by {
        forall i | 0 <= i < |rest| - 1 ensures |rest[i]| == BatchSize {
          assert rest[i] == bs[i + 1];
        }
      }
      assert Flatten(rest) == rest[0] + Flatten(rest[1..]);
      assert xs == bs[0] + Flatten(rest);
      assert xs[..BatchSize] == bs[0] && xs[BatchSize..] == Flatten(rest);
      BatchingUnique(rest, Flatten(rest));
    }
  }

  /** One accepted row joins the open batch, which is sent on when it reaches 1000 rows. */
  method AddFact<T>(batches: seq<seq<T>>, current: seq<T>, sent: nat, ghost xs: seq<T>, x: T)
    returns (batches': seq<seq<T>>, current': seq<T>, sent': nat)
    requires Collected(batches, current, sent, xs)
    ensures Collected(batches', current', sent', xs + [x])
    ensures |current + [x]| == BatchSize ==> batches' == batches + [current + [x]] && current' == []
    ensures |current + [x]| < BatchSize ==> batches' == batches && current' == current + [x]
  {
    AddToBatch(batches, current, sent, xs, x);
    current' := current + [x];
    batches', sent' := batches, sent;
    if |current'| == BatchSize {
      batches' := batches + [current'];
      sent' := sent + |current'|;
      current' := [];
    }
  }

  /** One row's outcome: an accepted row joins the batches, a failed row is counted, an unmatched row changes nothing. */
  method Absorb(batches: seq<seq<Fact>>, current: seq<Fact>, sent: nat, errors: nat, ghost xs: seq<Fact>, o: RowOutcome)
    returns (batches': seq<seq<Fact>>, current': seq<Fact>, sent': nat, errors': nat)
    requires Collected(batches, current, sent, xs)
    ensures Collected(batches', current', sent', xs + FactsOf(o))
    ensures errors' == errors + if o.Failed? then 1 else 0
  {
    batches', current', sent', errors' := batches, current, sent, errors;
    if o.Accepted? {
      batches', current', sent' := AddFact(batches, current, sent, xs, o.fact);
    } else {
      assert xs + FactsOf(o) == xs;
      if o.Failed? {
        errors' := errors + 1;
      }
    }
  }

  /**
   * The insertion loop of `load_sales_data`: accepted rows are collected
   * and sent in batches of 1000 with a final partial batch; the reported
   * count is the number of rows sent, and the error count the number of
   * failed rows.
   */
  method InsertInBatches(os: seq<RowOutcome>) returns (batches: seq<seq<Fact>>, processed: nat, errors: nat)
    ensures Flatten(batches) == FactsOfAll(os) && WellBatched(batches)
    ensures processed == |FactsOfAll(os)|
    ensures errors == Failures(os)
  {
    batches := [];
    var current: seq<Fact> := [];
    processed := 0;
    errors := 0;
    var i := 0;
    while i < |os|
      invariant 0 <= i <= |os|
      invariant Collected(batches, current, processed, FactsOfAll(os[..i]))
      invariant errors == Failures(os[..i])
    {
      OutcomeStep(os, i);
      batches, current, processed, errors := Absorb(batches, current, processed, errors, FactsOfAll(os[..i]), os[i]);
      i := i + 1;
    }
    assert os[..i] == os;
    CloseBatches(batches, current, processed, FactsOfAll(os));
    processed := processed + |current|;
    batches := if |current| > 0 then batches + [current] else batches;
  }

  /**
   * `load_sales_data` after the lookups are built: every row is processed,
   * the accepted rows go out in batches of 1000 with a final partial batch,
   * the reported count is the number of rows inserted, and the error count
   * is the number of rows reported as failing.
   */
  method LoadSales(rows: seq<CsvRow>, shops: map<string, int>, products: map<string, int>, isFloat: string -> bool)
    returns (batches: seq<seq<Fact>>, processed: nat, errors: nat)
    ensures Flatten(batches) == AcceptedFacts(rows, shops, products, isFloat)
    ensures WellBatched(batches)
    ensures batches == Batches(AcceptedFacts(rows, shops, products, isFloat))
    ensures processed == |AcceptedFacts(rows, shops, products, isFloat)|
    ensures errors == FailedCount(rows, shops, products, isFloat)
  {
    batches, processed, errors := InsertInBatches(Outcomes(rows, shops, products, isFloat));
    BatchingUnique(batches, Flatten(batches));
  }
}

=== FILE: sums.dfy ===
/**
 * Integer sums over sequences: plain sums, sums of a measure over the
 * elements that share a key, and the two facts every total in the warehouse
 * rests on -- summing per-key subtotals over a covering list of distinct keys
 * gives the overall sum, and summing a matrix by rows gives the same as
 * summing it by columns.
 */
module Sums {

  /** The sum of a sequence of integers. */
  function Sum(s: seq<int>): int
  {
    if |s| == 0 then 0 else s[0] + Sum(s[1..])
  }

  /** The pieces of `bs` joined end to end. */
  function Concat<T>(bs: seq<seq<T>>): seq<T>
  {
    if |bs| == 0 then [] else bs[0] + Concat(bs[1..])
  }

  /** Where piece i starts within Concat(bs): the combined length of the pieces before it. */
  function Offset<T>(bs: seq<seq<T>>, i: nat): nat
    requires i <= |bs|
  {
    if i == 0 then 0 else |bs[0]| + Offset(bs[1..], i - 1)
  }

  lemma {:induction false} ConcatLength<T>(bs: seq<seq<T>>)
    ensures |Concat(bs)| == Offset(bs, |bs|)
  {
    if |bs| > 0 {
      ConcatLength(bs[1..]);
    }
  }

  /** Piece i of `bs` sits in Concat(bs) from Offset(bs, i) on. */
  lemma {:induction false} ConcatPiece<T>(bs: seq<seq<T>>, i: nat)
    requires i < |bs|
    ensures Offset(bs, i) + |bs[i]| <= |Concat(bs)|
    ensures Concat(bs)[Offset(bs, i)..Offset(bs, i) + |bs[i]|] == bs[i]
  {
    var head, rest := bs[0], Concat(bs[1..]);
    assert Concat(bs) == head + rest;
    if i == 0 {
      assert Concat(bs)[0..|head|] == head;
    } else {
      ConcatPiece(bs[1..], i - 1);
      assert bs[1..][i - 1] == bs[i];
      var o := Offset(bs[1..], i - 1);
      assert Offset(bs, i) == |head| + o;
      assert rest[o..o + |bs[i]|] == bs[i];
      assert (head + rest)[|head| + o..|head| + o + |bs[i]|] == rest[o..o + |bs[i]|];
    }
  }

  /** All pieces together are as long as the sum of their lengths. */
  lemma {:induction false} OffsetSum<T>(bs: seq<seq<T>>, sizes: seq<int>)
    requires |sizes| == |bs|
    requires forall i :: 0 <= i < |bs| ==> sizes[i] == |bs[i]|
    ensures Offset(bs, |bs|) == Sum(sizes)
  {
    if |bs| > 0 {
      OffsetSum(bs[1..], sizes[1..]);
    }
  }

  /** Every element of Concat(bs) comes from one of the pieces: element j of piece i. */
  lemma {:induction false} ConcatMember<T>(bs: seq<seq<T>>, k: nat) returns (i: nat, j: nat)
    requires k < |Concat(bs)|
    ensures i < |bs| && j < |bs[i]| && Concat(bs)[k] == bs[i][j]
  {
    assert |bs| > 0;
    if k < |bs[0]| {
      i, j := 0, k;
    } else {
      assert Concat(bs)[k] == Concat(bs[1..])[k - |bs[0]|];
      var i', j' := ConcatMember(bs[1..], k - |bs[0]|);
      assert bs[1..][i'] == bs[i' + 1];
      i, j := i' + 1, j';
    }
  }

  lemma SliceOfPrefix<T>(a: seq<T>, b: seq<T>, lo: nat, hi: nat)
    requires lo <= hi < |a|
    ensures (a + b)[lo..hi] == a[lo..hi] && (a + b)[hi] == a[hi]
  {
  }

  /** The parts of a piece found inside a longer sequence. */
  lemma SliceParts<T>(xs: seq<T>, s: nat, b: seq<T>, n: nat)
    requires n < |b| && s + |b| <= |xs| && xs[s..s + |b|] == b
    ensures xs[s..s + n] == b[..n] && xs[s + n] == b[n]
  {
    assert xs[s..s + n] == xs[s..s + |b|][..n];
  }

  lemma {:induction false} SumAppend(a: seq<int>, b: seq<int>)
    ensures Sum(a + b) == Sum(a) + Sum(b)
  {
    if |a| == 0 {
      assert a + b == b;
    } else {
      assert (a + b)[1..] == a[1..] + b;
      SumAppend(a[1..], b);
    }
  }

  /** No element is listed twice. */
  predicate Distinct<T(==)>(s: seq<T>)
  {
    forall i, j :: 0 <= i < j < |s| ==> s[i] != s[j]
  }

  /** The distinct elements of `xs`, each kept at its first occurrence. */
  function Dedup<T(==)>(xs: seq<T>): (r: seq<T>)
    ensures Distinct(r)
    ensures forall i :: 0 <= i < |r| ==> r[i] in xs
    ensures forall i :: 0 <= i < |xs| ==> xs[i] in r
  {
    if |xs| == 0 then []
    else
      var init := Dedup(xs[..|xs| - 1]);
      var last := xs[|xs| - 1];
      assert forall i :: 0 <= i < |xs| - 1 ==> xs[i] == xs[..|xs| - 1][i];
      if last in init then init else init + [last]
  }

  /**
   * Dedup keeps first occurrences in order: wherever an element listed later
   * occurs in `xs`, an element listed earlier has already occurred.
   */
  lemma {:induction false} DedupOrder<T>(xs: seq<T>)
    ensures forall i, j, b :: 0 <= i < j < |Dedup(xs)| && 0 <= b < |xs| && xs[b] == Dedup(xs)[j] ==>
              exists a :: 0 <= a < b && xs[a] == Dedup(xs)[i]
  {
    if |xs| > 0 {
      var n := |xs| - 1;
      var init := xs[..n];
      var d, d' := Dedup(xs), Dedup(init);
      DedupOrder(init);
      forall i, j, b | 0 <= i < j < |d| && 0 <= b < |xs| && xs[b] == d[j]
        ensures exists a :: 0 <= a < b && xs[a] == d[i]
      {
        assert d[i] == d'[i];
        if b < n {
          assert xs[b] == init[b];
          var a :| 0 <= a < b && init[a] == d'[i];
          assert xs[a] == d[i];
        } else {
          var a :| 0 <= a < |init| && init[a] == d'[i];
          assert xs[a] == d[i];
        }
      }
    }
  }

  /** The sum of `val` over the elements of `xs`. */
  function SumOf<T>(xs: seq<T>, val: T -> int): int
  {
    if |xs| == 0 then 0 else val(xs[0]) + SumOf(xs[1..], val)
  }

  /** The elements of `xs` whose key is `k`, in their original order. */
  function Filter<T, K(==)>(xs: seq<T>, key: T -> K, k: K): (r: seq<T>)
    ensures |r| <= |xs|
    ensures forall i :: 0 <= i < |r| ==> r[i] in xs && key(r[i]) == k
    ensures forall i :: 0 <= i < |xs| && key(xs[i]) == k ==> xs[i] in r
  {
    if |xs| == 0 then []
    else if key(xs[0]) == k then [xs[0]] + Filter(xs[1..], key, k)
    else Filter(xs[1..], key, k)
  }

  /** Filtering keeps every copy of an element with key `k` and no copy of any other element. */
  lemma {:induction false} FilterMultiset<T, K>(xs: seq<T>, key: T -> K, k: K)
    ensures forall x :: multiset(Filter(xs, key, k))[x] == if key(x) == k then multiset(xs)[x] else 0
  {
    if |xs| > 0 {
      FilterMultiset(xs[1..], key, k);
      assert xs == [xs[0]] + xs[1..];
    }
  }

  /** Filtering a sequence without repetitions leaves it without repetitions. */
  lemma {:induction false} FilterDistinct<T, K>(xs: seq<T>, key: T -> K, k: K)
    requires Distinct(xs)
    ensures Distinct(Filter(xs, key, k))
  {
    if |xs| > 0 {
      assert forall i :: 0 <= i < |xs| - 1 ==> xs[1..][i] == xs[i + 1];
      FilterDistinct(xs[1..], key, k);
      assert xs[0] !in xs[1..];
      assert xs[0] !in Filter(xs[1..], key, k);
    }
  }

  /** When key2 = k2 implies key1 = k1, a filter on key1 before one on key2 removes nothing more. */
  lemma {:induction false} FilterImplied<T, K1, K2>(xs: seq<T>, key1: T -> K1, k1: K1, key2: T -> K2, k2: K2)
    requires forall x :: key2(x) == k2 ==> key1(x) == k1
    ensures Filter(Filter(xs, key1, k1), key2, k2) == Filter(xs, key2, k2)
  {
    if |xs| > 0 {
      FilterImplied(xs[1..], key1, k1, key2, k2);
    }
  }

  /** The per-key subtotals: entry i is the sum of `val` over the elements keyed `ks[i]`. */
  function Tally<T, K(==)>(xs: seq<T>, key: T -> K, val: T -> int, ks: seq<K>): (r: seq<int>)
    ensures |r| == |ks|
    ensures forall i :: 0 <= i < |ks| ==> r[i] == SumOf(Filter(xs, key, ks[i]), val)
  {
    if |ks| == 0 then [] else [SumOf(Filter(xs, key, ks[0]), val)] + Tally(xs, key, val, ks[1..])
  }

  /** The share one element contributes to each per-key subtotal. */
  function Share<T, K(==)>(x: T, key: T -> K, val: T -> int, ks: seq<K>): (r: seq<int>)
    ensures |r| == |ks|
  {
    if |ks| == 0 then [] else [if key(x) == ks[0] then val(x) else 0] + Share(x, key, val, ks[1..])
  }

  lemma {:induction false} ShareAbsent<T, K>(x: T, key: T -> K, val: T -> int, ks: seq<K>)
    requires key(x) !in ks
    ensures Sum(Share(x, key, val, ks)) == 0
  {
    if |ks| > 0 {
      ShareAbsent(x, key, val, ks[1..]);
    }
  }

  lemma {:induction false} ShareOnce<T, K>(x: T, key: T -> K, val: T -> int, ks: seq<K>)
    requires Distinct(ks) && key(x) in ks
    ensures Sum(Share(x, key, val, ks)) == val(x)
  {
    if ks[0] == key(x) {
      assert key(x) !in ks[1..] by {
        forall j | 0 <= j < |ks| - 1 ensures ks[1..][j] != ks[0] {
          assert ks[1..][j] == ks[j + 1];
        }
      }
      ShareAbsent(x, key, val, ks[1..]);
    } else {
      ShareOnce(x, key, val, ks[1..]);
    }
  }

  /** Pointwise sum of two sequences of the same length. */
  function Add(a: seq<int>, b: seq<int>): (r: seq<int>)
    requires |a| == |b|
    ensures |r| == |a| && forall i :: 0 <= i < |a| ==> r[i] == a[i] + b[i]
  {
    seq(|a|, i requires 0 <= i < |a| => a[i] + b[i])
  }

  lemma {:induction false} SumAdd(a: seq<int>, b: seq<int>)
    requires |a| == |b|
    ensures Sum(Add(a, b)) == Sum(a) + Sum(b)
  {
    if |a| > 0 {
      assert Add(a, b)[1..] == Add(a[1..], b[1..]);
      SumAdd(a[1..], b[1..]);
    }
  }

  lemma {:induction false} TallyCons<T, K>(x: T, xs: seq<T>, key: T -> K, val: T -> int, ks: seq<K>)
    ensures Tally([x] + xs, key, val, ks) == Add(Share(x, key, val, ks), Tally(xs, key, val, ks))
  {
    var l := Tally([x] + xs, key, val, ks);
    var rhs := Add(Share(x, key, val, ks), Tally(xs, key, val, ks));
    assert ([x] + xs)[1..] == xs;
    forall i | 0 <= i < |ks| ensures l[i] == rhs[i] {
      ShareAt(x, key, val, ks, i);
    }
  }

  lemma {:induction false} ShareAt<T, K>(x: T, key: T -> K, val: T -> int, ks: seq<K>, i: int)
    requires 0 <= i < |ks|
    ensures Share(x, key, val, ks)[i] == if key(x) == ks[i] then val(x) else 0
  {
    if i > 0 {
      ShareAt(x, key, val, ks[1..], i - 1);
    }
  }

  /**
   * Summing the per-key subtotals over a duplicate-free list of keys that
   * covers every element gives the overall sum: no element is lost and none
   * is counted twice.
   */
  lemma {:induction false} PartitionSum<T, K>(xs: seq<T>, key: T -> K, val: T -> int, ks: seq<K>)
    requires Distinct(ks)
    requires forall x :: x in xs ==> key(x) in ks
    ensures Sum(Tally(xs, key, val, ks)) == SumOf(xs, val)
  {
    if |xs| == 0 {
      ZeroTally(xs, key, val, ks);
    } else {
      var x, rest := xs[0], xs[1..];
      assert xs == [x] + rest;
      TallyCons(x, rest, key, val, ks);
      SumAdd(Share(x, key, val, ks), Tally(rest, key, val, ks));
      ShareOnce(x, key, val, ks);
      forall y | y in rest ensures key(y) in ks {
        assert y in xs;
      }
      PartitionSum(rest, key, val, ks);
    }
  }

  lemma {:induction false} ZeroTally<T, K>(xs: seq<T>, key: T -> K, val: T -> int, ks: seq<K>)
    requires |xs| == 0
    ensures Sum(Tally(xs, key, val, ks)) == 0
  {
    if |ks| > 0 {
      ZeroTally(xs, key, val, ks[1..]);
    }
  }

  /** The sum of column `j` of a matrix whose rows are all wider than `j`. */
  function ColSum(m: seq<seq<int>>, j: nat): int
    requires forall i :: 0 <= i < |m| ==> j < |m[i]|
  {
    if |m| == 0 then 0 else m[0][j] + ColSum(m[1..], j)
  }

  /** All column sums of a matrix of width `w`. */
  function ColSums(m: seq<seq<int>>, w: nat): (r: seq<int>)
    requires forall i :: 0 <= i < |m| ==> |m[i]| == w
    ensures |r| == w
    ensures forall j :: 0 <= j < w ==> r[j] == ColSum(m, j)
  {
    seq(w, j requires 0 <= j < w => ColSum(m, j))
  }

  /** All row sums of a matrix. */
  function RowSums(m: seq<seq<int>>): (r: seq<int>)
    ensures |r| == |m| && forall i :: 0 <= i < |m| ==> r[i] == Sum(m[i])
  {
    seq(|m|, i requires 0 <= i < |m| => Sum(m[i]))
  }

  /** Summing a matrix row by row or column by column gives the same total. */
  lemma {:induction false} SumSwap(m: seq<seq<int>>, w: nat)
    requires forall i :: 0 <= i < |m| ==> |m[i]| == w
    ensures Sum(RowSums(m)) == Sum(ColSums(m, w))
  {
    if |m| == 0 {
      ZeroSum(ColSums(m, w));
    } else {
      var rest := m[1..];
      assert RowSums(m)[1..] == RowSums(rest);
      assert ColSums(m, w) == Add(m[0], ColSums(rest, w));
      SumAdd(m[0], ColSums(rest, w));
      SumSwap(rest, w);
    }
  }

  lemma {:induction false} ZeroSum(s: seq<int>)
    requires forall i :: 0 <= i < |s| ==> s[i] == 0
    ensures Sum(s) == 0
  {
    if |s| > 0 {
      ZeroSum(s[1..]);
    }
  }

  /** A sum of `val` over a sequence is the plain sum of the mapped values. */
  lemma {:induction false} SumOfAsSum<T>(xs: seq<T>, val: T -> int)
    ensures SumOf(xs, val) == Sum(seq(|xs|, i requires 0 <= i < |xs| => val(xs[i])))
  {
    if |xs| > 0 {
      var m := seq(|xs|, i requires 0 <= i < |xs| => val(xs[i]));
      assert m[1..] == seq(|xs| - 1, i requires 0 <= i < |xs| - 1 => val(xs[1..][i]));
      SumOfAsSum(xs[1..], val);
    }
  }

  /** Filtering by two keys gives the same elements in either order. */
  lemma {:induction false} FilterCommute<T, K1, K2>(xs: seq<T>, key1: T -> K1, k1: K1, key2: T -> K2, k2: K2)
    ensures Filter(Filter(xs, key1, k1), key2, k2) == Filter(Filter(xs, key2, k2), key1, k1)
  {
    if |xs| > 0 {
      FilterCommute(xs[1..], key1, k1, key2, k2);
      var x := xs[0];
      if key1(x) == k1 {
        assert ([x] + Filter(xs[1..], key1, k1))[1..] == Filter(xs[1..], key1, k1);
      }
      if key2(x) == k2 {
        assert ([x] + Filter(xs[1..], key2, k2))[1..] == Filter(xs[1..], key2, k2);
      }
    }
  }

  function One<T>(x: T): int
  {
    1
  }

  /** Summing 1 per element counts the elements. */
  lemma {:induction false} SumOfOne<T>(xs: seq<T>)
    ensures SumOf(xs, One) == |xs|
  {
    if |xs| > 0 {
      SumOfOne(xs[1..]);
    }
  }

  /** Sum of `val` over a concatenation. */
  lemma {:induction false} SumOfAppend<T>(xs: seq<T>, ys: seq<T>, val: T -> int)
    ensures SumOf(xs + ys, val) == SumOf(xs, val) + SumOf(ys, val)
  {
    if |xs| == 0 {
      assert xs + ys == ys;
    } else {
      assert (xs + ys)[1..] == xs[1..] + ys;
      SumOfAppend(xs[1..], ys, val);
    }
  }
}

=== FILE: text.dfy ===
/**
 * Text helpers the warehouse relies on: decimal rendering of naturals (what
 * CAST(... AS TEXT) and "%d"-style formatting produce), zero padding (what
 * strftime's "%m" and "%d" produce), Python's int() on a string, str.split
 * on one separator character, and str.replace of one character by another.
 */
module Text {
  import opened Wrappers

  predicate IsDigit(c: char)
  {
    '0' <= c <= '9'
  }

  predicate AllDigits(s: string)
  {
    forall i :: 0 <= i < |s| ==> IsDigit(s[i])
  }

  function DigitChar(d: nat): (c: char)
    requires d < 10
    ensures IsDigit(c)
  {
    ('0' as int + d) as char
  }

  function DigitValue(c: char): (d: nat)
    requires IsDigit(c)
    ensures d < 10
  {
    c as int - '0' as int
  }

  /** The decimal digits of `n`, most significant first, without leading zeros. */
  function NatText(n: nat): (s: string)
    ensures 1 <= |s| && AllDigits(s)
    ensures |s| > 1 ==> s[0] != '0'
  {
    if n < 10 then [DigitChar(n)] else NatText(n / 10) + [DigitChar(n % 10)]
  }

  /** The number a string of decimal digits denotes; leading zeros are allowed. */
  function DigitsValue(s: string): nat
    requires AllDigits(s)
  {
    if |s| == 0 then 0 else 10 * DigitsValue(s[..|s| - 1]) + DigitValue(s[|s| - 1])
  }

  /** Python's str() of an integer: a minus sign for negatives, then the decimal digits. */
  function IntText(n: int): (s: string)
    ensures |s| >= 1
  {
    if n < 0 then "-" + NatText(-n) else NatText(n)
  }

  /** Reading back the digits of `n` gives `n`. */
  lemma {:induction false} NatTextValue(n: nat)
    ensures DigitsValue(NatText(n)) == n
  {
    if n >= 10 {
      var s := NatText(n);
      assert s[..|s| - 1] == NatText(n / 10);
      NatTextValue(n / 10);
    }
  }

  /** Decimal rendering is injective: distinct numbers print differently. */
  lemma NatTextInjective(m: nat, n: nat)
    ensures NatText(m) == NatText(n) ==> m == n
  {
    NatTextValue(m);
    NatTextValue(n);
  }

  /** `n` zero characters. */
  function Zeros(n: nat): (z: string)
    ensures |z| == n && AllDigits(z)
  {
    seq(n, i => '0')
  }

  /** `s` left-padded with '0' to at least `width` characters, as strftime pads "%m" and "%d". */
  function ZeroPad(s: string, width: nat): (r: string)
    ensures |r| == if |s| < width then width else |s|
    ensures r[|r| - |s|..] == s
    ensures forall i :: 0 <= i < |r| - |s| ==> r[i] == '0'
  {
    if |s| < width then Zeros(width - |s|) + s else s
  }

  /** The whitespace Python's int() ignores around a number: the characters str.isspace() accepts. */
  predicate IsSpace(c: char)
  {
    || c == ' ' || '\t' <= c <= '\r' || '\U{1C}' <= c <= '\U{1F}' || c == '\U{85}' || c == '\U{A0}'
    || c == '\U{1680}' || '\U{2000}' <= c <= '\U{200A}' || c == '\U{2028}' || c == '\U{2029}'
    || c == '\U{202F}' || c == '\U{205F}' || c == '\U{3000}'
  }

  /** `s` without leading and trailing whitespace. */
  function Strip(s: string): (r: string)
    ensures |r| <= |s|
    ensures |r| > 0 ==> !IsSpace(r[0]) && !IsSpace(r[|r| - 1])
  {
    if |s| > 0 && IsSpace(s[0]) then Strip(s[1..])
    else if |s| > 0 && IsSpace(s[|s| - 1]) then Strip(s[..|s| - 1])
    else s
  }

  /** `s` with every underscore removed. */
  function DropUnderscores(s: string): (r: string)
    ensures |r| <= |s|
  {
    if |s| == 0 then []
    else if s[0] == '_' then DropUnderscores(s[1..])
    else [s[0]] + DropUnderscores(s[1..])
  }

  /**
   * Python's decimal literal body: digits, with single underscores allowed
   * only between two digits.
   */
  predicate IsDigitGroupText(s: string)
  {
    && |s| > 0
    && IsDigit(s[0]) && IsDigit(s[|s| - 1])
    && (forall i :: 0 <= i < |s| ==> IsDigit(s[i]) || s[i] == '_')
    && (forall i :: 0 <= i < |s| - 1 && s[i] == '_' ==> s[i + 1] != '_')
  }

  lemma {:induction false} DropUnderscoresDigits(s: string)
    requires forall i :: 0 <= i < |s| ==> IsDigit(s[i]) || s[i] == '_'
    ensures AllDigits(DropUnderscores(s))
  {
    if |s| > 0 {
      DropUnderscoresDigits(s[1..]);
    }
  }

  /**
   * Python's int() applied to a string, for ASCII input: surrounding
   * whitespace is ignored, one optional sign, then a decimal digit group.
   * Anything else raises ValueError, modelled as None.
   */
  function ParseInt(s: string): (r: Option<int>)
    ensures r.Some? ==> |Strip(s)| > 0
  {
    var t := Strip(s);
    if |t| > 0 && (t[0] == '+' || t[0] == '-') then
      var body := t[1..];
      if IsDigitGroupText(body) then
        DropUnderscoresDigits(body);
        var v := DigitsValue(DropUnderscores(body));
        Some(if t[0] == '-' then -(v as int) else v)
      else None
    else if IsDigitGroupText(t) then
      DropUnderscoresDigits(t);
      Some(DigitsValue(DropUnderscores(t)))
    else None
  }

  lemma {:induction false} NoUnderscoresKept(s: string)
    requires AllDigits(s)
    ensures DropUnderscores(s) == s
  {
    if |s| > 0 {
      NoUnderscoresKept(s[1..]);
      assert s == [s[0]] + s[1..];
    }
  }

  lemma {:induction false} StripNoSpace(s: string)
    requires |s| > 0 && !IsSpace(s[0]) && !IsSpace(s[|s| - 1])
    ensures Strip(s) == s
  {
  }

  /** int() reads back what decimal rendering wrote, with or without zero padding. */
  lemma ParseIntRoundTrip(n: nat, width: nat)
    ensures ParseInt(ZeroPad(NatText(n), width)) == Some(n)
  {
    var d := NatText(n);
    LeadingZerosValue(d, width);
    NatTextValue(n);
    ParseDigits(ZeroPad(d, width));
  }

  /** int() reads back the plain decimal text of a natural. */
  lemma ParseNatText(n: nat)
    ensures ParseInt(NatText(n)) == Some(n)
  {
    NatTextValue(n);
    ParseDigits(NatText(n));
  }

  /** int() of a non-empty run of decimal digits is the number they denote. */
  lemma ParseDigits(s: string)
    requires |s| > 0 && AllDigits(s)
    ensures ParseInt(s) == Some(DigitsValue(s))
  {
    assert IsDigit(s[0]) && IsDigit(s[|s| - 1]);
    StripNoSpace(s);
    assert IsDigitGroupText(s);
    NoUnderscoresKept(s);
  }

  /** Leading zeros do not change the value of a digit string. */
  lemma LeadingZerosValue(s: string, width: nat)
    requires AllDigits(s)
    ensures AllDigits(ZeroPad(s, width)) && DigitsValue(ZeroPad(s, width)) == DigitsValue(s)
  {
    if |s| < width {
      ZerosValue(width - |s|);
      DigitsValueAppend(Zeros(width - |s|), s);
    }
  }

  lemma {:induction false} ZerosValue(n: nat)
    ensures DigitsValue(Zeros(n)) == 0
  {
    if n > 0 {
      assert Zeros(n)[..n - 1] == Zeros(n - 1);
      ZerosValue(n - 1);
    }
  }

  /** Python's str.split(sep): the pieces between occurrences of `sep`; there is always one more piece than separators. */
  function Split(s: string, sep: char): (parts: seq<string>)
    ensures |parts| >= 1
    ensures forall i :: 0 <= i < |parts| ==> sep !in parts[i]
  {
    if |s| == 0 then [""]
    else
      var rest := Split(s[1..], sep);
      if s[0] == sep then [""] + rest
      else [[s[0]] + rest[0]] + rest[1..]
  }

  /** Joining pieces with `sep` between them, the inverse of Split. */
  function Join(parts: seq<string>, sep: char): string
  {
    if |parts| == 0 then ""
    else if |parts| == 1 then parts[0]
    else parts[0] + [sep] + Join(parts[1..], sep)
  }

  /** Splitting loses nothing: joining the pieces back gives the original text. */
  lemma {:induction false} SplitJoin(s: string, sep: char)
    ensures Join(Split(s, sep), sep) == s
  {
    if |s| > 0 {
      var rest := Split(s[1..], sep);
      SplitJoin(s[1..], sep);
      if s[0] == sep {
        assert ([""] + rest)[1..] == rest;
      } else {
        var parts := [[s[0]] + rest[0]] + rest[1..];
        if |rest| > 1 {
          assert parts[1..] == rest[1..];
          assert Join(rest, sep) == rest[0] + [sep] + Join(rest[1..], sep);
        }
      }
    }
  }

  /** Text without the separator splits into itself alone. */
  lemma {:induction false} SplitNoSep(s: string, sep: char)
    requires sep !in s
    ensures Split(s, sep) == [s]
  {
    if |s| > 0 {
      SplitNoSep(s[1..], sep);
      assert [s[0]] + s[1..] == s;
    }
  }

  /** Splitting at a separator preceded by separator-free text yields that text, then the pieces of the rest. */
  lemma {:induction false} SplitAppend(a: string, sep: char, b: string)
    requires sep !in a
    ensures Split(a + [sep] + b, sep) == [a] + Split(b, sep)
  {
    var s := a + [sep] + b;
    if |a| == 0 {
      assert s[1..] == b;
    } else {
      assert s[1..] == a[1..] + [sep] + b;
      SplitAppend(a[1..], sep, b);
      assert [a[0]] + a[1..] == a;
    }
  }

  /** Splitting text joined at a separator gives the pieces of each side. */
  lemma {:induction false} SplitConcat(a: string, sep: char, b: string)
    ensures Split(a + [sep] + b, sep) == Split(a, sep) + Split(b, sep)
  {
    var s := a + [sep] + b;
    if |a| == 0 {
      assert s[1..] == b;
    } else {
      assert s[1..] == a[1..] + [sep] + b;
      SplitConcat(a[1..], sep, b);
    }
  }

  /** Three separator-free pieces joined by the separator split back into those pieces. */
  lemma {:induction false} SplitThree(a: string, b: string, c: string, sep: char)
    requires sep !in a && sep !in b && sep !in c
    ensures Split(a + [sep] + b + [sep] + c, sep) == [a, b, c]
  {
    assert a + [sep] + b + [sep] + c == a + [sep] + (b + [sep] + c);
    SplitAppend(a, sep, b + [sep] + c);
    SplitAppend(b, sep, c);
    SplitNoSep(c, sep);
  }

  lemma DigitsExclude(s: string, c: char)
    requires AllDigits(s) && !IsDigit(c)
    ensures c !in s
  {
  }

  function Pow10(n: nat): (r: nat)
    ensures r >= 1
  {
    if n == 0 then 1 else 10 * Pow10(n - 1)
  }

  lemma MulAssoc(x: int, p: int)
    ensures 10 * (x * p) == x * (10 * p)
  {
  }

  /** The value of a concatenation of digit strings: the first part shifted by the second's length. */
  lemma {:induction false} DigitsValueAppend(a: string, b: string)
    requires AllDigits(a) && AllDigits(b)
    ensures AllDigits(a + b)
    ensures DigitsValue(a + b) == DigitsValue(a) * Pow10(|b|) + DigitsValue(b)
    decreases |b|
  {
    if |b| == 0 {
      assert a + b == a;
    } else {
      var c := a + b;
      var front := b[..|b| - 1];
      assert c[..|c| - 1] == a + front;
      assert c[|c| - 1] == b[|b| - 1];
      DigitsValueAppend(a, front);
      var va, vf, p := DigitsValue(a), DigitsValue(front), Pow10(|front|);
      assert DigitsValue(c) == 10 * (va * p + vf) + DigitValue(b[|b| - 1]);
      assert 10 * (va * p) == va * (10 * p) by {
        MulAssoc(va, p);
      }
      assert Pow10(|b|) == 10 * p;
    }
  }

  /** Numbers below 10 take one digit, numbers below 100 at most two. */
  lemma NatTextShort(n: nat)
    ensures n < 10 ==> |NatText(n)| == 1
    ensures n < 100 ==> |NatText(n)| <= 2
  {
  }

  /** Python's str.replace(a, b) for single characters. */
  function ReplaceChar(s: string, a: char, b: char): (r: string)
    ensures |r| == |s|
    ensures forall i :: 0 <= i < |s| ==> r[i] == if s[i] == a then b else s[i]
  {
    seq(|s|, i requires 0 <= i < |s| => if s[i] == a then b else s[i])
  }
}

=== FILE: wrappers.dfy ===
/** Option and Result, the two failure-carrying shapes the rest of the model returns. */
module Wrappers {

  /** A value that may be absent: SQL NULL, a missing dictionary key, an inactive filter. */
  datatype Option<+T> = None | Some(value: T)

  /** Either a computed value or the error the Python code raises instead of computing it. */
  datatype Result<+R, +E> = Success(value: R) | Failure(error: E)
}
